=== FILE: README.md ===
# tgbot-group core in Dafny

This project models the deterministic core of a Telegram bot. The bot keeps a moderated
directory of member profiles and takes abuse reports. The model covers the following, one
Dafny module per Python file:

- **Input rules** (`Validators`, `Config`, `Utils`):
  - profile-text, username and age validation;
  - whitespace and URL sanitising and the spam ratio;
  - parsing of the admin-id list;
  - the exact part of the free-text profile parser;
  - the profile card renderer with HTML escaping.
- **The store** (`Store`, for `db.py`): the `profiles` and `reports` tables.
  - Rows are kept in rowid order, together with the AUTOINCREMENT counters.
  - `username` is UNIQUE, compared byte for byte.
  - The listing is ordered by username with COLLATE NOCASE.
  - Every UPDATE and DELETE says whether a row matched.
- **The profile cache** (`Cache`): profiles and write times keyed by id, in insertion order.
  An entry expires once it is strictly older than the time-to-live.
- **The rate limiter and the retry schedule** (`RateLimiter`):
  - a per-user sliding window of request times;
  - the Telegram retry loop, as a function from the answer of each attempt to the ending,
    the list of sleeps and the number of calls.
- **The keyboards** (`Keyboards`): rows of `(label, payload)` buttons, the presence rules of
  the buttons, and the decoding the callback handlers apply to the payloads.
- **The moderation and report handlers** (`Handlers`): each handler is a pure function from
  (store, session, actor, input) to (store, session, reply kind, chats notified, next state).

`Wrappers` holds `Option` and `Entry`. `Entry` marks a dictionary key as absent, or present
with a possibly-`None` value. `Chars` holds the Python string primitives the core relies on:
`str.strip`, `split`, `join`, `lower`, `int()`, `str(int)` and the `\d`/`\w`/`\b` classes of `re`.
Like Python, `int()` and `\d` accept the decimal digits of every script: the 68 runs of ten
in Unicode 15.0 and 15.1, the tables of Python 3.12 and 3.13, which have the same runs. Like
Python 3.11 and later, `int()` refuses a decimal string of more than 4300 digits, the default
`sys.int_max_str_digits`. Leading zeros count towards the limit; the sign, underscores and
surrounding whitespace do not. `str(n)` is refused for the same sizes, so the round trips
through `str()` are stated for numbers of at most 4300 digits.

Clocks are parameters. Cache and limiter times are integers in microseconds, the resolution of
`timedelta`. Time stamps that are only stored (`added_at`, `created_at`) are opaque strings.
Replies are abstract kinds, not the Russian message texts.

Where the project documentation and the code disagree, the model follows the code:

- **No single-review guard.** A review overwrites the status whatever it was.
- **Rejected profiles stay.** `reject` keeps the row, with status `'rejected'`.
- **Confirming refuses any duplicate.** A username held by a profile of any status is refused.
- **Deleting needs no admin.** `delete_profile_confirm_cb` does not check the caller.
- **The preview stays after confirming.** A successful confirmation keeps the preview in the
  session.
- **The report category is never cleared.** It stays after a report is filed.
- **Usernames are unique case-sensitively.** The UNIQUE constraint compares bytes.
- **Two age ranges.** The age step of the new-profile flow accepts 8..99, while
  `validate_age` accepts 10..120.

## Model

| member | source | states |
|---|---|---|
| Chars.IsDigitRuns | utils.py:9 | A character is a decimal digit (`\d`, and a digit for `int()`) iff it lies in one of the 68 runs of ten |
| Chars.DigitValueInRun | config.py:35 | A digit's value is its distance from the zero of its own run |
| Chars.ParseIntOtherScripts | config.py:35 | `int()` reads "١٦" and "1٦" as 16, and the fullwidth '６' is a digit of value 6 |
| Chars.ParseIntTooLong | config.py:35 | A string of more than 4300 digits, with or without a sign and surrounding whitespace, is refused by `int()` |
| Chars.ParseIntToString | keyboards.py:88-89 | `int(str(n)) == n` for every integer whose `str()` has at most 4300 digits |
| Config.AdminPieces | config.py:29-31 | An unset or empty value has no pieces; every piece is non-empty and has no surrounding whitespace |
| Config.ParseAdminIds | config.py:28-38 | An unset or empty value gives no ids; there is never more than one id per non-empty piece, since a piece `int()` refuses (not an integer, or more than 4300 digits) is skipped |
| Config.ParseAdminIdsSound | config.py:32-38 | Every id returned is the `int()` value of one of the pieces |
| Config.KeepIntsAll | config.py:32-38 | When every piece parses, none is dropped and the ids follow the pieces' order |
| Config.ParseAdminIdsPiece | config.py:33-37 | A piece that `int()` rejects, more than 4300 digits included, is skipped without error; an accepted piece yields exactly its value |
| Config.ParseAdminIdsTooLong | config.py:33-37 | A value of more than 4300 digits gives no ids: `int()` raises and the piece is skipped |
| Config.ParseAdminIdsAppend | config.py:31-38 | The ids of two comma-joined lists are the first list's ids followed by the second's, so order is kept and duplicates stay |
| Config.ParseAdminIdsDuplicates | config.py:31-38 | An id listed twice is returned twice, for every id whose `str()` exists (at most 4300 digits) |
| Config.TwoIds | config.py:31-38 | Two decimal ids of at most 4300 digits joined by a comma parse to exactly those two ids, in order |
| Config.DefaultAdminIdsParse | config.py:43 | The default ADMIN_IDS value yields exactly 5858124063 and then 1043991178 |
| Validators.AnyForbidden | validators.py:44-46 | The scan reports a hit iff some pattern of the list occurs somewhere in the text |
| Validators.ValidateProfileText | validators.py:24-48 | Empty text is the empty error. Otherwise the stripped length below 10 or above 5000 is refused, and so is a forbidden pattern in the lower-cased text; anything else is valid (each verdict as an iff) |
| Validators.BlankTextTooShort | validators.py:31-37 | Non-empty whitespace-only text is refused as too short, not as empty |
| Validators.ValidateProfileTextStrip | validators.py:34 | Surrounding whitespace never changes the verdict on text that is not blank |
| Validators.ForbiddenWordRefused | validators.py:43-46 | A text of acceptable length that contains "SPAM" in capitals is refused, because the check runs on the lower-cased text |
| Validators.Collapse | validators.py:71 | After the whitespace substitution, every whitespace character is a plain space, no two are adjacent, and the first character is whitespace iff the input's is; that each run becomes exactly one space is Validators.CollapseJoin |
| Validators.CollapseJoin | validators.py:71 | A whitespace run between two words, or at either end, becomes exactly one space, and each side collapses as it would alone |
| Validators.CollapseAppend | validators.py:71 | Once a text ends in a non-space, what follows it collapses on its own: the collapse of the whole is the two collapses concatenated |
| Validators.CollapseNoSpace | validators.py:71 | Text without whitespace is left unchanged |
| Validators.CollapseKeepsWords | validators.py:71 | The substitution keeps every non-whitespace character, in order |
| Validators.CollapseCanonical | validators.py:71 | Text that is already canonical is left unchanged |
| Validators.UrlRun | validators.py:19-21 | The run after the scheme is the longest prefix of URL characters |
| Validators.ReplaceUrlsIdentity | validators.py:68 | The URL substitution leaves the text unchanged iff no URL match starts anywhere in it |
| Validators.ReplaceUrlsMatch | validators.py:19-21 | A scheme followed by a maximal, non-empty run of URL characters becomes one "[ссылка]" |
| Validators.SanitizeText | validators.py:51-73 | Empty input gives ""; the result has no whitespace at either end, and its only whitespace is single spaces; Validators.SanitizeJoin states where they come from |
| Validators.SanitizeJoin | validators.py:62-73 | Two trimmed texts joined by any non-empty whitespace run sanitise to the two sanitised texts joined by exactly one space |
| Validators.SanitizeNoSpace | validators.py:62-73 | Non-blank text without whitespace sanitises to itself when URLs are kept |
| Validators.SanitizeKeepsWords | validators.py:65-71 | Without URL removal, sanitising keeps every non-whitespace character, in order |
| Validators.SanitizeIdempotent | validators.py:62-73 | Without URL removal, sanitising twice is sanitising once |
| Validators.SanitizeNoUrl | validators.py:67-68 | Text without a URL sanitises the same with URL removal on or off |
| Validators.SanitizeTrailingLink | validators.py:65-71 | Text ending in an https URL, with no scheme before it, sanitises to the text with the URL replaced by the mark |
| Validators.SanitizeLinkSample | validators.py:67-68 | "Check this link: https://evil.com/malware" becomes "Check this link: [ссылка]" |
| Validators.DropAts | validators.py:87 | Every leading '@' is removed and nothing else; the rest is a suffix that does not start with '@' |
| Validators.ValidateUsernameAsWritten | validators.py:76-96 | The code as written, each verdict as an iff. Empty input is the empty error. The length error holds iff 5..32 characters do not remain after dropping the '@'s. The character error holds iff the length is right but the `$`-anchored match fails. Valid holds iff neither error does |
| Validators.ValidateUsername | validators.py:76-96 | The corrected rule: empty input iff the empty error |
| Validators.ValidateUsernameChar | validators.py:83-96 | The corrected rule accepts exactly some '@'s followed by 5 to 32 letters, digits or underscores |
| Validators.ValidateUsernameAt | validators.py:87 | An extra leading '@' never changes the verdict on a non-empty username |
| Validators.ValidateUsernameAsWrittenWeaker | validators.py:93 | Whatever the corrected rule accepts, the code as written accepts too |
| Validators.TrailingNewline | validators.py:93 | The code as written accepts a 4..31-character name followed by a newline; the corrected rule refuses it |
| Validators.ValidateUsernameNewline | validators.py:90-93 | "abcd\n" passes the code as written, although only four real characters remain; the corrected rule refuses it |
| Validators.UsernameSamples | validators.py:89-96 | "testuser123" is valid and "abc" is refused for its length |
| Validators.AgeValue | validators.py:106-108 | A number is taken as it is; a value that is neither a number nor a string gives no number |
| Validators.ValidateAge | validators.py:99-118 | Valid iff there is an integer value in 10..120; the not-a-number error iff `int()` fails (more than 4300 digits included) or the type is wrong |
| Validators.ValidateAgeText | validators.py:107-108 | An age given as its decimal text, padded with whitespace, is judged like the number itself, for every number whose `str()` exists (at most 4300 digits) |
| Validators.AgeTooManyDigits | validators.py:106-118 | More than 4300 digits, padded or not, are not a number, rather than too old |
| Validators.AgeSamples | validators.py:110-118 | 16 is valid, 5 is too young, 121 is too old, and "abc" is not a number |
| Validators.AgeOtherScripts | validators.py:106-118 | An age written in Arabic-Indic digits, " ١٦ ", is read by `int()` as 16 and is valid |
| Validators.SanitizeValue | validators.py:134-143 | Non-string values, `None` included, are unchanged. The note becomes exactly its strip; any other string becomes its sanitised form without URL removal; either way no whitespace surrounds it |
| Validators.SanitizeProfileData | validators.py:121-145 | The key set is unchanged and non-string values are unchanged. The note becomes exactly its strip; every other string becomes its sanitised form without URL removal, and all are trimmed |
| Validators.SanitizeNoteLines | validators.py:137-141 | The note is exactly its strip: character for character the input past its leading whitespace, inner line breaks included, with the same words. Every other string ends up without a line break |
| Validators.SanitizeProfileDataIdempotent | validators.py:121-145 | Sanitising a profile dictionary twice is sanitising it once |
| Validators.IsSpam | validators.py:148-167 | False below five characters. Otherwise true iff the number of capitals plus the number of non-alphanumeric, non-space characters exceeds threshold × length; the two counts are taken separately, as in the source |
| Validators.CapNotSpecial | validators.py:164-165 | No character this model knows is both a capital and special, so none is counted twice |
| Validators.CountedOnce | validators.py:164-167 | When no character is both a capital and special, the two counts together are at most the length |
| Validators.IsSpamMonotone | validators.py:165-167 | Spam at a higher threshold is spam at any lower one |
| Validators.IsSpamNever | validators.py:162-167 | With a threshold of 1 or more nothing is spam over the modelled characters, since none of them is counted twice |
| Validators.SpamByPrefix | validators.py:162-167 | A text that opens with enough flagged characters is spam, whatever follows |
| Validators.SpamSample | validators.py:162-167 | "XXXXXX!!!!!!@@@@@  SPAM SPAM SPAM" is spam at the default threshold 0.5 |
| Utils.AgeMatchAt | utils.py:9 | The age pattern matches at a position iff one or two digits stand there between word boundaries, and the value is those digits. Two digits never start with '0'. After '1'..'7' the second may be any decimal digit (`\d`); after '8' or '9' it must be ASCII (`[0-9]`) |
| Utils.FirstAgeFrom | utils.py:21 | The search returns the first position with a match, and there is none before it |
| Utils.ParsedAge | utils.py:20-25 | An age is recorded iff the first standalone number is at least 8; the age is that number and lies in 8..99 |
| Utils.FirstAgeUnique | utils.py:9 | There is only one first match, and no match is above 99 |
| Utils.AgeSamples | utils.py:20-25 | "мне 15" gives 15; "100" gives nothing; in "5, 16" only the first number counts, so there is no age |
| Utils.AgeOtherScripts | utils.py:9-25 | A lone Arabic-Indic nine is the age 9; "7٩" is 79, since `[1-7]\d` takes any digit; "8٩" gives nothing, since `[8-9][0-9]` does not take it and no word boundary follows the 8 |
| Utils.FirstMention | utils.py:45 | The search returns the first '@' followed by a username character, with none before it |
| Utils.ParsedUsername | utils.py:44-47 | A username is found iff some '@' is followed by a username character; it is 1..32 such characters |
| Utils.ParsedUsernameAfter | utils.py:45-47 | Text without '@', then '@' and a username that the next character does not extend, yields exactly that username |
| Utils.ParsedLanguages | utils.py:38-42 | Languages are set iff the text has a comma and at least two non-blank trimmed pieces |
| Utils.ParsedLanguagesJoin | utils.py:39-42 | Comma-joined trimmed names come back joined with ", ", the first five of them |
| Utils.ParsedNote | utils.py:68-72 | The note is a prefix of the text and at most 400 long: the whole text up to 200 characters, otherwise its first 400 |
| Utils.ParseProfileText | utils.py:13-81 | `need` holds 'age' iff no age was found and 'username' iff no username was found, in that order; the fields are the parsed age, username, languages and note |
| Utils.Escape | utils.py:97-100 | No '<', '>', '"' or "'" survives escaping, and nothing gets shorter |
| Utils.EscapeRoundTrip | utils.py:100 | HTML-unescaping the escaped text gives the original back |
| Utils.EscapePlain | utils.py:100 | Text without markup characters and '&' is left as it is |
| Utils.FieldLines | utils.py:108-130 | A field line is present iff the card shows that field, and it carries the shown value |
| Utils.Card | utils.py:102-106 | The first line is always the username line: the escaped username, or the no-username line when it is falsy |
| Utils.CardShows | utils.py:108-130 | A line for a field is in the card exactly when that field is shown, with that value |
| Utils.CardFields | utils.py:108-130 | Each field line appears iff the field is truthy (the age: not `None`), and it shows the HTML-escaped value |
| Utils.CardOrder | utils.py:102-140 | The lines come in the fixed order: user, name, age, country, city, timezone, languages, note header, note lines |
| Utils.CardNote | utils.py:132-138 | The card ends with the note section of the escaped, stripped note: a header plus one line per '\n' piece, or nothing when the note strips to nothing |
| Utils.NoteLinesJoin | utils.py:138-140 | Joining the note lines with '\n' gives back the escaped, stripped note |
| Store.GetProfileByUsername | db.py:195-202 | The row found has exactly this username (BINARY comparison); none is found iff no row has it; in a valid store it is the only such row |
| Store.GetProfileById | db.py:205-212 | The row found has this id; none is found iff no row has it; in a valid store it is the only such row |
| Store.FindOwnRow | db.py:32-34 | In a valid table, every row is found again by its own id and by its own username |
| Store.AddProfile | db.py:151-179 | Refused for a missing, NULL or taken username (taken iff some row has it). Otherwise one row is appended with the draft's content, the caller's status or else 'approved' for 'seed' and 'pending' for anyone else, `added_by` defaulting to 'user', and an id above every existing one |
| Store.AddProfileThenGet | db.py:176-179 | The inserted row is found again by the returned id and by its username |
| Store.PendingThenApproved | db.py:156 | A user's draft is stored as 'pending'; approving it by id succeeds and leaves it 'approved' |
| Store.LexLeTotal | db.py:187-189 | The code-point order compares any two usernames |
| Store.LexLeTrans | db.py:187-189 | The code-point order is transitive |
| Store.LexLeAntisymmetric | db.py:187-189 | Two usernames each at most the other are equal |
| Store.SortedAllPairs | db.py:187-189 | Order between neighbours gives order between any two rows |
| Store.InsertByName | db.py:187-189 | Inserting into a sorted list keeps it sorted and adds exactly that row |
| Store.SortByName | db.py:187-189 | The sorted rows are a permutation of the input, in NOCASE order |
| Store.WithStatus | db.py:186-187 | Each row is kept, as often as it occurs, iff its status is the one asked for |
| Store.GetAllProfiles | db.py:182-192 | The listing is in NOCASE username order and is a permutation of the rows the status filter admits (every row when the status is falsy) |
| Store.GetAllProfilesListing | db.py:182-192 | A row is listed iff it is in the table and passes the status filter; any two listed rows are in NOCASE order |
| Store.UpdateProfileStatusById | db.py:219-227 | True iff a row has this id; only that row's status changes, whatever it was before, and every other row is untouched |
| Store.StatusUpdateThenGet | db.py:219-227 | After the update, looking the id up gives the old row with only its status replaced |
| Store.ApplyPatchLaws | db.py:230-242 | An empty patch changes nothing; applying a patch twice is applying it once; a patched column takes the patch's value |
| Store.UpdateProfile | db.py:230-246 | An empty patch returns false and changes nothing. Otherwise it is true iff the username exists, only that row's patched columns change, and every other row is untouched |
| Store.Without | db.py:253 | The remaining rows are exactly those with another username |
| Store.WithoutValid | db.py:249-257 | Deleting rows keeps ids increasing and usernames unique |
| Store.DeleteProfile | db.py:249-257 | True iff the username existed; afterwards no row has it, every other row remains, and the reports are untouched |
| Store.AddReport | db.py:260-279 | A report always gets the next AUTOINCREMENT id, above every existing one; its columns are the draft's, with `created_at` defaulting to now |
| Store.GetReports | db.py:282-289 | Every report is listed once, newest (highest id) first |
| Store.AddReportListed | db.py:260-289 | The report just added is listed first, ahead of all the earlier ones |
| Store.ClearReports | db.py:292-301 | The reports table is emptied; the result is true iff it held something; the id counter survives |
| Store.ClearThenAddFresh | db.py:292-301 | Ids are not reused: a report added after clearing gets an id above every cleared one |
| Store.SeedFrom | db.py:126-146 | Seeding only appends rows, each 'approved', added by 'seed' and without a submitter id, and keeps the store valid |
| Store.SeedFromPresent | db.py:126-146 | After seeding, every seed username has a row |
| Store.SeedFromNoop | db.py:127-128 | When every seed username is present already, seeding changes nothing |
| Store.SeedProfiles | db.py:99-148 | After start-up seeding, all ten seed usernames have rows; the earlier rows are kept, and the new ones are 'approved' and added by 'seed' |
| Store.SeedProfilesTwice | db.py:126-128 | Running the seeding again, at any later time, is a no-op |
| Cache.Remove | cache_manager.py:100-107 | Deleting an id removes it from both maps and from the order and touches nothing else |
| Cache.Get | cache_manager.py:69-83 | A profile is returned iff it is present and not strictly older than the TTL; an expired entry is deleted; otherwise nothing changes |
| Cache.Set | cache_manager.py:85-90 | The profile and a fresh time stamp are stored under the id, nothing else in either map changes, and the two maps keep equal key sets. A new id goes to the end of the insertion order; an existing one keeps its place. The TTL is unchanged |
| Cache.Update | cache_manager.py:92-98 | A present entry gets the changes merged in and a fresh stamp; an absent id leaves the cache unchanged |
| Cache.Invalidate | cache_manager.py:100-107 | The id is in neither map afterwards. Every other key stays in both maps with its profile and its stamp, and the TTL is unchanged |
| Cache.InvalidateAll | cache_manager.py:109-114 | Both maps are emptied |
| Cache.Exists | cache_manager.py:139-141 | True iff `get` would return the profile, with the same deletion of an expired entry |
| Cache.ExpiredIds | cache_manager.py:122-127 | An id is collected iff it is listed and expired |
| Cache.RemoveAll | cache_manager.py:131-135 | Exactly the listed ids leave both maps; the other entries keep their values and stamps |
| Cache.GetAll | cache_manager.py:116-137 | The result is the live profiles in insertion order; exactly the expired entries are deleted; the cache stays consistent |
| Cache.SetThenGet | cache_manager.py:69-90 | A profile set at t is returned by `get` at any time up to TTL seconds later, the boundary included |
| Cache.SetThenGetExpired | cache_manager.py:76-81 | Strictly more than TTL seconds after `set`, `get` returns nothing and removes the entry from both maps |
| Cache.InvalidateThenGet | cache_manager.py:100-107 | After `invalidate`, `get` finds nothing and changes nothing |
| Cache.UpdateThenGet | cache_manager.py:92-97 | An update of a present entry is seen by the next `get` within the TTL, with the changes merged in |
| Cache.LiveAreFound | cache_manager.py:116-137 | Every profile `get_all` returns is one that `get` would return at the same time |
| Cache.LiveCount | cache_manager.py:116-137 | The profiles returned plus the ids pruned add up to the size of the cache |
| RateLimiter.NewLimiter | rate_limiter.py:22-30 | A missing or zero `max_rate` falls back to the configured rate; the window is as given and every history starts empty |
| RateLimiter.Prune | rate_limiter.py:38-41 | Pruning never grows the list and keeps it whole when every time is after the cutoff |
| RateLimiter.PruneMembers | rate_limiter.py:38-41 | A time survives pruning iff it was recorded and is strictly after the cutoff |
| RateLimiter.IsAllowed | rate_limiter.py:32-49 | Allowed iff fewer than `max_rate` times remain in the window. The caller's history becomes the window, plus now when allowed; a refusal records nothing, and other users are untouched |
| RateLimiter.AllowedHolds | rate_limiter.py:34-48 | After a call, a time is in the caller's history iff it was recorded and is in the window, or it is now and the call was allowed |
| RateLimiter.WindowBounded | rate_limiter.py:44-49 | If no history holds more than `max_rate` times, none does after a call |
| RateLimiter.ResetTime | rate_limiter.py:51-62 | 0 iff nothing is recorded or the oldest time plus the period is not after now; otherwise the truncated whole seconds left plus one, so at least 1 |
| RateLimiter.BurstWithinWindow | rate_limiter.py:32-49 | For calls within one period from an empty history, exactly the first `max_rate` are allowed and recorded, and every later one is refused |
| RateLimiter.DefaultBurst | rate_limiter.py:28 | With the default limiter, the first five of a quick burst are all allowed, and after fifteen calls within one second the sixteenth is refused |
| RateLimiter.RetryLoop | rate_limiter.py:93-121 | The loop ends on the first success or after all attempts; the sleeps match the reference schedule, and a raised error is the last plain failure or the generic one |
| RateLimiter.NextAttempt | rate_limiter.py:97-121 | One more attempt adds its own sleep (none for a success) and updates the last plain failure |
| RateLimiter.Retry | rate_limiter.py:69-123 | At most `max_retries` calls. It returns iff some attempt succeeds, and then the first success. Otherwise it raises the last non-RetryAfter error, or "Max retries exceeded". RetryAfter(n) sleeps n+1; another error sleeps backoff^attempt, but not after the last attempt |
| RateLimiter.SendWithRetry | rate_limiter.py:126-161 | Sending succeeds iff one of the three default attempts succeeds |
| RateLimiter.DefaultFailures | rate_limiter.py:106-123 | Three plain failures sleep 1 and then 2 seconds (none after the last) and raise the last error |
| RateLimiter.OnlyRetryAfter | rate_limiter.py:97-104 | RetryAfter answers of 5, 0 and 2 sleep 6, 1 and 3 seconds and end with "Max retries exceeded" |
| Keyboards.Argument | handlers.py:42 | `split(':', 1)[1]` exists iff the payload holds a ':' |
| Keyboards.ArgumentOf | handlers.py:42 | A tag without ':' and any argument decode to exactly that argument, even one holding ':' |
| Keyboards.UsersList | keyboards.py:19-26 | One single-button row per username, then the row of "back:add_new" and "back:menu" |
| Keyboards.UsersListViews | keyboards.py:20 | Row i is "@u" with payload "view:u" for the i-th username, and its payload decodes back to exactly that username |
| Keyboards.ProfileActions | keyboards.py:29-38 | "back:users" comes first. "edit:u" is present iff the viewer is an admin, or both ids are truthy and equal. "delete:u" is present iff the viewer is an admin, and it comes last |
| Keyboards.ProfileActionsVisitor | keyboards.py:32-37 | A non-admin who is not the known owner gets only "back:users" |
| Keyboards.ConfirmDelete | keyboards.py:41-45 | The confirmation payload "delete_confirm:u", then "back:users" |
| Keyboards.ConfirmDeleteTarget | keyboards.py:43 | The confirmation button decodes to the very username it names |
| Keyboards.ProfileMenu | keyboards.py:65-76 | "profile:edit_start" iff the user has a profile, else "profile:new_start", each followed by "back:menu" |
| Keyboards.AdminReview | keyboards.py:86-90 | "Accept" above "reject", both naming the profile id |
| Keyboards.ReviewPayloadSplit | keyboards.py:88-89 | A review payload splits at ':' into "review", the id's digits and the action |
| Handlers.ParseReview | handlers.py:578-588 | Malformed iff fewer than three ':' pieces; a bad id iff `int()` refuses the second piece (not an integer, or more than 4300 digits); otherwise that integer and the third piece |
| Handlers.ReviewPayloadParse | handlers.py:578-588 | Any review payload whose action has no ':' decodes to its own id and action, for every id whose `str()` exists |
| Handlers.ReviewIdAnyDigits | handlers.py:578-588 | Whatever script its digits use, an id piece that `int()` reads decodes to that id and the action, not to a bad id |
| Handlers.ReviewButtonsDecode | keyboards.py:86-90 | The two buttons of the review keyboard decode to the id they were made for, with "accept" and "reject", for every id whose `str()` exists |
| Handlers.Submitter | handlers.py:600-602 | The submitter is notified iff their id is known and non-zero |
| Handlers.ReviewCallback | handlers.py:570-620 | Anyone but the super-admin is denied and nothing changes. A malformed payload, a bad id or an unknown profile gets its error and no change. 'accept' and 'reject' set 'approved' and 'rejected' and notify the submitter; any other action changes nothing |
| Handlers.ReviewCommandApply | handlers.py:594-618 | Callback data that decodes to "accept" or "reject" for an existing profile sets 'approved' or 'rejected' on that row alone and replies with the outcome |
| Handlers.ReviewButtonsApply | handlers.py:594-618 | Pressing a review button of an existing profile leaves that row with only its status replaced, whatever the status was; there is no single-review guard |
| Handlers.ConfirmNew | handlers.py:256-286 | Without a preview nothing is stored. A username held by a profile of any status is refused, the preview is dropped and the store is unchanged. Otherwise the preview is stored as a new profile and the super-admin is notified |
| Handlers.ConfirmKeepsValid | handlers.py:264-273 | Confirming keeps the table valid: no username is duplicated |
| Handlers.CancelNew | handlers.py:289-293 | Only the preview is removed from the session |
| Handlers.CancelThenConfirm | handlers.py:259-262 | After cancelling, confirming stores nothing |
| Handlers.DropOneAt | handlers.py:169-170 | Exactly one leading '@' is removed |
| Handlers.DropOneAtOnce | handlers.py:169-170 | Only one '@' goes, so "@@x" keeps "@x", unlike `validate_username` |
| Handlers.BuildPreview | handlers.py:178-194 | The preview takes the collected username or else the sender's, the collected age, and the first text or else this message as the note |
| Handlers.ShowPreviewOf | handlers.py:195-198 | The preview is stored, the expected field is forgotten and the conversation ends |
| Handlers.ReceiveSingle | handlers.py:150-198 | Nothing happens without an expected field. An age is accepted iff `int()` reads it as an integer in 8..99; more than 4300 digits are no number. A username, after one '@' is removed, is accepted iff it has 1..32 characters. Any refusal keeps the session and waits for another answer |
| Handlers.AgeStepRange | handlers.py:156-167 | The age step accepts 9, refuses 100 as out of range and refuses a blank answer as no number |
| Handlers.AgeStepOtherScripts | handlers.py:156-161 | The age step accepts "١٦" (Arabic-Indic digits) and records the age 16 |
| Handlers.Dedupe | handlers.py:388 | The result holds the same ids as the input, each once |
| Handlers.Recipients | handlers.py:388-390 | The chats notified are exactly ADMIN_IDS plus SUPER_ADMIN_ID when it is not 0, each once |
| Handlers.Take | handlers.py:377 | `reason[:400]` is a prefix of at most 400 characters, and the whole reason when it is short enough |
| Handlers.FileReport | handlers.py:370-397 | The report is stored with the reporter, the category and the reason cut to 400 characters, and every recipient is notified |
| Handlers.FiledReportListed | handlers.py:372-381 | A filed report is listed first, under its category, with a reason of at most 400 characters that is a prefix of the reason given |
| Handlers.ReportWordFrom | handlers.py:321 | The search finds the first position where a word boundary is followed by "репорт" or "жалоб" |
| Handlers.HasReportWord | handlers.py:321 | The gate opens iff, after lower-casing, some word boundary is followed by "репорт" or "жалоб" |
| Handlers.CategoryAt | handlers.py:335 | The first alternative that stands alone between word boundaries at this position |
| Handlers.CategoryFrom | handlers.py:335 | The first position where some category word stands alone, with none before it |
| Handlers.Category | handlers.py:335-343 | A category found is one of "bot", "channel" and "chat" |
| Handlers.CategoryNone | handlers.py:335-340 | Without a category, no category word stands alone anywhere in the text |
| Handlers.CategoryLeftmost | handlers.py:335-343 | The category is the code of the word at the leftmost position where a category word stands alone |
| Handlers.StandsUnique | handlers.py:335 | At most one category word stands alone at a position, so the order of the alternatives never matters |
| Handlers.LeadingCategory | handlers.py:325-343 | A text opening with a category word and then a non-word character gets that word's code: бот/bot to bot, канал/channel to channel, группа/чат/group/chat to chat |
| Handlers.AutoReport | handlers.py:307-397 | Text without a report word is ignored. Without a category the categories are shown. With a category but no reason, the category is remembered and a reason is asked for. Otherwise the report is filed |
| Handlers.ReportSelect | handlers.py:400-409 | 'cancel' and 'menu' end the flow; any other argument becomes the category and the flow waits for the reason |
| Handlers.ReportSelectButton | handlers.py:403-407 | Choosing "report:{cat}" remembers exactly cat |
| Handlers.ReasonReceived | handlers.py:412-445 | Without a remembered category the flow ends; otherwise the message, or "" without text, is filed as the reason under that category |
| Handlers.SecondReasonSameCategory | handlers.py:415-429 | The category is never cleared, so a second reason is filed under the same category |
| Handlers.Change | handlers.py:560-561 | A parsed value becomes a change iff it is not `None` |
| Handlers.EditPatch | handlers.py:558-561 | The changes are the non-`None` values among the eight content keys; the note is always among them |
| Handlers.ReceiveEdit | handlers.py:547-567 | Ignored without an edit target or for a caller outside ADMIN_IDS, and the target then stays. Otherwise the profile is patched and the target cleared |
| Handlers.EditApplies | handlers.py:555-564 | An admin's edit of an existing profile succeeds, sets the parsed note, never blanks a column, and leaves the username, status and id alone |
| Handlers.DeleteConfirm | handlers.py:85-93 | Whoever presses the button (there is no admin check), the named profile is deleted, and the reply says whether it existed |
| Handlers.DeleteButtonRemoves | handlers.py:85-93 | The confirmation button of `confirm_delete_kb(u)` removes exactly u's profile and keeps every other row |

## Left out

- **Telegram I/O.** The model leaves out `reply_text`, `send_message`, `q.answer()` and the
  try/except blocks around notifications. A reply is an abstract kind, and the chats to
  notify are returned as a list. A failing notification is not modelled.
- **Conversation machinery.** Handler registration and ConversationHandler dispatch in
  `main.py` are not part of this model, because they live in python-telegram-bot.
- **Other handlers.** These handlers are not modelled: `users_list_entry`, `view_profile_cb`,
  `back_to_users`, `edit_profile_cb`, `delete_profile_cb`, the new-profile start handlers,
  `try_auto_profile_submit`, `report_start`, the CSV export, the chat-info and admin-list
  views, and the admin panel. They only format output or set one session key.
- **Other keyboards.** These keyboards are not modelled: `main_menu`, `report_categories_kb`,
  `new_profile_preview_kb`, `edit_profile_preview_kb`, `admin_manage_profiles_kb`,
  `admin_profile_action_kb`, `afk_reason_kb` and `admin_app_reason_kb`. Their payloads are
  constants with no rule to state.
- **Button labels.** Labels are carried as text but nothing is proved about them.
- **SQLite plumbing.** The model leaves out connection setup, PRAGMAs, `init_db`, the
  `ALTER TABLE` migrations and the indices. It also leaves out the module-level locks.
  Everything is sequential here.
- **Id overflow.** Reaching the largest 64-bit id (SQLITE_FULL) is not modelled. Ids are
  unbounded integers.
- Handlers.ReviewCallback: an id beyond signed 64 bits, as in
  "review:9223372036854775808:accept", makes sqlite3 raise `OverflowError` in
  `get_profile_by_id` (db.py:209), and nothing in the handler catches it (handlers.py:589).
  The model replies `ProfileNotFound` instead.
- Keyboards.AdminReview: `str(pid)` inside the f-string raises `ValueError` above 4300 digits
  in Python 3.11 and later; the model renders every integer. Profile ids are SQLite rowids,
  far below that size, and the round trips through `str()` are stated only up to it.
- **Configurable digit limit.** `sys.int_max_str_digits` can be changed at run time or through
  `PYTHONINTMAXSTRDIGITS`, and Python 3.10 has no limit. The model fixes it at the default
  4300.
- **Cache disk persistence.** The JSON load and save of the cache are left out. An
  unreadable file and the `saved_at` stamp are left out with them.
- **Clocks.** `datetime.now`, `iso_now` and `time.time` are parameters:
  - cache and limiter times are microsecond integers;
  - stored time stamps are strings;
  - the report ticket text `R-{stamp}-{rid}` is left out, and the reply carries only the id.
- **Sleeps.** `asyncio.sleep` is not performed. The sleeps are returned as a list of waits.
- **`check_rate_limit`.** The decorator that wraps handlers with the limiter is left out. It
  only chooses between calling the handler and replying.
- **Character classes.** Letters are limited to ASCII plus the basic Cyrillic block
  U+0400..U+045F: `str.isupper`, `str.isalnum`, `str.lower` and the `\w` class of `re` treat
  the letters of other scripts as non-letters. Decimal digits follow Unicode 15.0 and 15.1,
  as in Python 3.12 and 3.13, which have the same 68 runs; Python 3.10 and 3.11 know fewer. `str.isspace` and `\s`
  are Python's full whitespace set. Numerics that are not decimal digits (categories No and
  Nl, such as '²', '½' and 'Ⅻ') are outside `str.isalnum` and `\w` here, although Python
  counts them in both. So the model sees a word boundary next to them where Python sees
  none, and counts them as special characters where Python does not.
- **Free-text heuristics.** The name, country, city, timezone and `tz_offset` heuristics of
  `parse_profile_text` (utils.py:27-36, 49-66) are best-effort regexes. `Handlers.Labels`
  takes their results as an input.
- **Report reason extraction.** The split and strip after the category token
  (handlers.py:345-360) are regex heuristics. `Handlers.AutoReport` takes the extracted
  reason as an input.
- Handlers.AutoReport: the category search runs on the lower-cased text instead of using
  `(?i)`. Unicode case folding beyond the modelled characters is not covered.
- Store.UpdateProfile: the `changes` dictionary is restricted to the eight content columns,
  which is all `admin_receive_edit` ever passes. Writes to `username`, `status` or
  `added_by` through this function are not modelled.
- Store.GetAllProfiles: rows whose usernames fold to the same NOCASE key may come in any
  order. Only sortedness and the permutation are stated, since SQLite does not fix the order
  of ties.
- Store.SeedFrom: the contract does not state which seed entry each new row came from. It
  states only that new rows are approved seed rows and that every seed username is present
  afterwards.
- Cache.GetAll: one clock reading is used for the whole scan. The source reads the clock
  once per entry.
- RateLimiter.ResetTime: it does not model the empty list that the `defaultdict` lookup
  inserts for an unknown user, which changes nothing observable. It also does not model
  float rounding in `total_seconds()`.
- Validators.IsSpam: the float threshold and ratio are exact reals, so float rounding at
  the boundary is not modelled. Characters that are both `isupper` and not `isalnum`, such
  as 'Ⓐ', lie outside the modelled classes. The source counts them twice, so "ⒶⒶⒶⒶⒶ" is spam
  even at threshold 1.0. Non-decimal numerics such as '²' are alphanumeric in Python but
  special here: "²²²²²" is spam at 0.5 in the model, while the source counts no special
  character in it and says it is not spam.
- Utils.AgeMatchAt: `\b` is built on the modelled `\w`, which lacks non-decimal numerics
  such as '²'. The model finds a boundary between '²' and a digit; Python finds none there.
- Utils.ParsedAge: inherits the gap of `AgeMatchAt`. "²25" gives 25 here, while `AGE_RE`
  finds no match in it.
- Handlers.HasReportWord: inherits the same `\b` gap. "²репорт" opens the gate here, but the
  pattern of handlers.py:321 finds no word boundary before "репорт".
- Handlers.CategoryAt: inherits the same `\b` gap. "²bot" stands alone here, but the pattern
  of handlers.py:335 finds no match.
- Validators.IsSpamNever: holds only over the modelled character classes. For a character
  such as 'Ⓐ', which the source counts twice, it does not hold.
- Handlers.Recipients: the set's iteration order is not modelled. Only membership and
  "each once" are stated.
- **Configuration from the environment.** `SUPER_ADMIN_ID`, `RATE_LIMIT_PER_SECOND` and
  `PROFILE_CACHE_TTL` can come from the environment. Only their defaults are constants here;
  the super-admin and the admin list are parameters of the handlers.

## Findings

| source | as written | input that shows it | evidently intended | confidence | as-written member | corrected member |
|---|---|---|---|---|---|---|
| validators.py:93 | `re.match(r'^[a-zA-Z0-9_]+$', username)`: Python's `$` also matches just before a final newline, so a name followed by one '\n' passes the character check, and the '\n' counts towards the 5..32 length | "abcd\n" is accepted, though it has only four real characters and a newline | Anchor at the true end of the string (`\Z` or `re.fullmatch`), so that only 5..32 letters, digits and underscores pass | not executed | Validators.ValidateUsernameAsWritten | Validators.ValidateUsername |

=== FILE: cache.dfy ===
/** The in-memory part of the persistent profile cache: profiles and their write times keyed
    by profile id, kept in insertion order, with entries older than the time-to-live dropped
    when they are looked at. Time is an explicit clock in microseconds. */
module Cache {
  import opened Wrappers

  /** A cached profile: the dictionary the bot stores. */
  type Dict = map<string, Value>

  /** Clock ticks per second. */
  const Second: int := 1_000_000

  /** `cache` and `timestamps`, with the insertion order of `cache`'s keys made explicit. */
  datatype Cache = Cache(order: seq<int>, entries: map<int, Dict>, stamps: map<int, int>, ttl: int)

  function Empty(ttl: int): Cache {
    Cache([], map[], map[], ttl)
  }

  predicate Distinct(s: seq<int>) {
    forall i, j :: 0 <= i < j < |s| ==> s[i] != s[j]
  }

  /** The two maps have the same keys, and `order` lists each key once. */
  ghost predicate Valid(c: Cache) {
    Distinct(c.order) &&
    (forall k :: k in c.entries <==> k in c.stamps) &&
    (forall k :: k in c.entries <==> k in c.order)
  }

  /** The entry was written more than `ttl` seconds before `now` (strictly more). */
  predicate Expired(c: Cache, pid: int, now: int) {
    pid in c.stamps && now - c.stamps[pid] > c.ttl * Second
  }

  function Drop(s: seq<int>, k: int): (r: seq<int>)
    ensures forall x :: x in r <==> x in s && x != k
    ensures Distinct(s) ==> Distinct(r)
  {
    if s == [] then []
    else
      var rest := Drop(s[1..], k);
      if s[0] == k then rest
      else
        assert Distinct(s) ==> s[0] !in s[1..];
        DistinctCons(s[0], rest);
        [s[0]] + rest
  }

  lemma DistinctCons(x: int, s: seq<int>)
    ensures x !in s && Distinct(s) ==> Distinct([x] + s)
  {
    if x !in s && Distinct(s) {
      forall i, j | 0 <= i < j < |[x] + s|
        ensures ([x] + s)[i] != ([x] + s)[j]
      {
        assert ([x] + s)[j] == s[j - 1];
        if i > 0 {
          assert ([x] + s)[i] == s[i - 1];
        }
      }
    }
  }

  /** Deletes `pid` from both maps and from the order. */
  function Remove(c: Cache, pid: int): (r: Cache)
    ensures pid !in r.entries && pid !in r.stamps && pid !in r.order
    ensures forall k :: k != pid ==>
      (k in r.entries <==> k in c.entries) && (k in r.stamps <==> k in c.stamps) &&
      (k in r.order <==> k in c.order)
    ensures forall k :: k in r.entries ==> r.entries[k] == c.entries[k]
    ensures forall k :: k in r.stamps ==> r.stamps[k] == c.stamps[k]
    ensures r.ttl == c.ttl
    ensures Valid(c) ==> Valid(r)
  {
    Cache(Drop(c.order, pid), c.entries - {pid}, c.stamps - {pid}, c.ttl)
  }

  /** The cache after a lookup, and what the lookup returned. */
  datatype Lookup = Lookup(cache: Cache, found: Option<Dict>)

  /** `get`: the stored profile unless it has expired; an expired entry is deleted. */
  function Get(c: Cache, pid: int, now: int): (r: Lookup)
    ensures r.found.Some? <==> pid in c.entries && !Expired(c, pid, now)
    ensures r.found.Some? ==> r.found.value == c.entries[pid] && r.cache == c
    ensures pid in c.entries && Expired(c, pid, now) ==> r.cache == Remove(c, pid)
    ensures pid !in c.entries ==> r.cache == c
    ensures Valid(c) ==> Valid(r.cache)
  {
    if pid !in c.entries then Lookup(c, None)
    else if Expired(c, pid, now) then Lookup(Remove(c, pid), None)
    else Lookup(c, Some(c.entries[pid]))
  }

  /** `set`: stores the profile stamped with `now`; a new key goes to the end of the order. */
  function Set(c: Cache, pid: int, p: Dict, now: int): (r: Cache)
    ensures r.entries == c.entries[pid := p] && r.stamps == c.stamps[pid := now]
    ensures r.order == (if pid in c.entries then c.order else c.order + [pid]) && r.ttl == c.ttl
    ensures Valid(c) ==> Valid(r)
  {
    var order := if pid in c.entries then c.order else c.order + [pid];
    assert Valid(c) && pid !in c.entries ==> Distinct(order) by {
      if Valid(c) && pid !in c.entries {
        assert forall i :: 0 <= i < |c.order| ==> c.order[i] in c.order;
      }
    }
    Cache(order, c.entries[pid := p], c.stamps[pid := now], c.ttl)
  }

  /** `update`: merges the changes into a present entry and restamps it; an absent id
      leaves the cache as it is. */
  function Update(c: Cache, pid: int, changes: Dict, now: int): (r: Cache)
    ensures pid !in c.entries ==> r == c
    ensures pid in c.entries ==>
      r.entries == c.entries[pid := c.entries[pid] + changes] && r.stamps == c.stamps[pid := now] &&
      r.order == c.order
    ensures Valid(c) ==> Valid(r)
  {
    if pid in c.entries then
      Cache(c.order, c.entries[pid := c.entries[pid] + changes], c.stamps[pid := now], c.ttl)
    else c
  }

  /** `invalidate`: forgets one id. */
  function Invalidate(c: Cache, pid: int): (r: Cache)
    ensures pid !in r.entries && pid !in r.stamps
    ensures forall k :: k != pid ==> (k in r.entries <==> k in c.entries)
    ensures forall k :: k != pid ==> (k in r.stamps <==> k in c.stamps)
    ensures forall k :: k in r.entries ==> r.entries[k] == c.entries[k]
    ensures forall k :: k in r.stamps ==> r.stamps[k] == c.stamps[k]
    ensures r.ttl == c.ttl
    ensures Valid(c) ==> Valid(r)
  {
    Remove(c, pid)
  }

  /** `invalidate_all`: forgets everything. */
  function InvalidateAll(c: Cache): (r: Cache)
    ensures r.entries == map[] && r.stamps == map[] && r.order == []
    ensures Valid(r)
  {
    Empty(c.ttl)
  }

  /** `exists`: whether `get` finds the id, with `get`'s deletion of an expired entry. */
  function Exists(c: Cache, pid: int, now: int): (r: (Cache, bool))
    ensures r.1 <==> pid in c.entries && !Expired(c, pid, now)
    ensures r.0 == Get(c, pid, now).cache
  {
    var l := Get(c, pid, now);
    (l.cache, l.found.Some?)
  }

  // ---------------------------------------------------------------------------------------------
  // get_all

  /** The profiles of `ks` that have not expired, in the order of `ks`. */
  function Live(c: Cache, ks: seq<int>, now: int): seq<Dict>
    requires forall k :: k in ks ==> k in c.entries
  {
    if ks == [] then []
    else
      var last := ks[|ks| - 1];
      Live(c, ks[..|ks| - 1], now) + (if Expired(c, last, now) then [] else [c.entries[last]])
  }

  /** The ids of `ks` that have expired, in the order of `ks`. */
  function ExpiredIds(c: Cache, ks: seq<int>, now: int): (r: seq<int>)
    ensures forall k :: k in r <==> k in ks && Expired(c, k, now)
  {
    if ks == [] then []
    else
      var last := ks[|ks| - 1];
      ExpiredIds(c, ks[..|ks| - 1], now) + (if Expired(c, last, now) then [last] else [])
  }

  /** Removes every id of `ks`. */
  function RemoveAll(c: Cache, ks: seq<int>): (r: Cache)
    ensures forall k :: k in r.entries <==> k in c.entries && k !in ks
    ensures forall k :: k in r.stamps <==> k in c.stamps && k !in ks
    ensures forall k :: k in r.entries ==> r.entries[k] == c.entries[k]
    ensures forall k :: k in r.stamps ==> r.stamps[k] == c.stamps[k]
    ensures r.ttl == c.ttl
    ensures Valid(c) ==> Valid(r)
    decreases |ks|
  {
    if ks == [] then c else RemoveAll(Remove(c, ks[0]), ks[1..])
  }

  /** `get_all`: the live profiles in insertion order; the expired entries are deleted. */
  method GetAll(c: Cache, now: int) returns (r: Cache, result: seq<Dict>)
    requires Valid(c)
    ensures Valid(r)
    ensures result == Live(c, c.order, now)
    ensures forall k :: k in r.entries <==> k in c.entries && !Expired(c, k, now)
    ensures forall k :: k in r.entries ==> r.entries[k] == c.entries[k] && r.stamps[k] == c.stamps[k]
  {
    result := [];
    var expired: seq<int> := [];
    var i := 0;
    while i < |c.order|
      invariant 0 <= i <= |c.order|
      invariant result == Live(c, c.order[..i], now)
      invariant expired == ExpiredIds(c, c.order[..i], now)
    {
      var pid := c.order[i];
      assert c.order[..i + 1][..i] == c.order[..i];
      if Expired(c, pid, now) {
        expired := expired + [pid];
      } else {
        result := result + [c.entries[pid]];
      }
      i := i + 1;
    }
    assert c.order[..i] == c.order;
    r := RemoveAll(c, expired);
  }

  // ---------------------------------------------------------------------------------------------
  // Properties relating the operations

  /** A profile set at `t` is returned by `get` at any time up to `ttl` seconds later,
      the boundary included. */
  lemma SetThenGet(c: Cache, pid: int, p: Dict, t: int, now: int)
    requires now - t <= c.ttl * Second
    ensures Get(Set(c, pid, p, t), pid, now).found == Some(p)
  {
  }

  /** Strictly more than `ttl` seconds later, `get` returns nothing and deletes the entry. */
  lemma SetThenGetExpired(c: Cache, pid: int, p: Dict, t: int, now: int)
    requires Valid(c) && now - t > c.ttl * Second
    ensures var l := Get(Set(c, pid, p, t), pid, now);
      l.found == None && pid !in l.cache.entries && pid !in l.cache.stamps
  {
  }

  /** After `invalidate`, `get` finds nothing and removes nothing else. */
  lemma InvalidateThenGet(c: Cache, pid: int, now: int)
    ensures Get(Invalidate(c, pid), pid, now) == Lookup(Invalidate(c, pid), None)
  {
  }

  /** An update of a live entry is seen by the next `get`, with the changes merged in. */
  lemma UpdateThenGet(c: Cache, pid: int, changes: Dict, now: int, later: int)
    requires pid in c.entries && later - now <= c.ttl * Second
    ensures Get(Update(c, pid, changes, now), pid, later).found == Some(c.entries[pid] + changes)
  {
  }

  /** Every profile `get_all` returns is one that `get` would return at the same time. */
  lemma {:induction false} LiveAreFound(c: Cache, ks: seq<int>, now: int)
    requires forall k :: k in ks ==> k in c.entries
    ensures forall p :: p in Live(c, ks, now) ==>
      exists k :: k in ks && Get(c, k, now).found == Some(p)
  {
    if ks != [] {
      var init := ks[..|ks| - 1];
      var last := ks[|ks| - 1];
      assert forall k :: k in init ==> k in ks;
      LiveAreFound(c, init, now);
      assert Live(c, ks, now) == Live(c, init, now) + (if Expired(c, last, now) then [] else [c.entries[last]]);
      assert last in ks;
    }
  }

  /** The number of profiles `get_all` returns plus the number it prunes is the size of the
      cache. */
  lemma {:induction false} LiveCount(c: Cache, ks: seq<int>, now: int)
    requires forall k :: k in ks ==> k in c.entries
    ensures |Live(c, ks, now)| + |ExpiredIds(c, ks, now)| == |ks|
  {
    if ks != [] {
      var init := ks[..|ks| - 1];
      assert forall k :: k in init ==> k in ks;
      LiveCount(c, init, now);
    }
  }
}

=== FILE: chars.dfy ===
/** The Python `str` primitives the bot relies on, stated over `seq<char>`:
    whitespace and stripping, splitting and joining on a separator, `int()` and
    `str()` for integers, lower-casing, and the word characters used by the
    regular-expression `\b` and `\w`. */
module Chars {
  import opened Wrappers

  // ---------------------------------------------------------------------------
  // Character classes
  // ---------------------------------------------------------------------------

  /** `str.isspace()`, which is also what `\s` and `str.strip()` use. */
  predicate IsSpace(c: char) {
    var n := c as int;
    (0x09 <= n <= 0x0D) || (0x1C <= n <= 0x20) || n == 0x85 || n == 0xA0 || n == 0x1680
    || (0x2000 <= n <= 0x200A) || n == 0x2028 || n == 0x2029 || n == 0x202F
    || n == 0x205F || n == 0x3000
  }

  /** `[0-9]`: the ASCII digits. */
  predicate IsAsciiDigit(c: char) {
    '0' <= c <= '9'
  }

  /** The number of runs of ten decimal digits (general category Nd) in Unicode 15.0 and 15.1,
      the tables of Python 3.12 and 3.13, which have the same runs. */
  const DigitRuns: nat := 68

  /** The code point of the zero of run `k`, in ascending order; run 0 is ASCII '0'..'9'. */
  function DigitZero(k: nat): int
    requires k < DigitRuns
  {
    match k
    case 0 => 0x30 case 1 => 0x660 case 2 => 0x6F0 case 3 => 0x7C0 case 4 => 0x966
    case 5 => 0x9E6 case 6 => 0xA66 case 7 => 0xAE6 case 8 => 0xB66 case 9 => 0xBE6
    case 10 => 0xC66 case 11 => 0xCE6 case 12 => 0xD66 case 13 => 0xDE6 case 14 => 0xE50
    case 15 => 0xED0 case 16 => 0xF20 case 17 => 0x1040 case 18 => 0x1090 case 19 => 0x17E0
    case 20 => 0x1810 case 21 => 0x1946 case 22 => 0x19D0 case 23 => 0x1A80 case 24 => 0x1A90
    case 25 => 0x1B50 case 26 => 0x1BB0 case 27 => 0x1C40 case 28 => 0x1C50 case 29 => 0xA620
    case 30 => 0xA8D0 case 31 => 0xA900 case 32 => 0xA9D0 case 33 => 0xA9F0 case 34 => 0xAA50
    case 35 => 0xABF0 case 36 => 0xFF10 case 37 => 0x104A0 case 38 => 0x10D30 case 39 => 0x11066
    case 40 => 0x110F0 case 41 => 0x11136 case 42 => 0x111D0 case 43 => 0x112F0
    case 44 => 0x11450 case 45 => 0x114D0 case 46 => 0x11650 case 47 => 0x116C0
    case 48 => 0x11730 case 49 => 0x118E0 case 50 => 0x11950 case 51 => 0x11C50
    case 52 => 0x11D50 case 53 => 0x11DA0 case 54 => 0x11F50 case 55 => 0x16A60
    case 56 => 0x16AC0 case 57 => 0x16B50 case 58 => 0x1D7CE case 59 => 0x1D7D8
    case 60 => 0x1D7E2 case 61 => 0x1D7EC case 62 => 0x1D7F6 case 63 => 0x1E140
    case 64 => 0x1E2F0 case 65 => 0x1E4F0 case 66 => 0x1E950 case _ => 0x1FBF0
  }

  /** The zero of the run of decimal digits, among the runs from `k` on, that holds code
      point `n`. */
  function ZeroFrom(n: int, k: nat): (z: Option<int>)
    ensures z.Some? ==> z.value <= n < z.value + 10
    decreases DigitRuns - k
  {
    if k >= DigitRuns || n < DigitZero(k) then None
    else if n < DigitZero(k) + 10 then Some(DigitZero(k))
    else ZeroFrom(n, k + 1)
  }

  /** A code point in run `j` is found as the zero of run `j` by a search that starts at or
      before it. */
  lemma {:induction false} ZeroFromIn(n: int, k: nat, j: nat)
    requires k <= j < DigitRuns && DigitZero(j) <= n < DigitZero(j) + 10
    ensures ZeroFrom(n, k) == Some(DigitZero(j))
    decreases j - k
  {
    if k < j {
      DigitRunsDisjoint(k, j);
      ZeroFromIn(n, k + 1, j);
    }
  }

  /** What the search finds is the zero of one of the runs from `k` on. */
  lemma {:induction false} ZeroFromFound(n: int, k: nat)
    ensures ZeroFrom(n, k).Some? ==> exists j :: k <= j < DigitRuns && ZeroFrom(n, k).value == DigitZero(j)
    decreases DigitRuns - k
  {
    if k < DigitRuns && DigitZero(k) <= n {
      if n < DigitZero(k) + 10 {
        assert ZeroFrom(n, k).value == DigitZero(k);
      } else {
        ZeroFromFound(n, k + 1);
      }
    }
  }

  /** `\d`, and a digit `int()` accepts: any Unicode decimal digit. Every run after the ASCII
      one lies at U+0660 or above. */
  predicate IsDigit(c: char) {
    IsAsciiDigit(c) || (0x660 <= c as int && ZeroFrom(c as int, 1).Some?)
  }

  /** The value of a decimal digit: its distance from the zero of its run. */
  function DigitValue(c: char): (d: nat)
    requires IsDigit(c)
    ensures d < 10
    ensures IsAsciiDigit(c) ==> d == c as int - '0' as int
  {
    if IsAsciiDigit(c) then c as int - '0' as int else c as int - ZeroFrom(c as int, 1).value
  }

  /** Each run ends before the next one starts. */
  lemma DigitRunsAscending(k: nat)
    requires 0 < k < DigitRuns
    ensures DigitZero(k - 1) + 10 <= DigitZero(k)
  {
  }

  lemma DigitRunsAscendingAll()
    ensures forall k :: 0 < k < DigitRuns ==> DigitZero(k - 1) + 10 <= DigitZero(k)
  {
    forall k | 0 < k < DigitRuns
      ensures DigitZero(k - 1) + 10 <= DigitZero(k)
    {
      DigitRunsAscending(k);
    }
  }

  /** Runs never overlap. */
  lemma DigitRunsDisjoint(i: nat, j: nat)
    requires i < j < DigitRuns
    ensures DigitZero(i) + 10 <= DigitZero(j)
  {
    var z := seq(DigitRuns, k requires 0 <= k < DigitRuns => DigitZero(k));
    DigitRunsAscendingAll();
    assert forall k :: 0 <= k < |z| ==> z[k] == DigitZero(k);
    GapsAdd(z, i, j);
  }

  /** Gaps of at least ten between neighbours add up to a gap of at least ten between any
      two entries. */
  lemma {:induction false} GapsAdd(z: seq<int>, i: nat, j: nat)
    requires forall k :: 0 < k < |z| ==> z[k - 1] + 10 <= z[k]
    requires i < j < |z|
    ensures z[i] + 10 <= z[j]
    decreases j - i
  {
    if i + 1 < j {
      GapsAdd(z, i, j - 1);
    }
  }

  /** Every run after the ASCII one starts at U+0660 or above. */
  lemma DigitRunsAboveAscii(k: nat)
    requires 0 < k < DigitRuns
    ensures 0x660 <= DigitZero(k)
  {
  }

  /** A character is a decimal digit exactly when it lies in one of the runs. */
  lemma IsDigitRuns(c: char)
    ensures IsDigit(c) <==> exists j :: 0 <= j < DigitRuns && DigitZero(j) <= c as int < DigitZero(j) + 10
  {
    var n := c as int;
    if exists j :: 0 <= j < DigitRuns && DigitZero(j) <= n < DigitZero(j) + 10 {
      var j :| 0 <= j < DigitRuns && DigitZero(j) <= n < DigitZero(j) + 10;
      DigitValueInRun(c, j);
    }
    if IsAsciiDigit(c) {
      assert DigitZero(0) <= n < DigitZero(0) + 10;
    } else if IsDigit(c) {
      ZeroFromFound(n, 1);
      var j :| 1 <= j < DigitRuns && ZeroFrom(n, 1).value == DigitZero(j);
      assert DigitZero(j) <= n < DigitZero(j) + 10;
    }
  }

  /** The value of a digit is its distance from the zero of its own run. */
  lemma DigitValueInRun(c: char, j: nat)
    requires j < DigitRuns && DigitZero(j) <= c as int < DigitZero(j) + 10
    ensures IsDigit(c) && DigitValue(c) == c as int - DigitZero(j)
  {
    if j > 0 {
      DigitRunsAboveAscii(j);
      ZeroFromIn(c as int, 1, j);
    }
  }

  function DigitChar(d: nat): (c: char)
    requires d < 10
    ensures IsAsciiDigit(c) && IsDigit(c) && DigitValue(c) == d
  {
    ('0' as int + d) as char
  }

  /** Upper-case letters: Latin A-Z and the basic Cyrillic capitals U+0400..U+042F. */
  predicate IsUpper(c: char) {
    ('A' <= c <= 'Z') || (0x400 <= c as int <= 0x42F)
  }

  /** Lower-case letters: Latin a-z and the basic Cyrillic small letters U+0430..U+045F. */
  predicate IsLowerLetter(c: char) {
    ('a' <= c <= 'z') || (0x430 <= c as int <= 0x45F)
  }

  /** `str.isalnum()` on one character, over the modelled letters and the decimal digits;
      the non-decimal numerics Python also accepts ('²', '½', 'Ⅻ') are not included. */
  predicate IsAlnum(c: char) {
    IsUpper(c) || IsLowerLetter(c) || IsDigit(c)
  }

  /** The regular-expression class `\w`; `\b` is a change between `\w` and non-`\w`. */
  predicate IsWordChar(c: char) {
    IsAlnum(c) || c == '_'
  }

  /** `str.lower()` on one character. */
  function LowerChar(c: char): (l: char)
    ensures !IsUpper(l)
    ensures !IsUpper(c) ==> l == c
  {
    if 'A' <= c <= 'Z' then (c as int + 32) as char
    else if 0x410 <= c as int <= 0x42F then (c as int + 0x20) as char
    else if 0x400 <= c as int <= 0x40F then (c as int + 0x50) as char
    else c
  }

  /** `str.lower()`. */
  function Lower(s: string): (r: string)
    ensures |r| == |s|
    ensures forall i :: 0 <= i < |s| ==> r[i] == LowerChar(s[i])
  {
    if s == [] then [] else [LowerChar(s[0])] + Lower(s[1..])
  }

  // ---------------------------------------------------------------------------
  // Stripping
  // ---------------------------------------------------------------------------

  /** `str.lstrip()`: the suffix left after the maximal run of leading whitespace. */
  function LStrip(s: string): (r: string)
    ensures |r| <= |s| && r == s[|s| - |r|..]
    ensures r == [] || !IsSpace(r[0])
    ensures forall i :: 0 <= i < |s| - |r| ==> IsSpace(s[i])
  {
    if |s| > 0 && IsSpace(s[0]) then LStrip(s[1..]) else s
  }

  /** `str.rstrip()`: the prefix left after the maximal run of trailing whitespace. */
  function RStrip(s: string): (r: string)
    ensures |r| <= |s| && r == s[..|r|]
    ensures r == [] || !IsSpace(r[|r| - 1])
    ensures forall i :: |r| <= i < |s| ==> IsSpace(s[i])
  {
    if |s| > 0 && IsSpace(s[|s| - 1]) then RStrip(s[..|s| - 1]) else s
  }

  /** `str.strip()`: whitespace removed from both ends. */
  function Strip(s: string): (r: string)
    ensures |r| <= |s|
    ensures r == [] || (!IsSpace(r[0]) && !IsSpace(r[|r| - 1]))
  {
    RStrip(LStrip(s))
  }

  /** The strip of `s` is the infix `s[a..b]` with only whitespace outside it. */
  lemma StripSpan(s: string) returns (a: nat, b: nat)
    ensures a <= b <= |s| && Strip(s) == s[a..b]
    ensures forall i :: 0 <= i < a ==> IsSpace(s[i])
    ensures forall i :: b <= i < |s| ==> IsSpace(s[i])
  {
    a := LStripSpan(s);
    b := RStripInSuffix(s, a);
  }

  /** `lstrip` drops the first `a` characters, all of them whitespace. */
  lemma LStripSpan(s: string) returns (a: nat)
    ensures a <= |s| && LStrip(s) == s[a..]
    ensures forall i :: 0 <= i < a ==> IsSpace(s[i])
  {
    a := |s| - |LStrip(s)|;
  }

  /** `rstrip` of a suffix, located in the whole string. */
  lemma RStripInSuffix(s: string, a: nat) returns (b: nat)
    requires a <= |s|
    ensures a <= b <= |s| && RStrip(s[a..]) == s[a..b]
    ensures forall i :: b <= i < |s| ==> IsSpace(s[i])
  {
    var l := s[a..];
    var r := RStrip(l);
    b := a + |r|;
    SliceOfSuffix(s, a, |r|);
    forall i | b <= i < |s| ensures IsSpace(s[i]) {
      assert s[i] == l[i - a];
    }
  }

  lemma SliceOfSuffix(s: string, a: nat, k: nat)
    requires a + k <= |s|
    ensures s[a..][..k] == s[a..a + k]
  {
  }

  /** A string with no whitespace at either end is its own strip. */
  lemma StripIdentity(s: string)
    requires s == [] || (!IsSpace(s[0]) && !IsSpace(s[|s| - 1]))
    ensures Strip(s) == s
  {
  }

  lemma StripIdempotent(s: string)
    ensures Strip(Strip(s)) == Strip(s)
  {
    StripIdentity(Strip(s));
  }

  // ---------------------------------------------------------------------------
  // Substrings
  // ---------------------------------------------------------------------------

  predicate StartsWith(s: string, p: string) {
    |p| <= |s| && s[..|p|] == p
  }

  /** `p` occurs in `s` starting at index `i`. */
  predicate OccursAt(s: string, p: string, i: int) {
    0 <= i && i + |p| <= |s| && s[i..i + |p|] == p
  }

  /** `p in s` for strings, computed by scanning; the result agrees with some occurrence. */
  function Contains(s: string, p: string): (b: bool)
    ensures b <==> exists i :: OccursAt(s, p, i)
    decreases |s|
  {
    if StartsWith(s, p) then
      assert OccursAt(s, p, 0);
      true
    else if |s| == 0 then
      false
    else
      var rest := Contains(s[1..], p);
      assert forall i :: OccursAt(s[1..], p, i) ==> OccursAt(s, p, i + 1) by {
        forall i | OccursAt(s[1..], p, i) ensures OccursAt(s, p, i + 1) {
          assert s[i + 1..i + 1 + |p|] == s[1..][i..i + |p|];
        }
      }
      assert forall i :: OccursAt(s, p, i) && i > 0 ==> OccursAt(s[1..], p, i - 1) by {
        forall i | OccursAt(s, p, i) && i > 0 ensures OccursAt(s[1..], p, i - 1) {
          var here, there := s[i..i + |p|], s[1..][i - 1..i - 1 + |p|];
          assert forall k :: 0 <= k < |p| ==> here[k] == there[k];
          assert here == there;
        }
      }
      rest
  }

  // ---------------------------------------------------------------------------
  // Splitting and joining on a one-character separator
  // ---------------------------------------------------------------------------

  /** `s.index(c)`: the first position of `c`. */
  function IndexOf(s: string, c: char): (i: nat)
    requires c in s
    ensures i < |s| && s[i] == c
    ensures forall j :: 0 <= j < i ==> s[j] != c
  {
    if s[0] == c then 0 else 1 + IndexOf(s[1..], c)
  }

  /** `s.split(c)`: the pieces between the occurrences of `c`. */
  function Split(s: string, c: char): (r: seq<string>)
    ensures |r| >= 1
    decreases |s|
  {
    if c in s then
      var i := IndexOf(s, c);
      [s[..i]] + Split(s[i + 1..], c)
    else
      [s]
  }

  /** `sep.join(parts)`. */
  function Join(parts: seq<string>, sep: string): string {
    if |parts| == 0 then ""
    else if |parts| == 1 then parts[0]
    else parts[0] + sep + Join(parts[1..], sep)
  }

  /** No piece of a split holds the separator. */
  lemma {:induction false} SplitPiecesFree(s: string, c: char)
    ensures forall k :: 0 <= k < |Split(s, c)| ==> c !in Split(s, c)[k]
    decreases |s|
  {
    if c in s {
      var i := IndexOf(s, c);
      SplitPiecesFree(s[i + 1..], c);
      assert c !in s[..i];
    }
  }

  /** Joining the pieces with the separator gives the string back. */
  lemma {:induction false} JoinSplit(s: string, c: char)
    ensures Join(Split(s, c), [c]) == s
    decreases |s|
  {
    if c in s {
      var i := IndexOf(s, c);
      var rest := s[i + 1..];
      var parts := Split(s, c);
      assert parts == [s[..i]] + Split(rest, c);
      assert parts[0] == s[..i] && parts[1..] == Split(rest, c);
      JoinSplit(rest, c);
      assert Join(parts, [c]) == s[..i] + [c] + rest;
      assert s == s[..i] + [c] + rest;
    }
  }

  /** Splitting at a first separator: the piece before it, then the split of the rest. */
  lemma SplitCons(a: string, c: char, b: string)
    requires c !in a
    ensures Split(a + [c] + b, c) == [a] + Split(b, c)
  {
    var s := a + [c] + b;
    assert s[|a|] == c;
    var i := IndexOf(s, c);
    assert i == |a|;
    assert s[..i] == a;
    assert s[i + 1..] == b;
  }

  /** Splitting a joined list of separator-free pieces gives the pieces back. */
  lemma {:induction false} SplitJoin(parts: seq<string>, c: char)
    requires |parts| >= 1
    requires forall k :: 0 <= k < |parts| ==> c !in parts[k]
    ensures Split(Join(parts, [c]), c) == parts
    decreases |parts|
  {
    if |parts| > 1 {
      SplitJoin(parts[1..], c);
      SplitCons(parts[0], c, Join(parts[1..], [c]));
      assert parts == [parts[0]] + parts[1..];
    }
  }

  /** Splitting distributes over a separator between two strings. */
  lemma {:induction false} SplitAppend(a: string, c: char, b: string)
    ensures Split(a + [c] + b, c) == Split(a, c) + Split(b, c)
    decreases |a|
  {
    if c in a {
      var i := IndexOf(a, c);
      var a1, a2 := a[..i], a[i + 1..];
      assert a == a1 + [c] + a2;
      var rest := a2 + [c] + b;
      assert a + [c] + b == a1 + [c] + rest;
      SplitAppend(a2, c, b);
      SplitCons(a1, c, rest);
      SplitCons(a1, c, a2);
      ConsAppend(a1, Split(a2, c), Split(b, c));
    } else {
      SplitCons(a, c, b);
    }
  }

  lemma ConcatTail(xs: seq<string>, ys: seq<string>)
    requires xs != []
    ensures (xs + ys)[0] == xs[0] && (xs + ys)[1..] == xs[1..] + ys
  {
  }

  lemma ConsAppend(x: string, p: seq<string>, q: seq<string>)
    ensures [x] + (p + q) == ([x] + p) + q
  {
  }

  /** `s.split(c, 1)[1]`: everything after the first `c`. */
  function AfterFirst(s: string, c: char): (r: string)
    requires c in s
    ensures exists a :: c !in a && s == a + [c] + r
  {
    var i := IndexOf(s, c);
    assert c !in s[..i];
    assert s == s[..i] + [c] + s[i + 1..];
    s[i + 1..]
  }

  /** The split-once decoding recovers whatever follows a separator-free prefix. */
  lemma AfterFirstPrefix(a: string, c: char, b: string)
    requires c !in a
    ensures c in a + [c] + b && AfterFirst(a + [c] + b, c) == b
  {
    var s := a + [c] + b;
    assert s[|a|] == c;
    assert IndexOf(s, c) == |a|;
  }

  /** `[p.strip() for p in s.split(c) if p.strip()]`. */
  function StrippedPieces(s: string, c: char): (r: seq<string>)
    ensures forall k :: 0 <= k < |r| ==> r[k] != "" && Strip(r[k]) == r[k]
  {
    KeepNonBlank(Split(s, c))
  }

  function KeepNonBlank(ps: seq<string>): (r: seq<string>)
    ensures |r| <= |ps|
    ensures forall k :: 0 <= k < |r| ==> r[k] != "" && Strip(r[k]) == r[k]
  {
    if ps == [] then []
    else
      var t := Strip(ps[0]);
      var rest := KeepNonBlank(ps[1..]);
      if t == "" then rest
      else
        StripIdempotent(ps[0]);
        NonBlankCons(t, rest);
        [t] + rest
  }

  lemma NonBlankCons(t: string, rest: seq<string>)
    requires t != "" && Strip(t) == t
    requires forall k :: 0 <= k < |rest| ==> rest[k] != "" && Strip(rest[k]) == rest[k]
    ensures forall k :: 0 <= k < |[t] + rest| ==> ([t] + rest)[k] != "" && Strip(([t] + rest)[k]) == ([t] + rest)[k]
  {
    forall k | 0 <= k < |[t] + rest|
      ensures ([t] + rest)[k] != "" && Strip(([t] + rest)[k]) == ([t] + rest)[k]
    {
      if k > 0 {
        assert ([t] + rest)[k] == rest[k - 1];
      }
    }
  }

  /** A string without the separator is one piece, dropped when blank. */
  lemma StrippedPiecesSingle(s: string, c: char)
    requires c !in s
    ensures StrippedPieces(s, c) == if Strip(s) == "" then [] else [Strip(s)]
  {
    assert Split(s, c) == [s];
    assert KeepNonBlank([s]) == if Strip(s) == "" then [] else [Strip(s)] by {
      assert [s][1..] == [];
    }
  }

  lemma {:induction false} KeepNonBlankAppend(xs: seq<string>, ys: seq<string>)
    ensures KeepNonBlank(xs + ys) == KeepNonBlank(xs) + KeepNonBlank(ys)
    decreases |xs|
  {
    if xs != [] {
      ConcatTail(xs, ys);
      KeepNonBlankAppend(xs[1..], ys);
      ConsAppend(Strip(xs[0]), KeepNonBlank(xs[1..]), KeepNonBlank(ys));
    } else {
      assert xs + ys == ys;
    }
  }

  /** The stripped pieces of two strings joined by the separator are the pieces of each. */
  lemma StrippedPiecesAppend(a: string, c: char, b: string)
    ensures StrippedPieces(a + [c] + b, c) == StrippedPieces(a, c) + StrippedPieces(b, c)
  {
    SplitAppend(a, c, b);
    KeepNonBlankAppend(Split(a, c), Split(b, c));
  }

  // ---------------------------------------------------------------------------
  // Integers: Python int() on a string and str() of an int
  // ---------------------------------------------------------------------------

  /** Decimal digits with single underscores between digits, as `int()` accepts them. */
  predicate DigitGroups(b: string) {
    |b| > 0 && IsDigit(b[0])
    && forall i :: 0 <= i < |b| ==> IsDigit(b[i]) || (b[i] == '_' && i + 1 < |b| && IsDigit(b[i + 1]))
  }

  /** The value of a digit string, underscores ignored. */
  function DigitsValue(b: string): nat {
    if |b| == 0 then 0
    else if IsDigit(b[|b| - 1]) then DigitsValue(b[..|b| - 1]) * 10 + DigitValue(b[|b| - 1])
    else DigitsValue(b[..|b| - 1])
  }

  /** The default of `sys.int_max_str_digits` (Python 3.11 and later): `int()` refuses a
      decimal string with more digits than this, and `str()` an integer that would need more. */
  const IntMaxStrDigits: nat := 4300

  /** The number of digits in a string, underscores and other characters not counted. */
  function DigitCount(b: string): (n: nat)
    ensures n <= |b|
  {
    if |b| == 0 then 0
    else DigitCount(b[..|b| - 1]) + (if IsDigit(b[|b| - 1]) then 1 else 0)
  }

  /** A string of digits only has one digit per character. */
  lemma {:induction false} AllDigitsCount(b: string)
    requires forall i :: 0 <= i < |b| ==> IsDigit(b[i])
    ensures DigitCount(b) == |b|
  {
    if |b| > 0 {
      AllDigitsCount(b[..|b| - 1]);
    }
  }

  /** Digit groups `int()` accepts: at most `IntMaxStrDigits` digits, leading zeros included. */
  predicate Readable(b: string) {
    DigitGroups(b) && DigitCount(b) <= IntMaxStrDigits
  }

  /** `int(s)` for base 10: surrounding whitespace, an optional sign, then digit groups of at
      most 4300 digits; `None` where Python raises `ValueError`. */
  function ParseInt(s: string): (r: Option<int>)
    ensures r.Some? ==> Strip(s) != ""
  {
    ParseSigned(Strip(s))
  }

  /** An optional sign followed by digit groups, with nothing around them. */
  function ParseSigned(t: string): (r: Option<int>)
    ensures t == "" ==> r == None
  {
    if |t| > 0 && (t[0] == '+' || t[0] == '-') then
      if Readable(t[1..]) then
        var v: int := DigitsValue(t[1..]);
        Some(if t[0] == '-' then -v else v)
      else None
    else if Readable(t) then Some(DigitsValue(t))
    else None
  }

  /** No decimal digit of any script is whitespace. */
  lemma DigitNotSpace(c: char)
    requires IsDigit(c)
    ensures !IsSpace(c)
  {
    if !IsAsciiDigit(c) {
      ZeroFromFound(c as int, 1);
    }
  }

  /** A string of more than 4300 digits, however it is padded or signed, is not a number. */
  lemma ParseIntTooLong(pad: string, sign: string, b: string)
    requires forall i :: 0 <= i < |pad| ==> IsSpace(pad[i])
    requires sign == "" || sign == "-" || sign == "+"
    requires |b| > IntMaxStrDigits && forall i :: 0 <= i < |b| ==> IsDigit(b[i])
    ensures ParseInt(pad + sign + b + pad) == None
  {
    var t := sign + b;
    assert pad + sign + b + pad == pad + t + pad;
    SignedEnds(sign, b);
    StripPadded(pad, t);
    SignedTooLong(sign, b);
  }

  /** Padding around an unsigned number, spelled with and without the empty sign. */
  lemma Unsigned(pad: string, b: string)
    ensures pad + "" + b + pad == pad + b + pad
    ensures pad == "" ==> pad + b + pad == b
  {
  }

  lemma SignedEnds(sign: string, b: string)
    requires sign == "" || sign == "-" || sign == "+"
    requires |b| > 0 && forall i :: 0 <= i < |b| ==> IsDigit(b[i])
    ensures var t := sign + b; t != [] && !IsSpace(t[0]) && !IsSpace(t[|t| - 1])
  {
    var t := sign + b;
    assert t[|t| - 1] == b[|b| - 1];
    DigitNotSpace(b[|b| - 1]);
    if sign == "" {
      assert t[0] == b[0];
      DigitNotSpace(b[0]);
    } else {
      assert t[0] == sign[0];
    }
  }

  lemma SignedTooLong(sign: string, b: string)
    requires sign == "" || sign == "-" || sign == "+"
    requires |b| > IntMaxStrDigits && forall i :: 0 <= i < |b| ==> IsDigit(b[i])
    ensures ParseSigned(sign + b) == None
  {
    AllDigitsCount(b);
    var t := sign + b;
    if sign == "" {
      assert t == b;
      assert !(b[0] == '+' || b[0] == '-');
    } else {
      assert t[1..] == b;
    }
  }

  lemma StripPadded(pad: string, d: string)
    requires forall i :: 0 <= i < |pad| ==> IsSpace(pad[i])
    requires d != [] && !IsSpace(d[0]) && !IsSpace(d[|d| - 1])
    ensures Strip(pad + d + pad) == d
  {
    var s := pad + d + pad;
    var m := |pad| + |d|;
    var a, b := StripSpan(s);
    assert s[|pad|] == d[0] && s[m - 1] == d[|d| - 1];
    assert a <= |pad| && m <= b;
    var r := s[a..b];
    assert r[0] == s[a] && r[|r| - 1] == s[b - 1];
    assert forall i :: 0 <= i < |pad| ==> s[i] == pad[i];
    assert forall i :: m <= i < |s| ==> s[i] == pad[i - m];
    assert a == |pad| && b == m;
    assert s[a..b] == d;
  }

  /** `int()` ignores surrounding whitespace. */
  lemma ParseIntStrip(s: string)
    ensures ParseInt(Strip(s)) == ParseInt(s)
  {
    StripIdempotent(s);
  }

  /** `int()` reads Arabic-Indic digits, alone or mixed with ASCII ones; a fullwidth digit is a
      digit too, with its value. */
  lemma ParseIntOtherScripts()
    ensures ParseInt("\U{0661}\U{0666}") == Some(16)
    ensures Strip("\U{0661}\U{0666}") == "\U{0661}\U{0666}"
    ensures ParseInt("1\U{0666}") == Some(16)
    ensures IsDigit('\U{FF16}') && DigitValue('\U{FF16}') == 6
  {
    DigitValueInRun('\U{0661}', 1);
    DigitValueInRun('\U{0666}', 1);
    DigitValueInRun('\U{FF16}', 36);
    TwoDigitsParse("\U{0661}\U{0666}");
    TwoDigitsParse("1\U{0666}");
  }

  /** Two decimal digits of any scripts, mixed or not, parse to their two-digit value. */
  lemma TwoDigitsParse(t: string)
    requires |t| == 2 && IsDigit(t[0]) && IsDigit(t[1]) && !IsSpace(t[0]) && !IsSpace(t[1])
    ensures Strip(t) == t
    ensures ParseInt(t) == Some(10 * DigitValue(t[0]) + DigitValue(t[1]))
  {
    StripIdentity(t);
    assert DigitGroups(t);
    assert t[..1][..0] == [];
    assert DigitsValue(t[..1]) == DigitValue(t[0]);
  }

  /** `str(n)` for a natural number: no leading zeros. */
  function NatToString(n: nat): (r: string)
    ensures |r| >= 1 && forall i :: 0 <= i < |r| ==> IsAsciiDigit(r[i]) && IsDigit(r[i])
    ensures r[0] == '0' ==> n == 0
  {
    if n < 10 then [DigitChar(n)] else NatToString(n / 10) + [DigitChar(n % 10)]
  }

  /** `str(n)`. */
  function IntToString(n: int): (r: string)
    ensures |r| >= 1
    ensures forall i :: 0 <= i < |r| ==> IsAsciiDigit(r[i]) || (i == 0 && r[i] == '-')
  {
    if n < 0 then "-" + NatToString(-n) else NatToString(n)
  }

  lemma {:induction false} NatToStringValue(n: nat)
    ensures DigitsValue(NatToString(n)) == n
  {
    var r := NatToString(n);
    if n >= 10 {
      NatToStringValue(n / 10);
      assert r[..|r| - 1] == NatToString(n / 10);
    }
  }

  /** A non-empty all-digit string is a valid digit group. */
  lemma AllDigitsGroups(b: string)
    requires |b| > 0 && forall i :: 0 <= i < |b| ==> IsDigit(b[i])
    ensures DigitGroups(b)
  {
  }

  /** `str(n)` is defined: the magnitude has at most 4300 digits. */
  predicate StrFits(n: int) {
    |NatToString(if n < 0 then -n else n)| <= IntMaxStrDigits
  }

  /** `int(str(n)) == n`: the decimal rendering of an integer parses back to it, whenever
      `str(n)` is defined. */
  lemma ParseIntToString(n: int)
    requires StrFits(n)
    ensures ParseInt(IntToString(n)) == Some(n)
  {
    IntToStringStripped(n);
    if n < 0 {
      ParseSignedNegative(-n);
    } else {
      ParseSignedNatural(n);
    }
  }

  /** The decimal rendering of an integer has no whitespace to strip. */
  lemma IntToStringStripped(n: int)
    ensures Strip(IntToString(n)) == IntToString(n)
  {
    var r := IntToString(n);
    assert !IsSpace(r[0]) && !IsSpace(r[|r| - 1]);
    StripIdentity(r);
  }

  lemma ParseSignedNatural(n: nat)
    requires |NatToString(n)| <= IntMaxStrDigits
    ensures ParseSigned(NatToString(n)) == Some(n)
  {
    var d := NatToString(n);
    AllDigitsGroups(d);
    AllDigitsCount(d);
    NatToStringValue(n);
  }

  lemma ParseSignedNegative(m: nat)
    requires m > 0 && |NatToString(m)| <= IntMaxStrDigits
    ensures ParseSigned("-" + NatToString(m)) == Some(0 - m as int)
  {
    var d := NatToString(m);
    var r := "-" + d;
    assert r[1..] == d;
    AllDigitsGroups(d);
    AllDigitsCount(d);
    NatToStringValue(m);
  }

  /** The decimal rendering of an integer has no character `c` other than digits and '-'. */
  lemma IntToStringFree(n: int, c: char)
    requires !IsDigit(c) && c != '-'
    ensures c !in IntToString(n)
  {
  }
}

=== FILE: config.dfy ===
/** The configuration surface of the bot: numeric limits and the admin-id list parser.
    Environment variables become parameters; the defaults are the source's defaults. */
module Config {
  import opened Wrappers
  import opened Chars

  /** Shortest and longest accepted profile text, after stripping. */
  const MinProfileLength: nat := 10
  const MaxProfileLength: nat := 5000

  /** Attempts and exponential base of the Telegram retry helper. */
  const MaxRetriesTelegram: int := 3
  const RetryBackoffFactor: int := 2

  /** Default time-to-live of a cached profile, in seconds. */
  const ProfileCacheTtl: int := 300

  /** Default per-user request budget and its window, in seconds. */
  const RateLimitPerSecond: int := 10
  const RateLimitWindow: int := 1

  /** Default values of the ADMIN_IDS and SUPER_ADMIN_ID environment variables. */
  const DefaultAdminIds: string := "5858124063,1043991178"
  const DefaultSuperAdminId: int := 7009242731

  /** The trimmed, non-empty comma-separated pieces of the ADMIN_IDS value. */
  function AdminPieces(env: Option<string>): (ps: seq<string>)
    ensures env.None? || env.value == "" ==> ps == []
    ensures forall k :: 0 <= k < |ps| ==> ps[k] != "" && Strip(ps[k]) == ps[k]
  {
    if env.None? || env.value == "" then [] else StrippedPieces(env.value, ',')
  }

  /** The pieces that `int()` accepts, converted, in their order; the others are skipped. */
  function KeepInts(ps: seq<string>): (ids: seq<int>)
    ensures |ids| <= |ps|
  {
    if ps == [] then []
    else
      match ParseInt(ps[0])
      case Some(v) => [v] + KeepInts(ps[1..])
      case None => KeepInts(ps[1..])
  }

  /** `parse_admin_ids`: nothing for an unset or empty value, at most one id per piece. */
  function ParseAdminIds(env: Option<string>): (ids: seq<int>)
    ensures env.None? || env.value == "" ==> ids == []
    ensures |ids| <= |AdminPieces(env)|
  {
    KeepInts(AdminPieces(env))
  }

  /** Every id returned is the `int()` value of one of the pieces. */
  lemma ParseAdminIdsSound(env: Option<string>)
    ensures forall x :: x in ParseAdminIds(env) ==>
      exists j :: 0 <= j < |AdminPieces(env)| && ParseInt(AdminPieces(env)[j]) == Some(x)
  {
    forall x | x in ParseAdminIds(env)
      ensures exists j :: 0 <= j < |AdminPieces(env)| && ParseInt(AdminPieces(env)[j]) == Some(x)
    {
      KeepIntsSound(AdminPieces(env), x);
    }
  }

  lemma {:induction false} KeepIntsSound(ps: seq<string>, x: int)
    requires x in KeepInts(ps)
    ensures exists j :: 0 <= j < |ps| && ParseInt(ps[j]) == Some(x)
  {
    if ParseInt(ps[0]) == Some(x) {
      assert 0 < |ps|;
    } else {
      assert x in KeepInts(ps[1..]);
      KeepIntsSound(ps[1..], x);
      var j :| 0 <= j < |ps[1..]| && ParseInt(ps[1..][j]) == Some(x);
      assert ParseInt(ps[j + 1]) == Some(x);
    }
  }

  lemma {:induction false} KeepIntsAppend(xs: seq<string>, ys: seq<string>)
    ensures KeepInts(xs + ys) == KeepInts(xs) + KeepInts(ys)
    decreases |xs|
  {
    if xs == [] {
      assert xs + ys == ys;
    } else {
      assert (xs + ys)[1..] == xs[1..] + ys;
      KeepIntsAppend(xs[1..], ys);
    }
  }

  /** When every piece parses, nothing is dropped and the order is kept. */
  lemma {:induction false} KeepIntsAll(ps: seq<string>)
    requires forall j :: 0 <= j < |ps| ==> ParseInt(ps[j]).Some?
    ensures |KeepInts(ps)| == |ps|
    ensures forall j :: 0 <= j < |ps| ==> Some(KeepInts(ps)[j]) == ParseInt(ps[j])
  {
    if ps != [] {
      KeepIntsAll(ps[1..]);
    }
  }

  /** Admin ids of two comma-joined lists are the ids of the first followed by the second;
      so order is kept and duplicates are retained. */
  lemma ParseAdminIdsAppend(a: string, b: string)
    ensures ParseAdminIds(Some(a + "," + b)) == ParseAdminIds(Some(a)) + ParseAdminIds(Some(b))
  {
    assert AdminPieces(Some(a + "," + b)) == AdminPieces(Some(a)) + AdminPieces(Some(b)) by {
      AdminPiecesAppend(a, b);
    }
    KeepIntsAppend(AdminPieces(Some(a)), AdminPieces(Some(b)));
  }

  lemma AdminPiecesAppend(a: string, b: string)
    ensures AdminPieces(Some(a + "," + b)) == AdminPieces(Some(a)) + AdminPieces(Some(b))
  {
    assert a + "," + b != "";
    assert StrippedPieces("", ',') == [] by {
      assert Split("", ',') == [""];
    }
    StrippedPiecesAppend(a, ',', b);
  }

  /** A single piece yields its integer value, or nothing when `int()` rejects it. */
  lemma ParseAdminIdsPiece(p: string)
    requires ',' !in p
    ensures ParseInt(p).Some? ==> ParseAdminIds(Some(p)) == [ParseInt(p).value]
    ensures ParseInt(p).None? ==> ParseAdminIds(Some(p)) == []
  {
    var t := Strip(p);
    assert AdminPieces(Some(p)) == if t == "" then [] else [t] by {
      if p == "" {
        assert AdminPieces(Some(p)) == [];
      } else {
        StrippedPiecesSingle(p, ',');
      }
    }
    ParseIntStrip(p);
    if t != "" {
      assert KeepInts([t]) == match ParseInt(t) case Some(v) => [v] case None => [];
    }
  }

  /** A piece of more than 4300 digits is refused by `int()` and skipped. */
  lemma ParseAdminIdsTooLong(b: string)
    requires |b| > IntMaxStrDigits && forall i :: 0 <= i < |b| ==> IsDigit(b[i])
    ensures ParseAdminIds(Some(b)) == []
  {
    ParseIntTooLong("", "", b);
    Unsigned("", b);
    IntToStringFreeDigits(b);
    ParseAdminIdsPiece(b);
  }

  lemma IntToStringFreeDigits(b: string)
    requires forall i :: 0 <= i < |b| ==> IsDigit(b[i])
    ensures ',' !in b
  {
    assert !IsDigit(',');
  }

  /** The same id listed twice is kept twice. */
  lemma ParseAdminIdsDuplicates(x: int)
    requires StrFits(x)
    ensures ParseAdminIds(Some(IntToString(x) + "," + IntToString(x))) == [x, x]
  {
    TwoIds(IntToString(x) + "," + IntToString(x), x, x);
  }

  /** The default ADMIN_IDS value yields exactly the two configured ids, in order. */
  lemma DefaultAdminIdsParse()
    ensures ParseAdminIds(Some(DefaultAdminIds)) == [5858124063, 1043991178]
  {
    RenderFirstDefault();
    RenderSecondDefault();
    assert StrFits(5858124063) && StrFits(1043991178);
    DefaultAdminIdsPieces();
    TwoIds(DefaultAdminIds, 5858124063, 1043991178);
  }

  lemma DefaultAdminIdsPieces()
    ensures DefaultAdminIds == "5858124063" + "," + "1043991178"
  {
  }

  /** Two ids joined by a comma parse to those two ids. */
  lemma TwoIds(s: string, x: int, y: int)
    requires StrFits(x) && StrFits(y)
    requires s == IntToString(x) + "," + IntToString(y)
    ensures ParseAdminIds(Some(s)) == [x, y]
  {
    OneId(x);
    OneId(y);
    ParseAdminIdsAppend(IntToString(x), IntToString(y));
  }

  /** The decimal rendering of one id parses to that id alone. */
  lemma OneId(x: int)
    requires StrFits(x)
    ensures ParseAdminIds(Some(IntToString(x))) == [x]
  {
    IntToStringFree(x, ',');
    ParseIntToString(x);
    ParseAdminIdsPiece(IntToString(x));
  }

  lemma RenderFirstDefault()
    ensures IntToString(5858124063) == "5858124063"
  {
    assert NatToString(58) == "58";
    assert NatToString(585) == "585";
    assert NatToString(5858) == "5858";
    assert NatToString(58581) == "58581";
    assert NatToString(585812) == "585812";
    assert NatToString(5858124) == "5858124";
    assert NatToString(58581240) == "58581240";
    assert NatToString(585812406) == "585812406";
  }

  lemma RenderSecondDefault()
    ensures IntToString(1043991178) == "1043991178"
  {
    assert NatToString(10) == "10";
    assert NatToString(104) == "104";
    assert NatToString(1043) == "1043";
    assert NatToString(10439) == "10439";
    assert NatToString(104399) == "104399";
    assert NatToString(1043991) == "1043991";
    assert NatToString(10439911) == "10439911";
    assert NatToString(104399117) == "104399117";
  }
}

=== FILE: handlers.dfy ===
/** The moderation, new-profile, report, edit and delete handlers of the bot, each as a pure
    function from the store, the user's session and the update to the new store, the new
    session, the kind of reply sent and the chats notified. */
module Handlers {
  import opened Wrappers
  import opened Chars
  import opened Store
  import Utils
  import Keyboards

  /** `config.ADMIN_IDS` and `config.SUPER_ADMIN_ID`. */
  datatype Admins = Admins(adminIds: seq<int>, superAdminId: int)

  /** The Telegram user behind an update. */
  datatype User = User(id: int, username: Option<string>)

  /** `in_progress_profile`: the text that started the flow and the fields asked for since. */
  datatype Progress = Progress(initialText: Option<string>, age: Option<int>, username: Option<string>)

  const NoProgress: Progress := Progress(None, None, None)

  /** The keys of `context.user_data` the handlers read and write. */
  datatype Session = Session(
    preview: Option<Draft>, expectField: Option<string>, progress: Option<Progress>,
    reportCategory: Option<string>, editUsername: Option<string>)

  /** What the handler answers, without its wording. */
  datatype Reply =
    | Silent | AccessDenied | BadCommand | BadId | ProfileNotFound
    | ProfileAccepted(pid: int) | ProfileRejected(pid: int) | ReviewFailed | UnknownAction
    | NothingToSave | UsernameTaken(username: string) | Submitted(pid: int) | SaveFailed
    | Cancelled | AgeNotNumber | AgeOutOfRange | BadUsername | ShowPreview
    | ShowCategories | AskReason | ReportFiled(rid: int) | ReportCancelled | NoCategory
    | ProfileUpdated | UpdateFailed | Deleted(username: string) | DeleteFailed(username: string)
    | Crashed

  /** The conversation state a handler returns: `None`, `END` (-1), or the state to wait in. */
  datatype Next = Same | End | WaitText | WaitReason

  /** The result of a handler that may touch the database. */
  datatype Step = Step(store: Store, session: Session, reply: Reply, notify: seq<int>, next: Next)

  /** The result of a handler that only touches the session. */
  datatype Turn = Turn(session: Session, reply: Reply, next: Next)

  // ---------------------------------------------------------------------------------------------
  // admin_review_cb

  /** The payload `review:{id}:{action}` as `admin_review_cb` reads it. */
  datatype ReviewCommand = Malformed | NotANumber | Command(pid: int, action: string)

  /** Splits at every ':'; fewer than three pieces is malformed, and the second piece must be
      an integer for `int()`. Pieces after the third are ignored. */
  function ParseReview(data: string): (r: ReviewCommand)
    ensures r == Malformed <==> |Split(data, ':')| < 3
    ensures r == NotANumber <==> |Split(data, ':')| >= 3 && ParseInt(Split(data, ':')[1]).None?
    ensures r.Command? ==>
      ParseInt(Split(data, ':')[1]) == Some(r.pid) && r.action == Split(data, ':')[2]
  {
    var parts := Split(data, ':');
    if |parts| < 3 then Malformed
    else match ParseInt(parts[1])
      case None => NotANumber
      case Some(pid) => Command(pid, parts[2])
  }

  /** The two review buttons decode to the profile id they were made for and their action. */
  lemma ReviewButtonsDecode(pid: int)
    requires StrFits(pid)
    ensures ParseReview(Keyboards.AdminReview(pid)[0][0].payload) == Command(pid, "accept")
    ensures ParseReview(Keyboards.AdminReview(pid)[1][0].payload) == Command(pid, "reject")
  {
    ReviewPayloadParse(pid, "accept");
    ReviewPayloadParse(pid, "reject");
  }

  /** Any review payload without ':' in its action decodes to its id and action. */
  lemma ReviewPayloadParse(pid: int, action: string)
    requires StrFits(pid) && ':' !in action
    ensures ParseReview(Keyboards.ReviewPayload(pid, action)) == Command(pid, action)
  {
    Keyboards.ReviewPayloadSplit(pid, action);
    ParseIntToString(pid);
  }

  /** Whatever digits the id is written in, a payload whose id piece `int()` reads decodes to
      that id: an Arabic-Indic id is a command, not a bad number (see
      Chars.ParseIntOtherScripts). */
  lemma ReviewIdAnyDigits(d: string, pid: int, action: string)
    requires ':' !in d && ':' !in action && ParseInt(d) == Some(pid)
    ensures ParseReview("review:" + d + ":" + action) == Command(pid, action)
  {
    ReviewSplit(d, action);
  }

  /** A review payload splits into its tag, its id piece and its action. */
  lemma ReviewSplit(d: string, action: string)
    requires ':' !in d && ':' !in action
    ensures Split("review:" + d + ":" + action, ':') == ["review", d, action]
  {
    var parts := ["review", d, action];
    JoinThree("review", d, action);
    assert "review" + ":" == "review:";
    assert Join(parts, [':']) == "review:" + d + ":" + action;
    assert ':' !in "review";
    assert forall i :: 0 <= i < |parts| ==> ':' !in parts[i];
    SplitJoin(parts, ':');
  }

  lemma JoinThree(a: string, b: string, c: string)
    ensures Join([a, b, c], ":") == a + ":" + b + ":" + c
  {
    var parts := [a, b, c];
    assert parts[1..] == [b, c] && parts[1..][1..] == [c];
    assert Join(parts[1..], ":") == b + ":" + c;
    assert a + ":" + (b + ":" + c) == a + ":" + b + ":" + c;
  }

  /** The submitter is told of the decision when their id is known and non-zero. */
  function Submitter(p: Profile): (r: seq<int>)
    ensures r == [] <==> !TruthyInt(p.addedById)
    ensures r != [] ==> r == [p.addedById.value]
  {
    if TruthyInt(p.addedById) then [p.addedById.value] else []
  }

  /** `admin_review_cb`: only the super-admin may review; a bad payload or an unknown id
      changes nothing; 'accept' and 'reject' overwrite the status whatever it was. */
  function ReviewCallback(st: Store, sess: Session, admins: Admins, actor: Option<User>, data: string): (r: Step)
    ensures r.session == sess && r.next == Same
    ensures actor.None? || actor.value.id != admins.superAdminId ==> r == Step(st, sess, AccessDenied, [], Same)
    ensures r.store != st ==>
      actor.Some? && actor.value.id == admins.superAdminId && ParseReview(data).Command? &&
      GetProfileById(st, ParseReview(data).pid).Some? &&
      ParseReview(data).action in ["accept", "reject"]
    ensures actor.Some? && actor.value.id == admins.superAdminId ==>
      match ParseReview(data)
      case Malformed => r.reply == BadCommand && r.store == st
      case NotANumber => r.reply == BadId && r.store == st
      case Command(pid, action) =>
        (GetProfileById(st, pid).None? ==> r.reply == ProfileNotFound && r.store == st) &&
        (GetProfileById(st, pid).Some? && action == "accept" ==>
          r.store == UpdateProfileStatusById(st, pid, "approved").store &&
          r.reply == ProfileAccepted(pid) && r.notify == Submitter(GetProfileById(st, pid).value)) &&
        (GetProfileById(st, pid).Some? && action == "reject" ==>
          r.store == UpdateProfileStatusById(st, pid, "rejected").store &&
          r.reply == ProfileRejected(pid) && r.notify == Submitter(GetProfileById(st, pid).value)) &&
        (action != "accept" && action != "reject" ==> r.store == st && r.notify == [])
  {
    if actor.None? || actor.value.id != admins.superAdminId then Step(st, sess, AccessDenied, [], Same)
    else match ParseReview(data)
      case Malformed => Step(st, sess, BadCommand, [], Same)
      case NotANumber => Step(st, sess, BadId, [], Same)
      case Command(pid, action) =>
        match GetProfileById(st, pid)
        case None => Step(st, sess, ProfileNotFound, [], Same)
        case Some(p) =>
          if action == "accept" then
            var out := UpdateProfileStatusById(st, pid, "approved");
            if out.ok then Step(out.store, sess, ProfileAccepted(pid), Submitter(p), Same)
            else Step(out.store, sess, ReviewFailed, [], Same)
          else if action == "reject" then
            var out := UpdateProfileStatusById(st, pid, "rejected");
            if out.ok then Step(out.store, sess, ProfileRejected(pid), Submitter(p), Same)
            else Step(out.store, sess, ReviewFailed, [], Same)
          else Step(st, sess, UnknownAction, [], Same)
  }

  /** Pressing "accept" (or "reject") on the review keyboard of an existing profile leaves
      that very row in the store with only its status replaced; there is no check that the
      profile was still pending, so a second review overwrites the first. */
  lemma ReviewButtonsApply(st: Store, sess: Session, admins: Admins, name: Option<string>, pid: int, accept: bool)
    requires Valid(st) && GetProfileById(st, pid).Some? && StrFits(pid)
    ensures var row := if accept then 0 else 1;
      var r := ReviewCallback(st, sess, admins, Some(User(admins.superAdminId, name)),
                              Keyboards.AdminReview(pid)[row][0].payload);
      GetProfileById(r.store, pid) ==
        Some(GetProfileById(st, pid).value.(status := if accept then "approved" else "rejected")) &&
      r.reply == (if accept then ProfileAccepted(pid) else ProfileRejected(pid))
  {
    var data := Keyboards.AdminReview(pid)[if accept then 0 else 1][0].payload;
    assert ParseReview(data) == Command(pid, if accept then "accept" else "reject") by {
      ReviewButtonsDecode(pid);
    }
    ReviewCommandApply(st, sess, admins, name, data, pid, accept);
  }

  /** Callback data that decodes to "accept" (or "reject") for an existing profile sets its
      status and replies with the outcome. */
  lemma ReviewCommandApply(st: Store, sess: Session, admins: Admins, name: Option<string>, data: string,
                           pid: int, accept: bool)
    requires Valid(st) && GetProfileById(st, pid).Some?
    requires ParseReview(data) == Command(pid, if accept then "accept" else "reject")
    ensures var r := ReviewCallback(st, sess, admins, Some(User(admins.superAdminId, name)), data);
      GetProfileById(r.store, pid) ==
        Some(GetProfileById(st, pid).value.(status := if accept then "approved" else "rejected")) &&
      r.reply == (if accept then ProfileAccepted(pid) else ProfileRejected(pid))
  {
    var r := ReviewCallback(st, sess, admins, Some(User(admins.superAdminId, name)), data);
    var status := if accept then "approved" else "rejected";
    assert r.store == UpdateProfileStatusById(st, pid, status).store;
    StatusUpdateThenGet(st, pid, status);
  }

  // ---------------------------------------------------------------------------------------------
  // new_profile_confirm_cb and new_profile_cancel_cb

  /** `profile.get('username')` of a preview. */
  function PreviewName(d: Draft): Option<string> {
    if d.username.Given? then d.username.held else None
  }

  /** `new_profile_confirm_cb`: nothing to store without a preview; a username already used by
      a profile of any status is refused and the preview dropped; otherwise the preview is
      stored (the preview stays in the session) and the super-admin is sent the review
      keyboard. A failing insert is reported and changes nothing. */
  function ConfirmNew(st: Store, sess: Session, admins: Admins, now: string): (r: Step)
    ensures r.next == Same
    ensures sess.preview.None? ==> r == Step(st, sess, NothingToSave, [], Same)
    ensures sess.preview.Some? ==>
      var d := sess.preview.value;
      var taken := Truthy(PreviewName(d)) && GetProfileByUsername(st, PreviewName(d).value).Some?;
      (taken ==> r == Step(st, sess.(preview := None), UsernameTaken(PreviewName(d).value), [], Same)) &&
      (!taken && AddProfile(st, d, now).Refused? ==> r == Step(st, sess, SaveFailed, [], Same)) &&
      (!taken && AddProfile(st, d, now).Inserted? ==>
        r.store == AddProfile(st, d, now).store && r.session == sess &&
        r.reply == Submitted(AddProfile(st, d, now).id) && r.notify == [admins.superAdminId])
  {
    match sess.preview
    case None => Step(st, sess, NothingToSave, [], Same)
    case Some(d) =>
      if Truthy(PreviewName(d)) && GetProfileByUsername(st, PreviewName(d).value).Some? then
        Step(st, sess.(preview := None), UsernameTaken(PreviewName(d).value), [], Same)
      else match AddProfile(st, d, now)
        case Refused(_) => Step(st, sess, SaveFailed, [], Same)
        case Inserted(after, pid) => Step(after, sess, Submitted(pid), [admins.superAdminId], Same)
  }

  /** Confirming keeps the table valid: a stored preview never duplicates a username. */
  lemma ConfirmKeepsValid(st: Store, sess: Session, admins: Admins, now: string)
    requires Valid(st)
    ensures Valid(ConfirmNew(st, sess, admins, now).store)
  {
  }

  /** `new_profile_cancel_cb`: the preview is dropped and nothing else changes. */
  function CancelNew(sess: Session): (r: Turn)
    ensures r.session.preview.None? && r.session.(preview := sess.preview) == sess
    ensures r.reply == Cancelled
  {
    Turn(sess.(preview := None), Cancelled, Same)
  }

  /** After cancelling, confirming stores nothing. */
  lemma CancelThenConfirm(st: Store, sess: Session, admins: Admins, now: string)
    ensures ConfirmNew(st, CancelNew(sess).session, admins, now).store == st
    ensures ConfirmNew(st, CancelNew(sess).session, admins, now).reply == NothingToSave
  {
  }

  // ---------------------------------------------------------------------------------------------
  // new_profile_receive_single

  /** `if v.startswith('@'): v = v[1:]`: exactly one leading '@' is dropped. */
  function DropOneAt(v: string): (r: string)
    ensures v != [] && v[0] == '@' ==> v == "@" + r
    ensures (v == [] || v[0] != '@') ==> r == v
  {
    if StartsWith(v, "@") then v[1..] else v
  }

  /** Unlike `validate_username`, only one '@' goes: "@@x" keeps "@x". */
  lemma DropOneAtOnce(u: string)
    ensures DropOneAt("@" + u) == u
  {
  }

  /** The preview built from what was collected: the collected username or else the sender's,
      the collected age, and the first text or else this message as the note. */
  function BuildPreview(p: Progress, user: User, text: string, now: string): (d: Draft)
    ensures d.username == Given(if Truthy(p.username) then p.username else user.username)
    ensures d.content.age == p.age
    ensures d.content.note == (if Truthy(p.initialText) then p.initialText else Some(text))
    ensures d.addedBy == Given(user.username) && d.addedById == Some(user.id)
    ensures d.status.None? && d.addedAt == Given(Some(now))
  {
    Draft(Given(if Truthy(p.username) then p.username else user.username),
          Content(p.age, None, None, None, None, None, None,
                  if Truthy(p.initialText) then p.initialText else Some(text)),
          Given(user.username), Some(user.id), None, Given(Some(now)))
  }

  /** Stores the preview, forgets the expected field, and ends the conversation. */
  function ShowPreviewOf(sess: Session, p: Progress, kept: Option<Progress>, user: User, text: string, now: string): (r: Turn)
    ensures r.session.preview == Some(BuildPreview(p, user, text, now)) && r.session.expectField.None?
    ensures r.session.progress == kept && r.reply == ShowPreview && r.next == End
  {
    Turn(sess.(preview := Some(BuildPreview(p, user, text, now)), expectField := None, progress := kept),
         ShowPreview, End)
  }

  /** `new_profile_receive_single`: the stripped answer to the expected field. An age must be
      an integer in 8..99 and a username, after dropping one '@', 1..32 characters; a bad
      answer keeps the session as it was and waits for another. */
  function ReceiveSingle(sess: Session, user: User, text: string, now: string): (r: Turn)
    ensures !Truthy(sess.expectField) ==> r == Turn(sess, Silent, End)
    ensures r.reply != ShowPreview ==> r.session == sess
    ensures r.reply == ShowPreview ==> r.session.preview.Some? && r.session.expectField.None? && r.next == End
    ensures sess.expectField == Some("age") ==>
      (ParseInt(Strip(text)).None? ==> r.reply == AgeNotNumber) &&
      (ParseInt(Strip(text)).Some? && !(8 <= ParseInt(Strip(text)).value <= 99) ==> r.reply == AgeOutOfRange) &&
      (r.reply == ShowPreview <==> ParseInt(Strip(text)).Some? && 8 <= ParseInt(Strip(text)).value <= 99) &&
      (r.reply == ShowPreview ==> r.session.preview.value.content.age == ParseInt(Strip(text))) &&
      (r.reply != ShowPreview ==> r.next == WaitText)
    ensures sess.expectField == Some("username") ==>
      var name := DropOneAt(Strip(text));
      (r.reply == ShowPreview <==> 1 <= |name| <= 32) &&
      (r.reply == ShowPreview ==> r.session.preview.value.username == Given(Some(name))) &&
      (r.reply != ShowPreview ==> r.reply == BadUsername && r.next == WaitText)
  {
    if !Truthy(sess.expectField) then Turn(sess, Silent, End)
    else
      var v := Strip(text);
      var field := sess.expectField.value;
      var p := if sess.progress.Some? then sess.progress.value else NoProgress;
      if field == "age" then
        match ParseInt(v)
        case None => Turn(sess, AgeNotNumber, WaitText)
        case Some(age) =>
          if 8 <= age <= 99 then
            var p' := p.(age := Some(age));
            ShowPreviewOf(sess, p', Some(p'), user, text, now)
          else Turn(sess, AgeOutOfRange, WaitText)
      else if field == "username" then
        var name := DropOneAt(v);
        if name == "" || |name| > 32 then Turn(sess, BadUsername, WaitText)
        else
          var p' := p.(username := Some(name));
          ShowPreviewOf(sess, p', Some(p'), user, text, now)
      else ShowPreviewOf(sess, p, sess.progress, user, text, now)
  }

  /** The age step accepts 9 and refuses 100 as out of range and a blank answer as no number.
      (`validate_age` elsewhere draws the range differently: 10..120.) */
  lemma AgeStepRange(sess: Session, user: User, now: string)
    requires sess.expectField == Some("age")
    ensures ReceiveSingle(sess, user, "9", now).reply == ShowPreview
    ensures ReceiveSingle(sess, user, "100", now).reply == AgeOutOfRange
    ensures ReceiveSingle(sess, user, "  ", now).reply == AgeNotNumber
  {
    AgeSample9();
    AgeSample100();
    AgeSampleBlank();
  }

  /** An age typed in Arabic-Indic digits is accepted like its ASCII spelling. */
  lemma AgeStepOtherScripts(sess: Session, user: User, now: string)
    requires sess.expectField == Some("age")
    ensures ReceiveSingle(sess, user, "\U{0661}\U{0666}", now).reply == ShowPreview
    ensures ReceiveSingle(sess, user, "\U{0661}\U{0666}", now).session.preview.value.content.age
      == Some(16)
  {
    AgeSampleArabic16();
    AgeStepAccepts(sess, user, "\U{0661}\U{0666}", now, 16);
  }

  lemma AgeStepAccepts(sess: Session, user: User, text: string, now: string, n: int)
    requires sess.expectField == Some("age") && ParseInt(Strip(text)) == Some(n) && 8 <= n <= 99
    ensures ReceiveSingle(sess, user, text, now).reply == ShowPreview
    ensures ReceiveSingle(sess, user, text, now).session.preview.value.content.age == Some(n)
  {
  }

  lemma AgeSampleArabic16()
    ensures ParseInt(Strip("\U{0661}\U{0666}")) == Some(16)
  {
    ParseIntOtherScripts();
  }

  lemma AgeSample9()
    ensures ParseInt(Strip("9")) == Some(9)
  {
    StripIdentity("9");
    assert IntToString(9) == NatToString(9) == "9";
    ParseIntToString(9);
  }

  lemma AgeSample100()
    ensures ParseInt(Strip("100")) == Some(100)
  {
    StripIdentity("100");
    assert NatToString(100) == "100";
    ParseSignedNatural(100);
  }

  lemma AgeSampleBlank()
    ensures ParseInt(Strip("  ")) == None
  {
    assert IsSpace(' ');
    var t := "  ";
    assert LStrip(t[1..]) == [];
    assert LStrip(t) == [];
  }

  // ---------------------------------------------------------------------------------------------
  // Report recipients

  /** The distinct elements of `xs`. */
  function Dedupe(xs: seq<int>): (r: seq<int>)
    ensures forall x :: x in r <==> x in xs
    ensures forall i, j :: 0 <= i < j < |r| ==> r[i] != r[j]
  {
    if xs == [] then []
    else
      var rest := Dedupe(xs[1..]);
      if xs[0] in rest then rest else [xs[0]] + rest
  }

  /** `set(ADMIN_IDS)` with SUPER_ADMIN_ID added when it is not 0: each chat once. */
  function Recipients(admins: Admins): (r: seq<int>)
    ensures forall x :: x in r <==> x in admins.adminIds || (admins.superAdminId != 0 && x == admins.superAdminId)
    ensures forall i, j :: 0 <= i < j < |r| ==> r[i] != r[j]
  {
    Dedupe(admins.adminIds + (if admins.superAdminId != 0 then [admins.superAdminId] else []))
  }

  /** `reason[:400]`. */
  function Take(s: string, n: nat): (r: string)
    ensures |r| <= n && StartsWith(s, r)
    ensures |s| <= n ==> r == s
  {
    if |s| <= n then s else s[..n]
  }

  /** Stores a report from `user` and notifies every recipient once. */
  function FileReport(st: Store, sess: Session, admins: Admins, user: Option<User>, cat: string,
                      reason: string, now: string, next: Next): (r: Step)
    ensures var ins := AddReport(st, ReportDraft(
        if user.Some? then Some(user.value.id) else None,
        if user.Some? then user.value.username else None,
        Some(cat), None, Some(Take(reason, 400)), None, Given(Some(now))), now);
      r == Step(ins.store, sess, ReportFiled(ins.id), Recipients(admins), next)
  {
    var d := ReportDraft(if user.Some? then Some(user.value.id) else None,
                         if user.Some? then user.value.username else None,
                         Some(cat), None, Some(Take(reason, 400)), None, Given(Some(now)));
    var ins := AddReport(st, d, now);
    Step(ins.store, sess, ReportFiled(ins.id), Recipients(admins), next)
  }

  /** A filed report is the newest one listed, its reason holds at most 400 characters, and
      it is a prefix of the reason given. */
  lemma FiledReportListed(st: Store, sess: Session, admins: Admins, user: Option<User>, cat: string,
                          reason: string, now: string, next: Next)
    requires Valid(st)
    ensures var r := FileReport(st, sess, admins, user, cat, reason, now, next);
      Valid(r.store) && |GetReports(r.store)| == |st.reports| + 1 &&
      GetReports(r.store)[0].category == Some(cat) &&
      |GetReports(r.store)[0].reason.value| <= 400 &&
      StartsWith(reason, GetReports(r.store)[0].reason.value)
  {
    var d := ReportDraft(if user.Some? then Some(user.value.id) else None,
                         if user.Some? then user.value.username else None,
                         Some(cat), None, Some(Take(reason, 400)), None, Given(Some(now)));
    AddReportListed(st, d, now);
  }

  // ---------------------------------------------------------------------------------------------
  // try_auto_report_submit: keyword and category search on the lowered text

  /** `\b` followed by `репорт` or `жалоб` at `i`. */
  predicate ReportWordAt(lt: string, i: int) {
    Utils.Boundary(lt, i) && (OccursAt(lt, "репорт", i) || OccursAt(lt, "жалоб", i))
  }

  function ReportWordFrom(lt: string, from: nat): (r: Option<nat>)
    ensures r.Some? ==> from <= r.value < |lt| && ReportWordAt(lt, r.value)
    ensures r.None? ==> forall i :: from <= i < |lt| ==> !ReportWordAt(lt, i)
    decreases |lt| - from
  {
    if from >= |lt| then None
    else if (lt[from] == 'р' || lt[from] == 'ж') && ReportWordAt(lt, from) then Some(from)
    else ReportWordFrom(lt, from + 1)
  }

  /** `re.search(r'(?i)\b(репорт\w*|жалоб\w*)', text)` finds something. */
  function HasReportWord(t: string): (b: bool)
    ensures b ==> exists i :: 0 <= i < |t| && ReportWordAt(Lower(t), i)
    ensures !b ==> forall i :: 0 <= i < |t| ==> !ReportWordAt(Lower(t), i)
  {
    var lt := Lower(t);
    match ReportWordFrom(lt, 0)
    case None => false
    case Some(i) => assert 0 <= i < |t| && ReportWordAt(lt, i); true
  }

  /** The alternatives of the category pattern, in the order it tries them, and their codes. */
  const CategoryWords: seq<string> := ["bot", "бот", "канал", "channel", "группа", "чат", "group", "chat"]
  const CategoryCodes: seq<string> := ["bot", "bot", "channel", "channel", "chat", "chat", "chat", "chat"]

  /** The word `w` stands alone at `i`: `\b` before and after it. */
  predicate Stands(lt: string, w: string, i: int) {
    OccursAt(lt, w, i) && Utils.Boundary(lt, i) && Utils.Boundary(lt, i + |w|)
  }

  /** The first alternative from the `k`-th on that stands alone at `i`. */
  function CategoryAt(lt: string, i: int, k: nat): (r: Option<nat>)
    requires k <= |CategoryWords|
    ensures r.Some? ==> k <= r.value < |CategoryWords| && Stands(lt, CategoryWords[r.value], i)
    ensures r.None? ==> forall j :: k <= j < |CategoryWords| ==> !Stands(lt, CategoryWords[j], i)
    decreases |CategoryWords| - k
  {
    if k == |CategoryWords| then None
    else if Stands(lt, CategoryWords[k], i) then Some(k)
    else CategoryAt(lt, i, k + 1)
  }

  /** The first position from `from` on where some category word stands alone. */
  function CategoryFrom(lt: string, from: nat): (r: Option<nat>)
    ensures r.Some? ==> from <= r.value < |lt| && CategoryAt(lt, r.value, 0).Some?
    ensures forall i :: from <= i < (if r.Some? then r.value else |lt|) ==> CategoryAt(lt, i, 0).None?
    decreases |lt| - from
  {
    if from >= |lt| then None
    else if CategoryAt(lt, from, 0).Some? then Some(from)
    else CategoryFrom(lt, from + 1)
  }

  /** The category code of the leftmost category word, if the text has one. */
  function Category(t: string): (r: Option<string>)
    ensures r.Some? ==> r.value in CategoryCodes
  {
    var lt := Lower(t);
    match CategoryFrom(lt, 0)
    case None => None
    case Some(i) => Some(CategoryCodes[CategoryAt(lt, i, 0).value])
  }

  /** Without a category, no category word stands alone anywhere in the text. */
  lemma CategoryNone(t: string)
    requires Category(t).None?
    ensures forall i :: 0 <= i < |t| ==> CategoryAt(Lower(t), i, 0).None?
  {
    NoneFromStart(Lower(t));
  }

  lemma NoneFromStart(lt: string)
    requires CategoryFrom(lt, 0).None?
    ensures forall i :: 0 <= i < |lt| ==> CategoryAt(lt, i, 0).None?
  {
  }

  /** The category is that of the leftmost position where a category word stands alone. */
  lemma CategoryLeftmost(t: string)
    requires Category(t).Some?
    ensures exists i :: (LeftmostCategory(t, i) &&
                         Category(t).value == CategoryCodes[CategoryAt(Lower(t), i, 0).value])
  {
    var lt := Lower(t);
    var i := CategoryFrom(lt, 0).value;
    assert LeftmostCategory(t, i);
  }

  /** A category word stands alone at `i` and at no earlier position. */
  predicate LeftmostCategory(t: string, i: int) {
    0 <= i < |t| && CategoryAt(Lower(t), i, 0).Some? &&
    forall j :: 0 <= j < i ==> CategoryAt(Lower(t), j, 0).None?
  }

  /** Every letter of the category words is a lower-case word character. */
  lemma CategoryWordsLower(k: nat, m: nat)
    requires k < |CategoryWords| && m < |CategoryWords[k]|
    ensures IsWordChar(CategoryWords[k][m]) && !IsUpper(CategoryWords[k][m])
  {
  }

  /** At most one category word stands alone at a position, so the order in which the pattern
      tries its alternatives never changes the category. */
  lemma StandsUnique(lt: string, i: int, j: nat, k: nat)
    requires j < |CategoryWords| && k < |CategoryWords|
    requires Stands(lt, CategoryWords[j], i) && Stands(lt, CategoryWords[k], i)
    ensures j == k
  {
    CategoryWordChars(j);
    CategoryWordChars(k);
    StandingWordsEqual(lt, i, CategoryWords[j], CategoryWords[k]);
    CategoryWordsDistinct(j, k);
  }

  lemma CategoryWordChars(k: nat)
    requires k < |CategoryWords|
    ensures CategoryWords[k] != []
    ensures forall m :: 0 <= m < |CategoryWords[k]| ==> IsWordChar(CategoryWords[k][m])
  {
    forall m | 0 <= m < |CategoryWords[k]| ensures IsWordChar(CategoryWords[k][m]) {
      CategoryWordsLower(k, m);
    }
  }

  /** Two non-empty words of word characters that both stand alone at one position are the
      same word. */
  lemma StandingWordsEqual(lt: string, i: int, a: string, b: string)
    requires a != [] && forall m :: 0 <= m < |a| ==> IsWordChar(a[m])
    requires b != [] && forall m :: 0 <= m < |b| ==> IsWordChar(b[m])
    requires Stands(lt, a, i) && Stands(lt, b, i)
    ensures a == b
  {
    if |a| < |b| {
      PrefixWordNotStanding(lt, i, a, b);
    } else if |b| < |a| {
      PrefixWordNotStanding(lt, i, b, a);
    } else {
      SameOccurrence(lt, i, a, b);
    }
  }

  /** A word that a longer word continues with a word character has no `\b` after it. */
  lemma PrefixWordNotStanding(lt: string, i: int, a: string, b: string)
    requires 0 < |a| < |b| && OccursAt(lt, a, i) && OccursAt(lt, b, i)
    requires IsWordChar(a[|a| - 1]) && IsWordChar(b[|a|])
    ensures !Utils.Boundary(lt, i + |a|)
  {
    assert lt[i + |a| - 1] == a[|a| - 1];
    assert lt[i + |a|] == b[|a|];
  }

  lemma SameOccurrence(lt: string, i: int, a: string, b: string)
    requires |a| == |b| && OccursAt(lt, a, i) && OccursAt(lt, b, i)
    ensures a == b
  {
  }

  lemma CategoryWordsDistinct(j: nat, k: nat)
    requires j < |CategoryWords| && k < |CategoryWords|
    requires CategoryWords[j] == CategoryWords[k]
    ensures j == k
  {
  }

  /** `try_auto_report_submit`: ignores text without a report word; without a category word
      shows the categories; without a reason (its extraction is an input here) remembers the
      category and asks for one; otherwise files the report and notifies the admins. */
  function AutoReport(st: Store, sess: Session, admins: Admins, user: Option<User>, text: string,
                      reason: Option<string>, now: string): (r: Step)
    ensures r.next == Same
    ensures Strip(text) == "" || !HasReportWord(Strip(text)) ==> r == Step(st, sess, Silent, [], Same)
    ensures Strip(text) != "" && HasReportWord(Strip(text)) ==>
      (Category(Strip(text)).None? ==> r == Step(st, sess, ShowCategories, [], Same)) &&
      (Category(Strip(text)).Some? && !Truthy(reason) ==>
        r == Step(st, sess.(reportCategory := Category(Strip(text))), AskReason, [], Same)) &&
      (Category(Strip(text)).Some? && Truthy(reason) ==>
        r == FileReport(st, sess, admins, user, Category(Strip(text)).value, reason.value, now, Same))
  {
    var t := Strip(text);
    if t == "" || !HasReportWord(t) then Step(st, sess, Silent, [], Same)
    else match Category(t)
      case None => Step(st, sess, ShowCategories, [], Same)
      case Some(cat) =>
        if !Truthy(reason) then Step(st, sess.(reportCategory := Some(cat)), AskReason, [], Same)
        else FileReport(st, sess, admins, user, cat, reason.value, now, Same)
  }

  /** A text opening with a category word followed by a non-word character has that word's
      category. */
  lemma {:induction false} LeadingCategory(k: nat, rest: string)
    requires k < |CategoryWords|
    requires rest == [] || !IsWordChar(rest[0])
    ensures Category(CategoryWords[k] + rest) == Some(CategoryCodes[k])
  {
    var w := CategoryWords[k];
    var t := w + rest;
    var lt := Lower(t);
    forall m | 0 <= m < |w|
      ensures lt[m] == w[m]
    {
      CategoryWordsLower(k, m);
    }
    assert lt[..|w|] == w;
    CategoryWordsLower(k, 0);
    CategoryWordsLower(k, |w| - 1);
    if rest != [] {
      assert lt[|w|] == LowerChar(rest[0]) == rest[0];
    }
    assert Stands(lt, w, 0);
    var j := CategoryAt(lt, 0, 0).value;
    StandsUnique(lt, 0, j, k);
  }

  // ---------------------------------------------------------------------------------------------
  // report_select_cb and report_reason_received

  /** `report_select_cb`: 'cancel' and 'menu' end the flow (a category chosen before stays);
      any other argument becomes the category and the flow waits for the reason. */
  function ReportSelect(sess: Session, data: string): (r: Turn)
    ensures Keyboards.Argument(data).None? ==> r == Turn(sess, Crashed, Same)
    ensures Keyboards.Argument(data).Some? ==>
      var cat := Keyboards.Argument(data).value;
      (cat == "cancel" || cat == "menu" ==> r == Turn(sess, ReportCancelled, End)) &&
      (cat != "cancel" && cat != "menu" ==>
        r == Turn(sess.(reportCategory := Some(cat)), AskReason, WaitReason))
  {
    match Keyboards.Argument(data)
    case None => Turn(sess, Crashed, Same)
    case Some(cat) =>
      if cat == "cancel" || cat == "menu" then Turn(sess, ReportCancelled, End)
      else Turn(sess.(reportCategory := Some(cat)), AskReason, WaitReason)
  }

  /** Choosing a category button of the form `report:{cat}` remembers exactly `cat`. */
  lemma ReportSelectButton(sess: Session, cat: string)
    requires cat != "cancel" && cat != "menu"
    ensures ReportSelect(sess, "report:" + cat).session.reportCategory == Some(cat)
  {
    assert "report:" + cat == "report" + ":" + cat;
    Keyboards.ArgumentOf("report", cat);
  }

  /** `report_reason_received`: without a remembered category the flow ends; otherwise the
      message (or "" when it has no text) is filed as the reason. The category is kept. */
  function ReasonReceived(st: Store, sess: Session, admins: Admins, user: Option<User>, text: Option<string>,
                          now: string): (r: Step)
    ensures !Truthy(sess.reportCategory) ==> r == Step(st, sess, NoCategory, [], End)
    ensures Truthy(sess.reportCategory) ==>
      r == FileReport(st, sess, admins, user, sess.reportCategory.value,
                      if text.Some? then text.value else "", now, End)
  {
    if !Truthy(sess.reportCategory) then Step(st, sess, NoCategory, [], End)
    else FileReport(st, sess, admins, user, sess.reportCategory.value,
                    if text.Some? then text.value else "", now, End)
  }

  /** The category is never cleared, so a second reason is filed under the same category. */
  lemma SecondReasonSameCategory(st: Store, sess: Session, admins: Admins, user: Option<User>,
                                 a: Option<string>, b: Option<string>, now: string)
    requires Valid(st) && Truthy(sess.reportCategory)
    ensures var first := ReasonReceived(st, sess, admins, user, a, now);
      var second := ReasonReceived(first.store, first.session, admins, user, b, now);
      second.reply.ReportFiled? && GetReports(second.store)[0].category == sess.reportCategory
  {
    var first := ReasonReceived(st, sess, admins, user, a, now);
    FiledReportListed(st, sess, admins, user, sess.reportCategory.value,
                      if a.Some? then a.value else "", now, End);
    FiledReportListed(first.store, first.session, admins, user, sess.reportCategory.value,
                      if b.Some? then b.value else "", now, End);
  }

  // ---------------------------------------------------------------------------------------------
  // admin_receive_edit

  /** The heuristic fields of `parse_profile_text` (name, country, city, timezone and its
      offset), taken as given. */
  datatype Labels = Labels(name: Option<string>, country: Option<string>, city: Option<string>,
                           timezone: Option<string>, tzOffset: Option<int>)

  /** A parsed value becomes a change only when it is not `None`. */
  function Change<T>(v: Option<T>): (e: Entry<T>)
    ensures e.Given? <==> v.Some?
    ensures e.Given? ==> e.held == v
  {
    if v.Some? then Given(v) else Missing
  }

  /** The `changes` dictionary built from the parse: the non-`None` values among the eight
      content keys. The note is always present. */
  function EditPatch(parsed: Utils.Parsed, labels: Labels): (p: Patch)
    ensures p.note == Given(Some(parsed.note)) && p != NoChanges
    ensures p.age == Change(parsed.age) && p.languages == Change(parsed.languages)
    ensures p.name == Change(labels.name) && p.country == Change(labels.country) &&
      p.city == Change(labels.city) && p.timezone == Change(labels.timezone) &&
      p.tzOffset == Change(labels.tzOffset)
  {
    Patch(Change(parsed.age), Change(labels.name), Change(labels.country), Change(labels.city),
          Change(labels.timezone), Change(labels.tzOffset), Change(parsed.languages),
          Given(Some(parsed.note)))
  }

  /** `admin_receive_edit`: ignored without an edit target or for a non-admin (the target then
      stays); otherwise the profile is patched and the target cleared. */
  function ReceiveEdit(st: Store, sess: Session, admins: Admins, user: User, text: Option<string>,
                       labels: Labels): (r: Step)
    ensures !Truthy(sess.editUsername) || user.id !in admins.adminIds ==>
      r == Step(st, sess, Silent, [], Same)
    ensures Truthy(sess.editUsername) && user.id in admins.adminIds ==>
      var patch := EditPatch(Utils.ParseProfileText(if text.Some? then text.value else ""), labels);
      var out := UpdateProfile(st, sess.editUsername.value, patch);
      r.store == out.store && r.session == sess.(editUsername := None) &&
      r.reply == (if out.ok then ProfileUpdated else UpdateFailed)
  {
    if !Truthy(sess.editUsername) || user.id !in admins.adminIds then Step(st, sess, Silent, [], Same)
    else
      var parsed := Utils.ParseProfileText(if text.Some? then text.value else "");
      var out := UpdateProfile(st, sess.editUsername.value, EditPatch(parsed, labels));
      Step(out.store, sess.(editUsername := None), if out.ok then ProfileUpdated else UpdateFailed, [], Same)
  }

  /** An admin's edit of an existing profile succeeds, sets its note to the parsed note, never
      blanks a column, and leaves its username, status and id alone. */
  lemma EditApplies(st: Store, sess: Session, admins: Admins, user: User, text: Option<string>,
                    labels: Labels, k: int)
    requires Truthy(sess.editUsername) && user.id in admins.adminIds
    requires 0 <= k < |st.profiles| && st.profiles[k].username == sess.editUsername.value
    ensures var r := ReceiveEdit(st, sess, admins, user, text, labels);
      var before := st.profiles[k].content;
      var now := r.store.profiles[k].content;
      r.reply == ProfileUpdated &&
      now.note == Some(Utils.ParseProfileText(if text.Some? then text.value else "").note) &&
      (before.age.Some? ==> now.age.Some?) && (before.name.Some? ==> now.name.Some?) &&
      (before.languages.Some? ==> now.languages.Some?) &&
      r.store.profiles[k].(content := before) == st.profiles[k]
  {
  }

  // ---------------------------------------------------------------------------------------------
  // delete_profile_confirm_cb

  /** `delete_profile_confirm_cb`: deletes the named profile for whoever pressed the button
      (there is no admin check) and says whether it existed. */
  function DeleteConfirm(st: Store, sess: Session, data: string): (r: Step)
    ensures r.session == sess && r.notify == [] && r.next == Same
    ensures Keyboards.Argument(data).None? ==> r.store == st && r.reply == Crashed
    ensures Keyboards.Argument(data).Some? ==>
      var u := Keyboards.Argument(data).value;
      r.store == DeleteProfile(st, u).store &&
      r.reply == (if DeleteProfile(st, u).ok then Deleted(u) else DeleteFailed(u))
  {
    match Keyboards.Argument(data)
    case None => Step(st, sess, Crashed, [], Same)
    case Some(u) =>
      var out := DeleteProfile(st, u);
      Step(out.store, sess, if out.ok then Deleted(u) else DeleteFailed(u), [], Same)
  }

  /** The confirmation button of `confirm_delete_kb(u)` removes exactly `u`'s profile. */
  lemma DeleteButtonRemoves(st: Store, sess: Session, u: string)
    requires Valid(st)
    ensures var r := DeleteConfirm(st, sess, Keyboards.ConfirmDelete(u)[0][0].payload);
      GetProfileByUsername(r.store, u).None? && Valid(r.store) &&
      (r.reply == Deleted(u) <==> GetProfileByUsername(st, u).Some?) &&
      forall p :: p in st.profiles && p.username != u ==> p in r.store.profiles
  {
    Keyboards.ConfirmDeleteTarget(u);
  }
}

=== FILE: keyboards.dfy ===
/** The inline keyboards the bot attaches to its messages, as rows of buttons carrying
    callback payloads, and the payload decoding the callback handlers apply to them. */
module Keyboards {
  import opened Wrappers
  import opened Chars

  /** An inline button: the text shown and the callback payload sent back. */
  datatype Button = Button(text: string, payload: string)

  /** An inline keyboard: rows of buttons, top to bottom. */
  type Markup = seq<seq<Button>>

  /** The payloads of one row, left to right. */
  function Payloads(row: seq<Button>): (r: seq<string>)
    ensures |r| == |row| && forall i :: 0 <= i < |row| ==> r[i] == row[i].payload
  {
    if row == [] then [] else [row[0].payload] + Payloads(row[1..])
  }

  /** `data.split(':', 1)[1]`: the text after the first ':'; a payload without ':' has none
      (the handler would fail on the index). */
  function Argument(data: string): (r: Option<string>)
    ensures r.Some? <==> ':' in data
  {
    if ':' in data then Some(AfterFirst(data, ':')) else None
  }

  /** A payload made of a tag without ':' and an argument decodes to that argument, whatever
      the argument holds. */
  lemma ArgumentOf(tag: string, arg: string)
    requires ':' !in tag
    ensures Argument(tag + ":" + arg) == Some(arg)
  {
    assert tag + ":" + arg == tag + [':'] + arg;
    AfterFirstPrefix(tag, ':', arg);
  }

  // ---------------------------------------------------------------------------------------------
  // users_list_kb

  /** One "view" row per username, in order, then the "add new" and "back" row. */
  function UsersList(usernames: seq<string>): (r: Markup)
    ensures |r| == |usernames| + 1
    ensures forall i :: 0 <= i < |usernames| ==> |r[i]| == 1
    ensures Payloads(r[|usernames|]) == ["back:add_new", "back:menu"]
  {
    if usernames == [] then [[Button("Добавить новую", "back:add_new"), Button("Назад", "back:menu")]]
    else [[Button("@" + usernames[0], "view:" + usernames[0])]] + UsersList(usernames[1..])
  }

  /** Row `i` of the list opens exactly the `i`-th username: `view_profile_cb`'s decoding
      recovers it even when it holds ':' itself. */
  lemma {:induction false} UsersListViews(usernames: seq<string>, i: int)
    requires 0 <= i < |usernames|
    ensures UsersList(usernames)[i][0] == Button("@" + usernames[i], "view:" + usernames[i])
    ensures Argument(UsersList(usernames)[i][0].payload) == Some(usernames[i])
  {
    if i > 0 {
      UsersListViews(usernames[1..], i - 1);
      assert usernames[1..][i - 1] == usernames[i];
      assert UsersList(usernames)[i] == UsersList(usernames[1..])[i - 1];
    }
    assert "view:" + usernames[i] == "view" + ":" + usernames[i];
    ArgumentOf("view", usernames[i]);
  }

  // ---------------------------------------------------------------------------------------------
  // profile_actions_kb

  /** Python's `is_admin or (user_id and profile_owner_id and user_id == profile_owner_id)`. */
  predicate CanEdit(isAdmin: bool, userId: Option<int>, ownerId: Option<int>) {
    isAdmin || (TruthyInt(userId) && TruthyInt(ownerId) && userId == ownerId)
  }

  /** One row: "back" first, then "edit" when editing is allowed, then "delete" for admins. */
  function ProfileActions(username: string, isAdmin: bool, userId: Option<int>, ownerId: Option<int>): (r: Markup)
    ensures |r| == 1 && |r[0]| >= 1 && r[0][0].payload == "back:users"
    ensures "edit:" + username in Payloads(r[0]) <==> CanEdit(isAdmin, userId, ownerId)
    ensures "delete:" + username in Payloads(r[0]) <==> isAdmin
    ensures isAdmin ==> r[0][|r[0]| - 1].payload == "delete:" + username
    ensures |r[0]| == 1 + (if CanEdit(isAdmin, userId, ownerId) then 1 else 0) + (if isAdmin then 1 else 0)
  {
    var back := [Button("Назад", "back:users")];
    var edit := if CanEdit(isAdmin, userId, ownerId) then [Button("Редактировать", "edit:" + username)] else [];
    var delete := if isAdmin then [Button("Удалить", "delete:" + username)] else [];
    var row := back + edit + delete;
    assert ("edit:" + username)[0] == 'e' && ("delete:" + username)[0] == 'd';
    assert Payloads(row) == Payloads(back) + Payloads(edit) + Payloads(delete);
    [row]
  }

  /** A non-admin viewing someone else's profile, or with no known id, gets only "back". */
  lemma ProfileActionsVisitor(username: string, userId: Option<int>, ownerId: Option<int>)
    requires userId != ownerId || !TruthyInt(userId)
    ensures Payloads(ProfileActions(username, false, userId, ownerId)[0]) == ["back:users"]
  {
  }

  // ---------------------------------------------------------------------------------------------
  // confirm_delete_kb, profile_menu_kb, admin_review_kb

  /** The confirmation of a deletion, then the way back to the list. */
  function ConfirmDelete(username: string): (r: Markup)
    ensures |r| == 2 && |r[0]| == 1 && |r[1]| == 1
    ensures r[0][0].payload == "delete_confirm:" + username
    ensures r[1][0].payload == "back:users"
  {
    [[Button("Подтвердить удаление", "delete_confirm:" + username)], [Button("Отмена", "back:users")]]
  }

  /** `delete_profile_confirm_cb` decodes the confirmation to the very username it names. */
  lemma ConfirmDeleteTarget(username: string)
    ensures Argument(ConfirmDelete(username)[0][0].payload) == Some(username)
  {
    assert "delete_confirm:" + username == "delete_confirm" + ":" + username;
    ArgumentOf("delete_confirm", username);
  }

  /** "Edit" for a user who has a profile, "new" otherwise, then "back". */
  function ProfileMenu(hasProfile: bool): (r: Markup)
    ensures |r| == 2 && |r[0]| == 1 && Payloads(r[1]) == ["back:menu"]
    ensures r[0][0].payload == "profile:edit_start" <==> hasProfile
    ensures r[0][0].payload == "profile:new_start" <==> !hasProfile
  {
    var first := if hasProfile then Button("Редактировать", "profile:edit_start")
                 else Button("Новая анкета", "profile:new_start");
    [[first], [Button("Назад", "back:menu")]]
  }

  /** The review payload for one profile and one action. */
  function ReviewPayload(pid: int, action: string): string {
    "review:" + IntToString(pid) + ":" + action
  }

  /** "Accept" above "reject", both naming the profile. */
  function AdminReview(pid: int): (r: Markup)
    ensures |r| == 2 && |r[0]| == 1 && |r[1]| == 1
    ensures r[0][0].payload == ReviewPayload(pid, "accept")
    ensures r[1][0].payload == ReviewPayload(pid, "reject")
  {
    [[Button("Принять", ReviewPayload(pid, "accept"))], [Button("Отклонить", ReviewPayload(pid, "reject"))]]
  }

  /** A review payload splits at ':' into its tag, the id's digits and the action. */
  lemma ReviewPayloadSplit(pid: int, action: string)
    requires ':' !in action
    ensures Split(ReviewPayload(pid, action), ':') == ["review", IntToString(pid), action]
  {
    var parts := ["review", IntToString(pid), action];
    IntToStringFree(pid, ':');
    assert parts[1..] == [IntToString(pid), action] && parts[1..][1..] == [action];
    assert Join(parts[1..], ":") == IntToString(pid) + ":" + action;
    assert Join(parts, ":") == "review" + ":" + (IntToString(pid) + ":" + action);
    assert Join(parts, ":") == ReviewPayload(pid, action);
    SplitJoin(parts, ':');
  }
}

=== FILE: rate_limiter.dfy ===
/** The per-user sliding-window rate limiter and the retry schedule for Telegram calls.
    Time is an explicit clock in microseconds; the sleeps of the retry loop are returned as a
    list of waits (in seconds) instead of being slept. */
module RateLimiter {
  import opened Wrappers
  import Config

  /** Clock ticks per second. */
  const Second: int := 1_000_000

  // ---------------------------------------------------------------------------------------------
  // UserRateLimiter

  /** `max_rate`, `time_period` (seconds) and the request times recorded for each user. */
  datatype Limiter = Limiter(maxRate: int, period: int, requests: map<int, seq<int>>)

  /** The constructor: a missing or zero `max_rate` falls back to the configured rate. */
  function NewLimiter(maxRate: Option<int>, period: int): (r: Limiter)
    ensures maxRate.Some? && maxRate.value != 0 ==> r.maxRate == maxRate.value
    ensures maxRate == None || maxRate == Some(0) ==> r.maxRate == Config.RateLimitPerSecond
    ensures r.period == period && forall u :: History(r, u) == []
  {
    Limiter(if maxRate.Some? && maxRate.value != 0 then maxRate.value else Config.RateLimitPerSecond,
            period, map[])
  }

  /** The times recorded for `u`; the default dictionary makes an absent user an empty list. */
  function History(l: Limiter, u: int): seq<int> {
    if u in l.requests then l.requests[u] else []
  }

  /** The times strictly after `cutoff`, in their order. */
  function Prune(ts: seq<int>, cutoff: int): (r: seq<int>)
    ensures |r| <= |ts|
    ensures (forall i :: 0 <= i < |ts| ==> ts[i] > cutoff) ==> r == ts
  {
    if ts == [] then []
    else if ts[0] > cutoff then [ts[0]] + Prune(ts[1..], cutoff)
    else Prune(ts[1..], cutoff)
  }

  /** `Prune` keeps exactly the times after the cutoff. */
  lemma {:induction false} PruneMembers(ts: seq<int>, cutoff: int, x: int)
    ensures x in Prune(ts, cutoff) <==> x in ts && x > cutoff
  {
    if ts != [] {
      PruneMembers(ts[1..], cutoff, x);
      assert x in ts <==> x == ts[0] || x in ts[1..];
    }
  }

  /** `is_allowed`: drops the caller's times at or before `now - period`, refuses when the
      remaining ones reach `max_rate`, and otherwise records `now`. */
  function IsAllowed(l: Limiter, u: int, now: int): (r: (Limiter, bool))
    ensures r.0.maxRate == l.maxRate && r.0.period == l.period
    ensures var kept := Prune(History(l, u), now - l.period * Second);
      (r.1 <==> |kept| < l.maxRate) &&
      History(r.0, u) == (if r.1 then kept + [now] else kept)
    ensures forall v :: v != u ==> History(r.0, v) == History(l, v)
  {
    var kept := Prune(History(l, u), now - l.period * Second);
    if |kept| >= l.maxRate then (l.(requests := l.requests[u := kept]), false)
    else (l.(requests := l.requests[u := kept + [now]]), true)
  }

  /** `get_reset_time`: 0 when nothing is recorded or the oldest time has left the window;
      otherwise the whole seconds left, truncated, plus one. */
  function ResetTime(l: Limiter, u: int, now: int): (r: int)
    ensures r >= 0
    ensures r == 0 <==> History(l, u) == [] || History(l, u)[0] + l.period * Second <= now
    ensures r > 0 ==>
      var left := History(l, u)[0] + l.period * Second - now;
      (r - 1) * Second <= left < r * Second
  {
    var h := History(l, u);
    if h == [] then 0
    else
      var reset := h[0] + l.period * Second;
      if reset > now then (reset - now) / Second + 1 else 0
  }

  /** After `is_allowed`, the caller's times are those of the window, plus `now` when the
      call was allowed. */
  lemma AllowedHolds(l: Limiter, u: int, now: int, x: int)
    ensures var r := IsAllowed(l, u, now);
      x in History(r.0, u) <==>
        (x in History(l, u) && x > now - l.period * Second) || (r.1 && x == now)
  {
    PruneMembers(History(l, u), now - l.period * Second, x);
  }

  /** The most times a window can hold: `max_rate`, or none when it is not positive. */
  function Cap(l: Limiter): nat {
    if l.maxRate > 0 then l.maxRate else 0
  }

  /** No user has more than `Cap` times recorded. */
  ghost predicate Bounded(l: Limiter) {
    forall u :: u in l.requests ==> |l.requests[u]| <= Cap(l)
  }

  /** `is_allowed` keeps every window within `max_rate`. */
  lemma WindowBounded(l: Limiter, u: int, now: int)
    requires Bounded(l)
    ensures Bounded(IsAllowed(l, u, now).0)
  {
    var r := IsAllowed(l, u, now).0;
    forall v | v in r.requests
      ensures |r.requests[v]| <= Cap(r)
    {
      if v != u {
        assert History(r, v) == History(l, v);
      } else {
        assert |History(l, u)| <= Cap(l);
      }
    }
  }

  /** The limiter after one user's calls at the times `ts`, and how many were allowed. */
  function Burst(l: Limiter, u: int, ts: seq<int>): (r: (seq<bool>, Limiter))
    ensures |r.0| == |ts|
  {
    if ts == [] then ([], l)
    else
      var before := Burst(l, u, ts[..|ts| - 1]);
      var step := IsAllowed(before.1, u, ts[|ts| - 1]);
      (before.0 + [step.1], step.0)
  }

  function Min(a: int, b: int): int {
    if a <= b then a else b
  }

  /** Calls at non-decreasing times spanning less than one period, starting from an empty
      history: the first `max_rate` are allowed and recorded, every later one is refused. */
  lemma {:induction false} BurstWithinWindow(l: Limiter, u: int, ts: seq<int>)
    requires History(l, u) == [] && 0 <= l.maxRate
    requires forall i, j :: 0 <= i <= j < |ts| ==> ts[i] <= ts[j]
    requires |ts| > 0 ==> ts[|ts| - 1] - ts[0] < l.period * Second
    ensures History(Burst(l, u, ts).1, u) == ts[..Min(|ts|, l.maxRate)]
    ensures Burst(l, u, ts).1.maxRate == l.maxRate && Burst(l, u, ts).1.period == l.period
    ensures forall i :: 0 <= i < |ts| ==> (Burst(l, u, ts).0[i] <==> i < l.maxRate)
  {
    if ts != [] {
      var init := ts[..|ts| - 1];
      if init != [] {
        assert init[|init| - 1] - init[0] < l.period * Second;
      }
      BurstWithinWindow(l, u, init);
      forall i | 0 <= i < |ts|
        ensures ts[i] > ts[|ts| - 1] - l.period * Second
      {
        assert ts[0] <= ts[i];
      }
      BurstStep(l, u, ts);
    }
  }

  /** The inductive step of `BurstWithinWindow`: one more call inside the window. */
  lemma BurstStep(l: Limiter, u: int, ts: seq<int>)
    requires ts != [] && 0 <= l.maxRate
    requires forall i :: 0 <= i < |ts| ==> ts[i] > ts[|ts| - 1] - l.period * Second
    requires var b := Burst(l, u, ts[..|ts| - 1]);
      History(b.1, u) == ts[..|ts| - 1][..Min(|ts| - 1, l.maxRate)] &&
      b.1.maxRate == l.maxRate && b.1.period == l.period &&
      forall i :: 0 <= i < |ts| - 1 ==> (b.0[i] <==> i < l.maxRate)
    ensures History(Burst(l, u, ts).1, u) == ts[..Min(|ts|, l.maxRate)]
    ensures Burst(l, u, ts).1.maxRate == l.maxRate && Burst(l, u, ts).1.period == l.period
    ensures forall i :: 0 <= i < |ts| ==> (Burst(l, u, ts).0[i] <==> i < l.maxRate)
  {
    var before := Burst(l, u, ts[..|ts| - 1]);
    var step := IsAllowed(before.1, u, ts[|ts| - 1]);
    CallInWindow(before.1, u, ts);
    assert Burst(l, u, ts).1 == step.0;
    assert Burst(l, u, ts).0 == before.0 + [step.1];
    StepOks(before.0, step.1, l.maxRate);
  }

  /** One more call inside the window of every earlier one is allowed iff fewer than
      `max_rate` came before it. */
  lemma CallInWindow(lb: Limiter, u: int, ts: seq<int>)
    requires ts != [] && 0 <= lb.maxRate
    requires forall i :: 0 <= i < |ts| ==> ts[i] > ts[|ts| - 1] - lb.period * Second
    requires History(lb, u) == ts[..|ts| - 1][..Min(|ts| - 1, lb.maxRate)]
    ensures var st := IsAllowed(lb, u, ts[|ts| - 1]);
      (st.1 <==> |ts| - 1 < lb.maxRate) && History(st.0, u) == ts[..Min(|ts|, lb.maxRate)] &&
      st.0.maxRate == lb.maxRate && st.0.period == lb.period
  {
    var h := History(lb, u);
    var st := IsAllowed(lb, u, ts[|ts| - 1]);
    WindowKept(h, ts, ts[|ts| - 1] - lb.period * Second);
    StepHistory(h, ts, lb.maxRate, History(st.0, u), st.1);
  }

  /** The calls recorded so far are a prefix of the times, all inside the new window. */
  lemma WindowKept(h: seq<int>, ts: seq<int>, cutoff: int)
    requires |h| < |ts| && h == ts[..|h|]
    requires forall i :: 0 <= i < |ts| ==> ts[i] > cutoff
    ensures Prune(h, cutoff) == h
  {
    assert forall i :: 0 <= i < |h| ==> h[i] == ts[i];
  }

  lemma StepHistory(h: seq<int>, ts: seq<int>, m: int, after: seq<int>, ok: bool)
    requires ts != [] && 0 <= m && h == ts[..|ts| - 1][..Min(|ts| - 1, m)]
    requires ok <==> |ts| - 1 < m
    requires after == if ok then h + [ts[|ts| - 1]] else h
    ensures after == ts[..Min(|ts|, m)]
  {
    if ok {
      assert ts == ts[..|ts| - 1] + [ts[|ts| - 1]];
    }
  }

  lemma StepOks(before: seq<bool>, ok: bool, m: int)
    requires forall i :: 0 <= i < |before| ==> (before[i] <==> i < m)
    requires ok <==> |before| < m
    ensures forall i :: 0 <= i < |before| + 1 ==> ((before + [ok])[i] <==> i < m)
  {
  }

  /** With the default limiter, five calls in quick succession are all allowed, and after
      fifteen such calls the sixteenth is refused. */
  lemma DefaultBurst(u: int, ts: seq<int>)
    requires |ts| == 16
    requires forall i, j :: 0 <= i <= j < |ts| ==> ts[i] <= ts[j]
    requires ts[15] - ts[0] < Second
    ensures var l := NewLimiter(None, 1);
      var (oks, _) := Burst(l, u, ts[..5]);
      oks == [true, true, true, true, true]
    ensures !Burst(NewLimiter(None, 1), u, ts).0[15]
  {
    var l := NewLimiter(None, 1);
    BurstWithinWindow(l, u, ts[..5]);
    BurstWithinWindow(l, u, ts);
  }

  // ---------------------------------------------------------------------------------------------
  // retry_telegram_request

  /** What one call of the wrapped function does: return a value, raise `RetryAfter` with
      the server's delay in seconds, or raise any other error. */
  datatype Response = Ok(value: int) | RetryAfter(after: int) | Failed(error: string)

  /** How the retry loop ends: with a returned value or a raised error. */
  datatype Ending = Returned(value: int) | Raised(error: string)

  /** The ending, the sleeps in order, and how many times the function was called. */
  datatype Run = Run(ending: Ending, waits: seq<int>, calls: nat)

  /** A missing or zero argument falls back to the configured default. */
  function OrDefault(o: Option<int>, default: int): int {
    if o.Some? && o.value != 0 then o.value else default
  }

  function Pow(b: int, e: nat): int {
    if e == 0 then 1 else b * Pow(b, e - 1)
  }

  /** The sleep after a failed attempt `k` of `n`; a returned value sleeps nothing. */
  function WaitAfter(resp: Response, k: nat, n: int, backoff: int): seq<int> {
    match resp
    case Ok(_) => []
    case RetryAfter(s) => [s + 1]
    case Failed(_) => if k < n - 1 then [Pow(backoff, k)] else []
  }

  /** Reference: the sleeps of the first `m` attempts. */
  function WaitsBelow(respond: nat -> Response, m: nat, n: int, backoff: int): seq<int> {
    if m == 0 then [] else WaitsBelow(respond, m - 1, n, backoff) + WaitAfter(respond(m - 1), m - 1, n, backoff)
  }

  /** Reference: the error of the last plain failure among the first `m` attempts. */
  function LastFailure(respond: nat -> Response, m: nat): Option<string> {
    if m == 0 then None
    else if respond(m - 1).Failed? then Some(respond(m - 1).error)
    else LastFailure(respond, m - 1)
  }

  /** The error raised when the attempts run out. */
  function Exhausted(last: Option<string>): string {
    if last.Some? then last.value else "Max retries exceeded"
  }

  function Max0(n: int): nat {
    if n > 0 then n else 0
  }

  /** The loop at attempt `a` of `n`, with the last plain failure and the sleeps so far. */
  function RetryLoop(respond: nat -> Response, a: nat, n: int, backoff: int,
                     last: Option<string>, waits: seq<int>): (r: Run)
    requires a <= Max0(n)
    requires forall k :: 0 <= k < a ==> !respond(k).Ok?
    requires last == LastFailure(respond, a) && waits == WaitsBelow(respond, a, n, backoff)
    decreases n - a
    ensures a <= r.calls <= Max0(n)
    ensures r.ending.Returned? ==>
      1 <= r.calls && respond(r.calls - 1) == Ok(r.ending.value)
    ensures forall k :: 0 <= k < r.calls && (r.ending.Raised? || k < r.calls - 1) ==>
      !respond(k).Ok?
    ensures r.ending.Raised? ==>
      r.calls == Max0(n) && r.ending.error == Exhausted(LastFailure(respond, r.calls))
    ensures r.waits == WaitsBelow(respond, r.calls, n, backoff)
  {
    if a >= n then Run(Raised(Exhausted(last)), waits, a)
    else
      NextAttempt(respond, a, n, backoff);
      var resp := respond(a);
      if resp.Ok? then Run(Returned(resp.value), waits, a + 1)
      else
        var last' := if resp.Failed? then Some(resp.error) else last;
        RetryLoop(respond, a + 1, n, backoff, last', waits + WaitAfter(resp, a, n, backoff))
  }

  /** The reference sleeps and last failure after one more attempt. */
  lemma NextAttempt(respond: nat -> Response, a: nat, n: int, backoff: int)
    ensures WaitsBelow(respond, a + 1, n, backoff) ==
      WaitsBelow(respond, a, n, backoff) + WaitAfter(respond(a), a, n, backoff)
    ensures respond(a).Ok? ==> WaitsBelow(respond, a + 1, n, backoff) == WaitsBelow(respond, a, n, backoff)
    ensures LastFailure(respond, a + 1) ==
      if respond(a).Failed? then Some(respond(a).error) else LastFailure(respond, a)
  {
    if respond(a).Ok? {
      assert WaitsBelow(respond, a, n, backoff) + [] == WaitsBelow(respond, a, n, backoff);
    }
  }

  /** `retry_telegram_request`: the `k`-th call of the wrapped function answers `respond(k)`. */
  function Retry(respond: nat -> Response, maxRetries: Option<int>, backoff: Option<int>): (r: Run)
    ensures var n := OrDefault(maxRetries, Config.MaxRetriesTelegram);
      r.calls <= Max0(n) &&
      (r.ending.Returned? <==> exists k :: 0 <= k < n && respond(k).Ok?) &&
      (r.ending.Returned? ==>
         1 <= r.calls && respond(r.calls - 1) == Ok(r.ending.value) &&
         forall k :: 0 <= k < r.calls - 1 ==> !respond(k).Ok?) &&
      (r.ending.Raised? ==>
         r.calls == Max0(n) && r.ending.error == Exhausted(LastFailure(respond, r.calls))) &&
      r.waits == WaitsBelow(respond, r.calls, n, OrDefault(backoff, Config.RetryBackoffFactor))
  {
    RetryLoop(respond, 0, OrDefault(maxRetries, Config.MaxRetriesTelegram),
              OrDefault(backoff, Config.RetryBackoffFactor), None, [])
  }

  /** `send_message_with_retry` and `edit_message_with_retry`: true iff the retry loop
      returned. */
  function SendWithRetry(respond: nat -> Response): (r: bool)
    ensures r <==> exists k :: 0 <= k < Config.MaxRetriesTelegram && respond(k).Ok?
  {
    Retry(respond, None, None).ending.Returned?
  }

  /** With the defaults, three plain failures sleep 1 and then 2 seconds (none after the
      last) and raise the last error. */
  lemma DefaultFailures(respond: nat -> Response)
    requires respond(0).Failed? && respond(1).Failed? && respond(2).Failed?
    ensures Retry(respond, None, None) == Run(Raised(respond(2).error), [1, 2], 3)
  {
  }

  /** Only `RetryAfter` answers: each sleeps its delay plus one, and the loop raises the
      generic error. */
  lemma OnlyRetryAfter(respond: nat -> Response)
    requires respond(0) == RetryAfter(5) && respond(1) == RetryAfter(0) && respond(2) == RetryAfter(2)
    ensures Retry(respond, None, None) == Run(Raised("Max retries exceeded"), [6, 1, 3], 3)
  {
  }
}

=== FILE: store.dfy ===
/** The `profiles` and `reports` tables of the bot's SQLite database, as immutable rows.
    Rows are kept in rowid order and the AUTOINCREMENT counter of each table is explicit,
    so a deleted id is never handed out again. */
module Store {
  import opened Wrappers

  /** The eight profile columns a caller fills in besides the username. */
  datatype Content = Content(
    age: Option<int>, name: Option<string>, country: Option<string>, city: Option<string>,
    timezone: Option<string>, tzOffset: Option<int>, languages: Option<string>,
    note: Option<string>)

  const NoContent: Content := Content(None, None, None, None, None, None, None, None)

  /** One row of `profiles`. */
  datatype Profile = Profile(
    id: int, username: string, content: Content, addedBy: Option<string>,
    addedById: Option<int>, status: string, addedAt: Option<string>)

  /** The dictionary handed to `add_profile`: only the keys whose absence matters are `Entry`s. */
  datatype Draft = Draft(
    username: Entry<string>, content: Content, addedBy: Entry<string>,
    addedById: Option<int>, status: Option<string>, addedAt: Entry<string>)

  /** One row of `reports`. */
  datatype Report = Report(
    id: int, reporterId: Option<int>, reporterUsername: Option<string>, category: Option<string>,
    target: Option<string>, reason: Option<string>, attachments: Option<string>,
    createdAt: Option<string>)

  /** The dictionary handed to `add_report`. */
  datatype ReportDraft = ReportDraft(
    reporterId: Option<int>, reporterUsername: Option<string>, category: Option<string>,
    target: Option<string>, reason: Option<string>, attachments: Option<string>,
    createdAt: Entry<string>)

  /** Both tables with their `sqlite_sequence` counters. */
  datatype Store = Store(profiles: seq<Profile>, reports: seq<Report>, profileSeq: int, reportSeq: int)

  const EmptyStore: Store := Store([], [], 0, 0)

  /** Why an insert into `profiles` fails: the key is absent, NULL, or already taken. */
  datatype DbError = MissingUsername | NullUsername | DuplicateUsername

  /** The result of an insert: the new store and the new row's id, or the violated constraint. */
  datatype Inserted = Inserted(store: Store, id: int) | Refused(error: DbError)

  /** The result of an UPDATE or DELETE: the new store and whether any row matched. */
  datatype Outcome = Outcome(store: Store, ok: bool)

  // ---------------------------------------------------------------------------------------------
  // Table invariants

  /** Ids lie in 1..top and grow with rowid order; usernames are UNIQUE (BINARY comparison). */
  predicate ProfilesValid(ps: seq<Profile>, top: int) {
    0 <= top &&
    (forall i :: 0 <= i < |ps| ==> 1 <= ps[i].id <= top) &&
    (forall i, j :: 0 <= i < j < |ps| ==> ps[i].id < ps[j].id && ps[i].username != ps[j].username)
  }

  predicate ReportsValid(rs: seq<Report>, top: int) {
    0 <= top &&
    (forall i :: 0 <= i < |rs| ==> 1 <= rs[i].id <= top) &&
    (forall i, j :: 0 <= i < j < |rs| ==> rs[i].id < rs[j].id)
  }

  predicate Valid(st: Store) {
    ProfilesValid(st.profiles, st.profileSeq) && ReportsValid(st.reports, st.reportSeq)
  }

  // ---------------------------------------------------------------------------------------------
  // Lookups

  function FindName(ps: seq<Profile>, u: string): (r: Option<Profile>)
    ensures r.Some? ==> r.value in ps && r.value.username == u
    ensures r.None? <==> forall i :: 0 <= i < |ps| ==> ps[i].username != u
  {
    if ps == [] then None
    else if ps[0].username == u then Some(ps[0])
    else FindName(ps[1..], u)
  }

  function FindId(ps: seq<Profile>, pid: int): (r: Option<Profile>)
    ensures r.Some? ==> r.value in ps && r.value.id == pid
    ensures r.None? <==> forall i :: 0 <= i < |ps| ==> ps[i].id != pid
  {
    if ps == [] then None
    else if ps[0].id == pid then Some(ps[0])
    else FindId(ps[1..], pid)
  }

  /** `get_profile_by_username`: the row with exactly this username, if any. */
  function GetProfileByUsername(st: Store, u: string): (r: Option<Profile>)
    ensures r.Some? ==> r.value in st.profiles && r.value.username == u
    ensures r.None? <==> forall i :: 0 <= i < |st.profiles| ==> st.profiles[i].username != u
    ensures Valid(st) && r.Some? ==>
      forall i :: 0 <= i < |st.profiles| && st.profiles[i].username == u ==> st.profiles[i] == r.value
  {
    FindName(st.profiles, u)
  }

  /** `get_profile_by_id`: the row with this id, if any. */
  function GetProfileById(st: Store, pid: int): (r: Option<Profile>)
    ensures r.Some? ==> r.value in st.profiles && r.value.id == pid
    ensures r.None? <==> forall i :: 0 <= i < |st.profiles| ==> st.profiles[i].id != pid
    ensures Valid(st) && r.Some? ==>
      forall i :: 0 <= i < |st.profiles| && st.profiles[i].id == pid ==> st.profiles[i] == r.value
  {
    FindId(st.profiles, pid)
  }

  /** In a valid table a row is found by its own id and by its own username. */
  lemma {:induction false} FindOwnRow(ps: seq<Profile>, top: int, k: int)
    requires ProfilesValid(ps, top) && 0 <= k < |ps|
    ensures FindId(ps, ps[k].id) == Some(ps[k])
    ensures FindName(ps, ps[k].username) == Some(ps[k])
  {
    if k > 0 {
      assert ps[0].id != ps[k].id && ps[0].username != ps[k].username;
      assert ProfilesValid(ps[1..], top);
      FindOwnRow(ps[1..], top, k - 1);
    }
  }

  // ---------------------------------------------------------------------------------------------
  // add_profile

  /** The status `add_profile` writes for a draft. */
  function StatusFor(d: Draft): string {
    if Truthy(d.status) then d.status.value
    else if d.addedBy == Given(Some("seed")) then "approved"
    else "pending"
  }

  /** `add_profile`: refused when the username key is absent, NULL or taken; otherwise a new
      row is appended whose id is one above the AUTOINCREMENT counter. */
  function AddProfile(st: Store, d: Draft, now: string): (r: Inserted)
    ensures d.username.Missing? ==> r == Refused(MissingUsername)
    ensures d.username == Given(None) ==> r == Refused(NullUsername)
    ensures d.username.Given? && d.username.held.Some? ==>
      (r == Refused(DuplicateUsername) <==>
        exists i :: 0 <= i < |st.profiles| && st.profiles[i].username == d.username.held.value)
    ensures r.Inserted? ==>
      |r.store.profiles| == |st.profiles| + 1 && r.store.profiles[..|st.profiles|] == st.profiles &&
      r.store.reports == st.reports && r.store.reportSeq == st.reportSeq && r.store.profileSeq == r.id
    ensures r.Inserted? ==>
      var p := r.store.profiles[|st.profiles|];
      p.id == r.id && Given(Some(p.username)) == d.username && p.content == d.content &&
      p.addedById == d.addedById &&
      (Truthy(d.status) ==> p.status == d.status.value) &&
      (!Truthy(d.status) ==> (p.status == "approved" <==> d.addedBy == Given(Some("seed")))) &&
      (!Truthy(d.status) ==> (p.status == "pending" <==> d.addedBy != Given(Some("seed")))) &&
      p.addedBy == (if d.addedBy.Missing? then Some("user") else d.addedBy.held) &&
      p.addedAt == (if d.addedAt.Missing? then Some(now) else d.addedAt.held)
    ensures Valid(st) && r.Inserted? ==>
      Valid(r.store) && forall i :: 0 <= i < |st.profiles| ==> st.profiles[i].id < r.id
  {
    match d.username
    case Missing => Refused(MissingUsername)
    case Given(None) => Refused(NullUsername)
    case Given(Some(u)) =>
      if FindName(st.profiles, u).Some? then Refused(DuplicateUsername)
      else
        var id := st.profileSeq + 1;
        var row := Profile(id, u, d.content,
                           if d.addedBy.Missing? then Some("user") else d.addedBy.held,
                           d.addedById, StatusFor(d),
                           if d.addedAt.Missing? then Some(now) else d.addedAt.held);
        Inserted(st.(profiles := st.profiles + [row], profileSeq := id), id)
  }

  /** A stored row is reached again by the id `add_profile` returned and by its username. */
  lemma AddProfileThenGet(st: Store, d: Draft, now: string)
    requires Valid(st) && AddProfile(st, d, now).Inserted?
    ensures var r := AddProfile(st, d, now);
      GetProfileById(r.store, r.id) == Some(r.store.profiles[|st.profiles|]) &&
      GetProfileByUsername(r.store, d.username.held.value) == Some(r.store.profiles[|st.profiles|])
  {
    var r := AddProfile(st, d, now);
    FindOwnRow(r.store.profiles, r.store.profileSeq, |st.profiles|);
  }

  // ---------------------------------------------------------------------------------------------
  // get_all_profiles

  /** The folding of COLLATE NOCASE: only ASCII capitals are lowered. */
  function FoldAscii(c: char): char {
    if 'A' <= c <= 'Z' then (c as int + 32) as char else c
  }

  function NoCase(s: string): string {
    seq(|s|, i requires 0 <= i < |s| => FoldAscii(s[i]))
  }

  /** Code-point lexicographic order, which is the order of the UTF-8 bytes SQLite compares. */
  predicate LexLe(a: string, b: string)
    decreases |a|
  {
    a == [] || (b != [] && (a[0] < b[0] || (a[0] == b[0] && LexLe(a[1..], b[1..]))))
  }

  lemma {:induction false} LexLeTotal(a: string, b: string)
    ensures LexLe(a, b) || LexLe(b, a)
    decreases |a|
  {
    if a != [] && b != [] && a[0] == b[0] {
      LexLeTotal(a[1..], b[1..]);
    }
  }

  lemma {:induction false} LexLeTrans(a: string, b: string, c: string)
    requires LexLe(a, b) && LexLe(b, c)
    ensures LexLe(a, c)
    decreases |a|
  {
    if a != [] && a[0] == b[0] && b[0] == c[0] {
      LexLeTrans(a[1..], b[1..], c[1..]);
    }
  }

  lemma {:induction false} LexLeAntisymmetric(a: string, b: string)
    requires LexLe(a, b) && LexLe(b, a)
    ensures a == b
    decreases |a|
  {
    if a != [] {
      LexLeAntisymmetric(a[1..], b[1..]);
      assert a == [a[0]] + a[1..] && b == [b[0]] + b[1..];
    }
  }

  predicate NameLe(p: Profile, q: Profile) {
    LexLe(NoCase(p.username), NoCase(q.username))
  }

  /** Neighbouring rows are in ORDER BY username COLLATE NOCASE order. */
  predicate SortedByName(ps: seq<Profile>) {
    forall i :: 0 <= i < |ps| - 1 ==> NameLe(ps[i], ps[i + 1])
  }

  /** Neighbour order gives order between any two rows. */
  lemma {:induction false} SortedAllPairs(ps: seq<Profile>)
    requires SortedByName(ps)
    ensures forall i, j :: 0 <= i < j < |ps| ==> NameLe(ps[i], ps[j])
  {
    if ps != [] {
      var t := ps[1..];
      assert SortedByName(t) by {
        forall i | 0 <= i < |t| - 1
          ensures NameLe(t[i], t[i + 1])
        {
          assert t[i] == ps[i + 1] && t[i + 1] == ps[i + 2];
        }
      }
      SortedAllPairs(t);
      forall i, j | 0 <= i < j < |ps|
        ensures NameLe(ps[i], ps[j])
      {
        if i == 0 && j > 1 {
          assert NameLe(ps[1], ps[j]) by {
            assert ps[1] == t[0] && ps[j] == t[j - 1];
          }
          LexLeTrans(NoCase(ps[0].username), NoCase(ps[1].username), NoCase(ps[j].username));
        } else if i > 0 {
          assert ps[i] == t[i - 1] && ps[j] == t[j - 1];
        }
      }
    }
  }

  function InsertByName(p: Profile, ps: seq<Profile>): (r: seq<Profile>)
    requires SortedByName(ps)
    ensures |r| == |ps| + 1
    ensures r[0] == p || (ps != [] && r[0] == ps[0])
    ensures SortedByName(r)
    ensures multiset(r) == multiset(ps) + multiset{p}
  {
    if ps == [] then [p]
    else if NameLe(p, ps[0]) then [p] + ps
    else
      LexLeTotal(NoCase(p.username), NoCase(ps[0].username));
      assert ps == [ps[0]] + ps[1..];
      [ps[0]] + InsertByName(p, ps[1..])
  }

  function SortByName(ps: seq<Profile>): (r: seq<Profile>)
    ensures SortedByName(r)
    ensures multiset(r) == multiset(ps)
  {
    if ps == [] then []
    else
      assert ps == [ps[0]] + ps[1..];
      InsertByName(ps[0], SortByName(ps[1..]))
  }

  /** The rows of `ps` whose status is `s`, in order. */
  function WithStatus(ps: seq<Profile>, s: string): (r: seq<Profile>)
    ensures forall p :: multiset(r)[p] == if p.status == s then multiset(ps)[p] else 0
  {
    if ps == [] then []
    else
      assert ps == [ps[0]] + ps[1..];
      if ps[0].status == s then [ps[0]] + WithStatus(ps[1..], s) else WithStatus(ps[1..], s)
  }

  /** `get_all_profiles`: the rows with the given status (every row when it is falsy),
      ordered by username with ASCII case ignored. */
  function GetAllProfiles(st: Store, status: Option<string>): (r: seq<Profile>)
    ensures SortedByName(r)
    ensures forall p ::
      multiset(r)[p] == if Truthy(status) && p.status != status.value then 0 else multiset(st.profiles)[p]
  {
    SortByName(if Truthy(status) then WithStatus(st.profiles, status.value) else st.profiles)
  }

  /** The listing holds a row iff the table does and the status filter admits it, and any
      two listed rows are in NOCASE order. */
  lemma GetAllProfilesListing(st: Store, status: Option<string>, p: Profile)
    ensures p in GetAllProfiles(st, status) <==>
      p in st.profiles && (!Truthy(status) || p.status == status.value)
    ensures var r := GetAllProfiles(st, status);
      forall i, j :: 0 <= i < j < |r| ==> NameLe(r[i], r[j])
  {
    var r := GetAllProfiles(st, status);
    assert p in r <==> multiset(r)[p] > 0;
    assert p in st.profiles <==> multiset(st.profiles)[p] > 0;
    SortedAllPairs(r);
  }

  // ---------------------------------------------------------------------------------------------
  // update_profile_status_by_id

  function SetStatus(ps: seq<Profile>, pid: int, s: string): (r: seq<Profile>)
    ensures |r| == |ps|
    ensures forall i :: 0 <= i < |ps| ==>
      r[i] == if ps[i].id == pid then ps[i].(status := s) else ps[i]
  {
    if ps == [] then []
    else [if ps[0].id == pid then ps[0].(status := s) else ps[0]] + SetStatus(ps[1..], pid, s)
  }

  /** `update_profile_status_by_id`: overwrites the status of the row with this id whatever
      it was before, and reports whether such a row exists. */
  function UpdateProfileStatusById(st: Store, pid: int, status: string): (r: Outcome)
    ensures r.ok <==> exists i :: 0 <= i < |st.profiles| && st.profiles[i].id == pid
    ensures r.store.reports == st.reports && r.store.profileSeq == st.profileSeq &&
      r.store.reportSeq == st.reportSeq
    ensures |r.store.profiles| == |st.profiles|
    ensures forall i :: 0 <= i < |st.profiles| && st.profiles[i].id != pid ==>
      r.store.profiles[i] == st.profiles[i]
    ensures forall i :: 0 <= i < |st.profiles| && st.profiles[i].id == pid ==>
      r.store.profiles[i].status == status &&
      r.store.profiles[i].(status := st.profiles[i].status) == st.profiles[i]
    ensures Valid(st) ==> Valid(r.store)
  {
    Outcome(st.(profiles := SetStatus(st.profiles, pid, status)), FindId(st.profiles, pid).Some?)
  }

  /** After the update, looking the id up yields the old row with only its status replaced. */
  lemma StatusUpdateThenGet(st: Store, pid: int, status: string)
    requires Valid(st) && GetProfileById(st, pid).Some?
    ensures GetProfileById(UpdateProfileStatusById(st, pid, status).store, pid) ==
      Some(GetProfileById(st, pid).value.(status := status))
  {
    var p := GetProfileById(st, pid).value;
    var k :| 0 <= k < |st.profiles| && st.profiles[k] == p;
    var after := UpdateProfileStatusById(st, pid, status).store;
    FindOwnRow(after.profiles, after.profileSeq, k);
  }

  /** A user-submitted draft is stored as 'pending', and approving it by id succeeds and
      leaves the row 'approved'. */
  lemma PendingThenApproved(st: Store, u: string, c: Content, uid: int, now: string)
    requires Valid(st) && GetProfileByUsername(st, u).None?
    ensures var r := AddProfile(st, Draft(Given(Some(u)), c, Given(Some("user")), Some(uid), None, Missing), now);
      r.Inserted? && GetProfileById(r.store, r.id).value.status == "pending" &&
      UpdateProfileStatusById(r.store, r.id, "approved").ok &&
      GetProfileById(UpdateProfileStatusById(r.store, r.id, "approved").store, r.id).value.status == "approved"
  {
    var d := Draft(Given(Some(u)), c, Given(Some("user")), Some(uid), None, Missing);
    AddProfileThenGet(st, d, now);
    var r := AddProfile(st, d, now);
    StatusUpdateThenGet(r.store, r.id, "approved");
  }

  // ---------------------------------------------------------------------------------------------
  // update_profile

  /** The `changes` dictionary of `update_profile`, restricted to the eight content columns. */
  datatype Patch = Patch(
    age: Entry<int>, name: Entry<string>, country: Entry<string>, city: Entry<string>,
    timezone: Entry<string>, tzOffset: Entry<int>, languages: Entry<string>, note: Entry<string>)

  const NoChanges: Patch := Patch(Missing, Missing, Missing, Missing, Missing, Missing, Missing, Missing)

  function Pick<T>(e: Entry<T>, v: Option<T>): Option<T> {
    if e.Given? then e.held else v
  }

  /** The content after `SET k = ?` for each key present in the patch. */
  function ApplyPatch(c: Content, p: Patch): Content {
    Content(Pick(p.age, c.age), Pick(p.name, c.name), Pick(p.country, c.country),
            Pick(p.city, c.city), Pick(p.timezone, c.timezone), Pick(p.tzOffset, c.tzOffset),
            Pick(p.languages, c.languages), Pick(p.note, c.note))
  }

  /** An empty patch changes nothing, and applying a patch twice is applying it once. */
  lemma ApplyPatchLaws(c: Content, p: Patch)
    ensures ApplyPatch(c, NoChanges) == c
    ensures ApplyPatch(ApplyPatch(c, p), p) == ApplyPatch(c, p)
    ensures p.age.Given? ==> ApplyPatch(c, p).age == p.age.held
    ensures p.note.Given? ==> ApplyPatch(c, p).note == p.note.held
  {
  }

  function Repatch(ps: seq<Profile>, u: string, p: Patch): (r: seq<Profile>)
    ensures |r| == |ps|
    ensures forall i :: 0 <= i < |ps| ==>
      r[i] == if ps[i].username == u then ps[i].(content := ApplyPatch(ps[i].content, p)) else ps[i]
  {
    if ps == [] then []
    else
      [if ps[0].username == u then ps[0].(content := ApplyPatch(ps[0].content, p)) else ps[0]] +
      Repatch(ps[1..], u, p)
  }

  /** `update_profile`: false and no change for an empty patch; otherwise the patched columns
      of the row with this username change and the result says whether that row exists. */
  function UpdateProfile(st: Store, u: string, p: Patch): (r: Outcome)
    ensures p == NoChanges ==> r == Outcome(st, false)
    ensures p != NoChanges ==>
      (r.ok <==> exists i :: 0 <= i < |st.profiles| && st.profiles[i].username == u)
    ensures r.store.reports == st.reports && r.store.profileSeq == st.profileSeq &&
      r.store.reportSeq == st.reportSeq
    ensures |r.store.profiles| == |st.profiles|
    ensures forall i :: 0 <= i < |st.profiles| && st.profiles[i].username != u ==>
      r.store.profiles[i] == st.profiles[i]
    ensures forall i :: 0 <= i < |st.profiles| && st.profiles[i].username == u ==>
      r.store.profiles[i].content == ApplyPatch(st.profiles[i].content, p) &&
      r.store.profiles[i].(content := st.profiles[i].content) == st.profiles[i]
    ensures Valid(st) ==> Valid(r.store)
  {
    if p == NoChanges then
      ApplyPatchNothing(st.profiles, u);
      Outcome(st, false)
    else Outcome(st.(profiles := Repatch(st.profiles, u, p)), FindName(st.profiles, u).Some?)
  }

  lemma ApplyPatchNothing(ps: seq<Profile>, u: string)
    ensures forall i :: 0 <= i < |ps| ==> ApplyPatch(ps[i].content, NoChanges) == ps[i].content
  {
  }

  // ---------------------------------------------------------------------------------------------
  // delete_profile

  function Without(ps: seq<Profile>, u: string): (r: seq<Profile>)
    ensures forall p :: p in r <==> p in ps && p.username != u
    ensures |r| <= |ps|
  {
    if ps == [] then []
    else if ps[0].username == u then Without(ps[1..], u)
    else [ps[0]] + Without(ps[1..], u)
  }

  /** Dropping rows keeps ids increasing and usernames unique. */
  lemma {:induction false} WithoutValid(ps: seq<Profile>, u: string, top: int)
    requires ProfilesValid(ps, top)
    ensures ProfilesValid(Without(ps, u), top)
  {
    if ps != [] {
      var t := ps[1..];
      TailValid(ps, top);
      WithoutValid(t, u, top);
      if ps[0].username != u {
        var w := Without(t, u);
        assert Without(ps, u) == [ps[0]] + w;
        HeadBelowRest(ps, top);
        ConsValid(ps[0], w, top);
      }
    }
  }

  lemma TailValid(ps: seq<Profile>, top: int)
    requires ProfilesValid(ps, top) && ps != []
    ensures ProfilesValid(ps[1..], top)
  {
    var t := ps[1..];
    forall i, j | 0 <= i < j < |t|
      ensures t[i].id < t[j].id && t[i].username != t[j].username
    {
      assert t[i] == ps[i + 1] && t[j] == ps[j + 1];
    }
  }

  /** The first row is below, and differently named from, every later row. */
  lemma HeadBelowRest(ps: seq<Profile>, top: int)
    requires ProfilesValid(ps, top) && ps != []
    ensures 1 <= ps[0].id <= top
    ensures forall q :: q in ps[1..] ==> ps[0].id < q.id && ps[0].username != q.username
  {
    forall q | q in ps[1..]
      ensures ps[0].id < q.id && ps[0].username != q.username
    {
      var k :| 0 <= k < |ps[1..]| && ps[1..][k] == q;
      assert q == ps[k + 1];
    }
  }

  lemma ConsValid(x: Profile, w: seq<Profile>, top: int)
    requires ProfilesValid(w, top) && 1 <= x.id <= top
    requires forall q :: q in w ==> x.id < q.id && x.username != q.username
    ensures ProfilesValid([x] + w, top)
  {
    var s := [x] + w;
    forall i, j | 0 <= i < j < |s|
      ensures s[i].id < s[j].id && s[i].username != s[j].username
    {
      assert s[j] == w[j - 1];
      if i > 0 {
        assert s[i] == w[i - 1];
      } else {
        assert w[j - 1] in w;
      }
    }
  }

  lemma WithoutValidIf(ps: seq<Profile>, u: string, top: int)
    ensures ProfilesValid(ps, top) ==> ProfilesValid(Without(ps, u), top)
  {
    if ProfilesValid(ps, top) {
      WithoutValid(ps, u, top);
    }
  }

  /** `delete_profile`: removes the row with this username and reports whether it existed. */
  function DeleteProfile(st: Store, u: string): (r: Outcome)
    ensures r.ok <==> exists i :: 0 <= i < |st.profiles| && st.profiles[i].username == u
    ensures GetProfileByUsername(r.store, u).None?
    ensures forall p :: p in r.store.profiles <==> p in st.profiles && p.username != u
    ensures r.store.reports == st.reports && r.store.profileSeq == st.profileSeq &&
      r.store.reportSeq == st.reportSeq
    ensures Valid(st) ==> Valid(r.store)
  {
    WithoutValidIf(st.profiles, u, st.profileSeq);
    var rest := Without(st.profiles, u);
    assert forall i :: 0 <= i < |rest| ==> rest[i] in rest;
    Outcome(st.(profiles := rest), FindName(st.profiles, u).Some?)
  }

  // ---------------------------------------------------------------------------------------------
  // Reports

  /** `add_report`: always appends a row with the next AUTOINCREMENT id. */
  function AddReport(st: Store, d: ReportDraft, now: string): (r: Inserted)
    ensures r.Inserted? && r.id == st.reportSeq + 1 && r.store.reportSeq == r.id
    ensures r.store.profiles == st.profiles && r.store.profileSeq == st.profileSeq
    ensures |r.store.reports| == |st.reports| + 1 && r.store.reports[..|st.reports|] == st.reports
    ensures var q := r.store.reports[|st.reports|];
      q.id == r.id && q.reporterId == d.reporterId && q.reporterUsername == d.reporterUsername &&
      q.category == d.category && q.target == d.target && q.reason == d.reason &&
      q.attachments == d.attachments &&
      q.createdAt == (if d.createdAt.Missing? then Some(now) else d.createdAt.held)
    ensures Valid(st) ==> Valid(r.store) && forall i :: 0 <= i < |st.reports| ==> st.reports[i].id < r.id
  {
    var id := st.reportSeq + 1;
    var row := Report(id, d.reporterId, d.reporterUsername, d.category, d.target, d.reason,
                      d.attachments, if d.createdAt.Missing? then Some(now) else d.createdAt.held);
    Inserted(st.(reports := st.reports + [row], reportSeq := id), id)
  }

  function Reverse(rs: seq<Report>): (r: seq<Report>)
    ensures |r| == |rs|
    ensures forall i :: 0 <= i < |rs| ==> r[i] == rs[|rs| - 1 - i]
  {
    if rs == [] then [] else Reverse(rs[1..]) + [rs[0]]
  }

  /** `get_reports`: every report, newest (highest id) first. */
  function GetReports(st: Store): (r: seq<Report>)
    ensures |r| == |st.reports|
    ensures forall q :: q in r <==> q in st.reports
    ensures Valid(st) ==> forall i, j :: 0 <= i < j < |r| ==> r[i].id > r[j].id
  {
    var r := Reverse(st.reports);
    assert forall q :: q in st.reports ==> q in r by {
      forall q | q in st.reports
        ensures q in r
      {
        var k :| 0 <= k < |st.reports| && st.reports[k] == q;
        assert r[|st.reports| - 1 - k] == q;
      }
    }
    r
  }

  /** The report just added is the first one listed, ahead of all the earlier ones. */
  lemma AddReportListed(st: Store, d: ReportDraft, now: string)
    ensures var r := AddReport(st, d, now);
      GetReports(r.store) == [r.store.reports[|st.reports|]] + GetReports(st)
  {
    var r := AddReport(st, d, now);
    var a := GetReports(r.store);
    var b := [r.store.reports[|st.reports|]] + GetReports(st);
    assert |a| == |b|;
    forall i | 0 <= i < |a|
      ensures a[i] == b[i]
    {
      if i > 0 {
        assert a[i] == r.store.reports[|st.reports| - i];
      }
    }
  }

  /** `clear_reports`: empties the table and reports whether it held anything; the
      AUTOINCREMENT counter survives. */
  function ClearReports(st: Store): (r: Outcome)
    ensures r.store.reports == [] && (r.ok <==> |st.reports| > 0)
    ensures r.store.profiles == st.profiles && r.store.profileSeq == st.profileSeq &&
      r.store.reportSeq == st.reportSeq
    ensures Valid(st) ==> Valid(r.store)
  {
    Outcome(st.(reports := []), st.reports != [])
  }

  /** Ids are not reused: a report added after clearing gets an id above every cleared one. */
  lemma ClearThenAddFresh(st: Store, d: ReportDraft, now: string)
    requires Valid(st)
    ensures var r := AddReport(ClearReports(st).store, d, now);
      GetReports(r.store) == [r.store.reports[0]] &&
      forall i :: 0 <= i < |st.reports| ==> st.reports[i].id < r.id
  {
    AddReportListed(ClearReports(st).store, d, now);
  }

  // ---------------------------------------------------------------------------------------------
  // _seed_profiles

  datatype SeedEntry = SeedEntry(username: string, content: Content)

  /** The ten profiles written at start-up. */
  const Seeds: seq<SeedEntry> := [
      SeedEntry("thebitsamuraiizz", Content(Some(13), None, Some("Азербайджан"), Some("Баку"), Some("UTC+4"), Some(4), Some("Русский, Английский, Азербайджанский"), Some("☆ 𝕋𝕙𝕖 𝔹𝕚𝕥𝕤𝕒𝕞𝕦𝕣𝕒𝕚𝕚𝕫𝕫 ☆ — декоративный стиль"))),
      SeedEntry("SkeeYee_j", Content(Some(16), None, Some("Россия"), None, Some("+5 к мск"), Some(5), None, None)),
      SeedEntry("Cannella_S", Content(None, None, None, None, None, None, None, None)),
      SeedEntry("nurkotik", Content(Some(15), None, Some("Украина"), None, None, None, None, None)),
      SeedEntry("FAFNIR5", Content(Some(16), Some("Назар"), Some("Центральная Европа"), Some("Виттен"), Some("UTC+1"), Some(1), None, None)),
      SeedEntry("doob_rider", Content(Some(16), Some("Мирхан"), Some("Казахстан"), None, Some("+2 к мск"), Some(2), None, None)),
      SeedEntry("Tecno2027", Content(Some(14), Some("Тимофей"), Some("Россия"), Some("Екатеринбург"), Some("UTC+5"), Some(5), None, None)),
      SeedEntry("kixxzzl", Content(Some(15), Some("Алёна"), Some("Беларусь"), Some("посёлок Красногорский"), None, None, None, None)),
      SeedEntry("L9g9nda", Content(Some(11), Some("создатель"), Some("Украина"), Some("Полтава"), Some("+1 к мск"), Some(1), None, None)),
      SeedEntry("denji_kuni", Content(Some(12), None, Some("Азербайджан"), None, Some("+1 к мск"), Some(1), None, None))
    ]

  /** The row a seed entry becomes: added by 'seed', no submitter id, approved. */
  function SeedDraft(e: SeedEntry, now: string): Draft {
    Draft(Given(Some(e.username)), e.content, Given(Some("seed")), None, Some("approved"), Given(Some(now)))
  }

  /** Inserts each entry whose username is not yet present, in order. */
  function SeedFrom(st: Store, es: seq<SeedEntry>, now: string): (r: Store)
    ensures st.profiles <= r.profiles
    ensures r.reports == st.reports && r.reportSeq == st.reportSeq
    ensures forall i :: |st.profiles| <= i < |r.profiles| ==>
      r.profiles[i].status == "approved" && r.profiles[i].addedBy == Some("seed") &&
      r.profiles[i].addedById == None
    ensures Valid(st) ==> Valid(r)
    decreases |es|
  {
    if es == [] then st
    else
      match AddProfile(st, SeedDraft(es[0], now), now)
      case Inserted(next, _) =>
        var r := SeedFrom(next, es[1..], now);
        assert r.profiles[|st.profiles|] == next.profiles[|st.profiles|];
        r
      case Refused(_) => SeedFrom(st, es[1..], now)
  }

  /** Seeding only ever adds rows, so a username present before is present after. */
  lemma PrefixKeepsName(a: seq<Profile>, b: seq<Profile>, u: string)
    requires a <= b && FindName(a, u).Some?
    ensures FindName(b, u).Some?
  {
    var k :| 0 <= k < |a| && a[k] == FindName(a, u).value;
    assert b[k] == a[k];
  }

  /** The store after offering one seed entry: the entry is inserted unless refused. */
  function SeedStep(st: Store, e: SeedEntry, now: string): Store {
    var first := AddProfile(st, SeedDraft(e, now), now);
    if first.Inserted? then first.store else st
  }

  /** Seeding a non-empty list is seeding its tail from the store its first entry leaves. */
  lemma SeedFromUnfold(st: Store, es: seq<SeedEntry>, now: string) returns (base: Store)
    requires es != []
    ensures FindName(base.profiles, es[0].username).Some?
    ensures SeedFrom(st, es, now) == SeedFrom(base, es[1..], now)
  {
    base := SeedStep(st, es[0], now);
    SeedFirstPresent(st, es[0], now);
  }

  /** After seeding, the `k`-th seed username has a row. */
  lemma {:induction false} SeedFromPresentAt(st: Store, es: seq<SeedEntry>, now: string, k: nat)
    requires k < |es|
    ensures FindName(SeedFrom(st, es, now).profiles, es[k].username).Some?
    decreases k, 1
  {
    if k == 0 {
      SeedHeadPresent(st, es, now);
    } else {
      SeedTailPresent(st, es, now, k);
    }
  }

  /** The first seed username has a row once its entry has been offered. */
  lemma SeedHeadPresent(st: Store, es: seq<SeedEntry>, now: string)
    requires es != []
    ensures FindName(SeedFrom(st, es, now).profiles, es[0].username).Some?
  {
    var base := SeedFromUnfold(st, es, now);
    PrefixKeepsName(base.profiles, SeedFrom(base, es[1..], now).profiles, es[0].username);
  }

  /** A later seed username has a row because seeding the tail gives it one. */
  lemma {:induction false} SeedTailPresent(st: Store, es: seq<SeedEntry>, now: string, k: nat)
    requires 0 < k < |es|
    ensures FindName(SeedFrom(st, es, now).profiles, es[k].username).Some?
    decreases k, 0
  {
    var base := SeedFromUnfold(st, es, now);
    var rest := es[1..];
    assert rest[k - 1] == es[k];
    SeedFromPresentAt(base, rest, now, k - 1);
  }

  /** After seeding, every seed username has a row. */
  lemma SeedFromPresent(st: Store, es: seq<SeedEntry>, now: string)
    ensures forall k :: 0 <= k < |es| ==> FindName(SeedFrom(st, es, now).profiles, es[k].username).Some?
  {
    forall k | 0 <= k < |es|
      ensures FindName(SeedFrom(st, es, now).profiles, es[k].username).Some?
    {
      SeedFromPresentAt(st, es, now, k);
    }
  }

  /** After one seeding step, that entry's username has a row. */
  lemma SeedFirstPresent(st: Store, e: SeedEntry, now: string)
    ensures FindName(SeedStep(st, e, now).profiles, e.username).Some?
  {
    var first := AddProfile(st, SeedDraft(e, now), now);
    if first.Inserted? {
      assert first.store.profiles[|st.profiles|].username == e.username;
    }
  }

  /** When every seed username is present already, seeding changes nothing. */
  lemma {:induction false} SeedFromNoop(st: Store, es: seq<SeedEntry>, now: string)
    requires forall k :: 0 <= k < |es| ==> FindName(st.profiles, es[k].username).Some?
    ensures SeedFrom(st, es, now) == st
    decreases |es|
  {
    if es != [] {
      assert AddProfile(st, SeedDraft(es[0], now), now) == Refused(DuplicateUsername);
      assert forall k :: 0 <= k < |es[1..]| ==> es[1..][k] == es[k + 1];
      SeedFromNoop(st, es[1..], now);
    }
  }

  /** `_seed_profiles`. */
  function SeedProfiles(st: Store, now: string): (r: Store)
    ensures st.profiles <= r.profiles
    ensures forall k :: 0 <= k < |Seeds| ==> GetProfileByUsername(r, Seeds[k].username).Some?
    ensures forall i :: |st.profiles| <= i < |r.profiles| ==>
      r.profiles[i].status == "approved" && r.profiles[i].addedBy == Some("seed")
    ensures Valid(st) ==> Valid(r)
  {
    SeedFromPresent(st, Seeds, now);
    SeedFrom(st, Seeds, now)
  }

  /** Running the seeding again, at any later time, is a no-op. */
  lemma SeedProfilesTwice(st: Store, now: string, later: string)
    ensures SeedProfiles(SeedProfiles(st, now), later) == SeedProfiles(st, now)
  {
    var once := SeedProfiles(st, now);
    SeedFromNoop(once, Seeds, later);
  }
}

=== FILE: utils.dfy ===
/** The free-text profile parser (its exact parts: age, `@username`, languages, note and the
    list of missing fields) and the profile card with HTML escaping. */
module Utils {
  import opened Wrappers
  import opened Chars
  import opened Store
  import Validators

  // ---------------------------------------------------------------------------------------------
  // Age: the first match of \b([8-9][0-9]|[1-7]?\d)\b, kept when it lies in 8..99

  predicate WordAt(t: string, j: int) {
    0 <= j < |t| && IsWordChar(t[j])
  }

  /** `\b` at position `j`: a change between word and non-word characters. */
  predicate Boundary(t: string, j: int) {
    WordAt(t, j - 1) != WordAt(t, j)
  }

  /** `n` digits at `i`, with a word boundary on both sides. A lone digit is any `\d`; a pair
      opens with an ASCII 1..9 (`[8-9]` or `[1-7]`), and after an ASCII 8 or 9 the second
      digit is ASCII too (`[0-9]`), while after 1..7 it is any `\d`. */
  predicate Standalone(t: string, i: int, n: int) {
    0 <= i && i + n <= |t| && 1 <= n <= 2 &&
    (forall k :: i <= k < i + n ==> IsDigit(t[k])) &&
    Boundary(t, i) && Boundary(t, i + n) &&
    (n == 2 ==> PairOpens(t[i], t[i + 1]))
  }

  /** The two digits `[8-9][0-9]` or `[1-7]\d` can open with. */
  predicate PairOpens(a: char, b: char) {
    ('1' <= a <= '7' && IsDigit(b)) || ('8' <= a <= '9' && IsAsciiDigit(b))
  }

  /** The value the age pattern matches at exactly position `i`, if it matches there. */
  function AgeMatchAt(t: string, i: int): (r: Option<int>)
    ensures Standalone(t, i, 2) ==> r == Some(DigitsValue(t[i..i + 2]))
    ensures Standalone(t, i, 1) ==> r == Some(DigitsValue(t[i..i + 1]))
    ensures !Standalone(t, i, 1) && !Standalone(t, i, 2) ==> r.None?
  {
    if !(0 <= i < |t|) || !IsDigit(t[i]) || !Boundary(t, i) then None
    else if i + 1 < |t| && PairOpens(t[i], t[i + 1]) && Boundary(t, i + 2) then
      TwoDigits(t[i..i + 2]);
      Some(10 * DigitValue(t[i]) + DigitValue(t[i + 1]))
    else if Boundary(t, i + 1) then
      OneDigit(t[i..i + 1]);
      Some(DigitValue(t[i]))
    else None
  }

  lemma OneDigit(d: string)
    requires |d| == 1 && IsDigit(d[0])
    ensures DigitsValue(d) == DigitValue(d[0])
  {
    assert d[..0] == [];
  }

  lemma TwoDigits(d: string)
    requires |d| == 2 && IsDigit(d[0]) && IsDigit(d[1])
    ensures DigitsValue(d) == 10 * DigitValue(d[0]) + DigitValue(d[1])
  {
    OneDigit(d[..1]);
  }

  /** `i` is where `AGE_RE.search` matches: a match there and none before. */
  predicate FirstAgeAt(t: string, i: int) {
    AgeMatchAt(t, i).Some? && forall j :: 0 <= j < i ==> AgeMatchAt(t, j).None?
  }

  /** Where `AGE_RE.search` matches when it starts looking at `from`. */
  function FirstAgeFrom(t: string, from: nat): (r: Option<nat>)
    ensures r.Some? ==>
      from <= r.value < |t| && AgeMatchAt(t, r.value).Some? &&
      forall j :: from <= j < r.value ==> AgeMatchAt(t, j).None?
    ensures r.None? <==> forall j :: from <= j < |t| ==> AgeMatchAt(t, j).None?
    decreases |t| - from
  {
    if from >= |t| then None
    else if AgeMatchAt(t, from).Some? then Some(from)
    else FirstAgeFrom(t, from + 1)
  }

  /** The age `parse_profile_text` records: the first standalone number, when it is 8..99. */
  function ParsedAge(t: string): (r: Option<int>)
    ensures r.Some? ==> 8 <= r.value <= 99
    ensures r.Some? <==> exists i :: 0 <= i < |t| && FirstAgeAt(t, i) && 8 <= AgeMatchAt(t, i).value
    ensures r.Some? ==> exists i :: 0 <= i < |t| && FirstAgeAt(t, i) && AgeMatchAt(t, i) == r
  {
    FirstAgeUnique(t);
    match FirstAgeFrom(t, 0)
    case None => None
    case Some(i) =>
      assert FirstAgeAt(t, i);
      var v := AgeMatchAt(t, i).value;
      if 8 <= v <= 99 then Some(v) else None
  }

  /** Two first matches are the same match, and any match value is at most 99. */
  lemma FirstAgeUnique(t: string)
    ensures forall i, j :: FirstAgeAt(t, i) && FirstAgeAt(t, j) ==> i == j
    ensures forall i :: AgeMatchAt(t, i).Some? ==> AgeMatchAt(t, i).value <= 99
  {
    forall i | AgeMatchAt(t, i).Some?
      ensures AgeMatchAt(t, i).value <= 99
    {
      if Standalone(t, i, 2) {
        TwoDigits(t[i..i + 2]);
      } else {
        OneDigit(t[i..i + 1]);
      }
    }
  }

  /** Samples: a number inside a sentence; a three-digit number is not standalone; only the
      first standalone number counts, even when it is out of range. */
  lemma AgeSamples()
    ensures ParsedAge("мне 15") == Some(15)
    ensures ParsedAge("100") == None
    ensures ParsedAge("5, 16") == None
  {
    AgeInSentence();
    AgeThreeDigits();
    AgeFirstOnly();
  }

  lemma AgeInSentence()
    ensures ParsedAge("мне 15") == Some(15)
  {
    var t := "мне 15";
    assert AgeMatchAt(t, 4) == Some(15) by {
      assert Standalone(t, 4, 2);
      TwoDigits("15");
    }
    assert FirstAgeAt(t, 4);
  }

  lemma AgeThreeDigits()
    ensures ParsedAge("100") == None
  {
    var t := "100";
    assert !Standalone(t, 0, 1) && !Standalone(t, 0, 2);
    assert !Boundary(t, 1) && !Boundary(t, 2);
    assert FirstAgeFrom(t, 0) == None;
  }

  lemma AgeFirstOnly()
    ensures ParsedAge("5, 16") == None
  {
    var u := "5, 16";
    assert Standalone(u, 0, 1);
    OneDigit(u[0..1]);
    assert FirstAgeFrom(u, 0) == Some(0);
  }

  /** `\d` is any Unicode decimal digit, so an Arabic-Indic nine standing alone is an age; after
      an ASCII 7 it completes a pair, while after an ASCII 8 the pair needs `[0-9]` and there
      is no match at all. */
  lemma AgeOtherScripts()
    ensures ParsedAge("\U{043C}\U{043D}\U{0435} \U{0669}") == Some(9)
    ensures ParsedAge("7\U{0669}") == Some(79)
    ensures ParsedAge("8\U{0669}") == None
  {
    DigitValueInRun('\U{0669}', 1);
    AgeLoneArabic("\U{043C}\U{043D}\U{0435} \U{0669}");
    AgeArabicAfterSeven("7\U{0669}");
    AgeArabicAfterEight("8\U{0669}");
  }

  lemma AgeLoneArabic(t: string)
    requires t == "\U{043C}\U{043D}\U{0435} \U{0669}"
    requires IsDigit('\U{0669}') && DigitValue('\U{0669}') == 9
    ensures ParsedAge(t) == Some(9)
  {
    assert Standalone(t, 4, 1);
    OneDigit(t[4..5]);
    assert forall j :: 0 <= j < 4 ==> !IsDigit(t[j]);
    assert FirstAgeAt(t, 4);
  }

  lemma AgeArabicAfterSeven(u: string)
    requires u == "7\U{0669}"
    requires IsDigit('\U{0669}') && DigitValue('\U{0669}') == 9
    ensures ParsedAge(u) == Some(79)
  {
    assert Standalone(u, 0, 2);
    TwoDigits(u[0..2]);
    assert FirstAgeAt(u, 0);
  }

  lemma AgeArabicAfterEight(w: string)
    requires w == "8\U{0669}"
    requires IsDigit('\U{0669}')
    ensures ParsedAge(w) == None
  {
    assert !Standalone(w, 0, 2) && !Boundary(w, 1);
    assert FirstAgeFrom(w, 0) == None;
  }

  // ---------------------------------------------------------------------------------------------
  // Username: the first @([A-Za-z0-9_]{1,32})

  /** Length of the run of username characters at `i`, at most `cap`. */
  function RunLength(t: string, i: nat, cap: nat): (n: nat)
    requires i <= |t|
    ensures n <= cap && i + n <= |t|
    ensures forall k :: i <= k < i + n ==> Validators.IsUsernameChar(t[k])
    ensures n < cap ==> i + n == |t| || !Validators.IsUsernameChar(t[i + n])
    decreases cap
  {
    if cap == 0 || i == |t| || !Validators.IsUsernameChar(t[i]) then 0
    else 1 + RunLength(t, i + 1, cap - 1)
  }

  /** An '@' at `i` followed by at least one username character. */
  predicate MentionAt(t: string, i: int) {
    0 <= i && i + 1 < |t| && t[i] == '@' && Validators.IsUsernameChar(t[i + 1])
  }

  /** Where the username search matches when it starts looking at `from`. */
  function FirstMention(t: string, from: nat): (r: Option<nat>)
    ensures r.Some? ==>
      from <= r.value < |t| && MentionAt(t, r.value) &&
      forall j :: from <= j < r.value ==> !MentionAt(t, j)
    ensures r.None? <==> forall j :: from <= j < |t| ==> !MentionAt(t, j)
    decreases |t| - from
  {
    if from >= |t| then None
    else if MentionAt(t, from) then Some(from)
    else FirstMention(t, from + 1)
  }

  /** The username `parse_profile_text` records: the run after the first mention, at most
      32 characters long. */
  function ParsedUsername(t: string): (r: Option<string>)
    ensures r.Some? ==> 1 <= |r.value| <= 32 && Validators.AllUsernameChars(r.value)
    ensures r.None? <==> forall j :: 0 <= j < |t| ==> !MentionAt(t, j)
  {
    match FirstMention(t, 0)
    case None => None
    case Some(i) => Some(t[i + 1..i + 1 + RunLength(t, i + 1, 32)])
  }

  /** Text without '@', then '@' and a username that the next character does not extend:
      exactly that username is found. */
  lemma ParsedUsernameAfter(p: string, u: string, s: string)
    requires '@' !in p
    requires 1 <= |u| <= 32 && Validators.AllUsernameChars(u)
    requires |u| == 32 || s == [] || !Validators.IsUsernameChar(s[0])
    ensures ParsedUsername(p + "@" + u + s) == Some(u)
  {
    var t := p + "@" + u + s;
    var at := |p|;
    assert t[at] == '@' && t[at + 1] == u[0];
    assert MentionAt(t, at);
    forall j | 0 <= j < at
      ensures !MentionAt(t, j)
    {
      assert t[j] == p[j];
    }
    assert FirstMention(t, 0) == Some(at);
    RunOverName(p, u, s);
  }

  lemma RunOverName(p: string, u: string, s: string)
    requires 1 <= |u| <= 32 && Validators.AllUsernameChars(u)
    requires |u| == 32 || s == [] || !Validators.IsUsernameChar(s[0])
    ensures var t := p + "@" + u + s;
      RunLength(t, |p| + 1, 32) == |u| && t[|p| + 1..|p| + 1 + |u|] == u
  {
    var t := p + "@" + u + s;
    var i := |p| + 1;
    assert t[i..i + |u|] == u;
    forall k | i <= k < i + |u|
      ensures Validators.IsUsernameChar(t[k])
    {
      assert t[k] == u[k - i];
    }
    if |u| < 32 && s != [] {
      assert t[i + |u|] == s[0];
    }
    RunExact(t, i, |u|);
  }

  /** A run of `m` username characters that nothing extends has length `m`. */
  lemma RunExact(t: string, i: nat, m: nat)
    requires i + m <= |t| && 1 <= m <= 32
    requires forall k :: i <= k < i + m ==> Validators.IsUsernameChar(t[k])
    requires m == 32 || i + m == |t| || !Validators.IsUsernameChar(t[i + m])
    ensures RunLength(t, i, 32) == m
  {
  }

  // ---------------------------------------------------------------------------------------------
  // Languages, note and the need list

  function Min(a: int, b: int): int {
    if a <= b then a else b
  }

  /** `', '.join(parts[:5])` when the text has a comma and at least two non-blank pieces. */
  function ParsedLanguages(t: string): (r: Option<string>)
    ensures r.Some? <==> ',' in t && |StrippedPieces(t, ',')| >= 2
  {
    if ',' in t then
      var parts := StrippedPieces(t, ',');
      if |parts| >= 2 then Some(Join(parts[..Min(5, |parts|)], ", ")) else None
    else None
  }

  /** Comma-joined trimmed names come back joined with ", ", the first five of them. */
  lemma ParsedLanguagesJoin(ls: seq<string>)
    requires |ls| >= 2
    requires forall k :: 0 <= k < |ls| ==> ls[k] != "" && Strip(ls[k]) == ls[k] && ',' !in ls[k]
    ensures ParsedLanguages(Join(ls, ",")) == Some(Join(ls[..Min(5, |ls|)], ", "))
  {
    var t := Join(ls, ",");
    assert t == ls[0] + "," + Join(ls[1..], ",");
    assert t[|ls[0]|] == ',';
    SplitJoin(ls, ',');
    KeepNonBlankAll(ls);
  }

  lemma {:induction false} KeepNonBlankAll(ps: seq<string>)
    requires forall k :: 0 <= k < |ps| ==> ps[k] != "" && Strip(ps[k]) == ps[k]
    ensures KeepNonBlank(ps) == ps
  {
    if ps != [] {
      KeepNonBlankAll(ps[1..]);
      assert ps == [ps[0]] + ps[1..];
    }
  }

  /** The note: the whole text up to 200 characters, else its first 400. */
  function ParsedNote(t: string): (r: string)
    ensures r <= t && |r| <= 400
    ensures |t| <= 200 ==> r == t
    ensures |t| > 200 ==> |r| == Min(400, |t|)
  {
    if |t| > 200 then t[..Min(400, |t|)] else t
  }

  /** The exact part of the result of `parse_profile_text`. */
  datatype Parsed = Parsed(
    age: Option<int>, username: Option<string>, languages: Option<string>, note: string,
    need: seq<string>)

  function ParseProfileText(t: string): (r: Parsed)
    ensures "age" in r.need <==> r.age.None?
    ensures "username" in r.need <==> r.username.None?
    ensures |r.need| <= 2 && (|r.need| == 2 ==> r.need == ["age", "username"])
    ensures r.age == ParsedAge(t) && r.username == ParsedUsername(t)
    ensures r.languages == ParsedLanguages(t) && r.note == ParsedNote(t)
  {
    var age := ParsedAge(t);
    var username := ParsedUsername(t);
    var need := (if age.None? then ["age"] else []) + (if username.None? then ["username"] else []);
    Parsed(age, username, ParsedLanguages(t), ParsedNote(t), need)
  }

  // ---------------------------------------------------------------------------------------------
  // HTML escaping: html.escape(s, quote=True)

  function EscapeChar(c: char): string {
    if c == '&' then "&amp;"
    else if c == '<' then "&lt;"
    else if c == '>' then "&gt;"
    else if c == '"' then "&quot;"
    else if c == '\'' then "&#x27;"
    else [c]
  }

  predicate Markup(c: char) {
    c == '<' || c == '>' || c == '"' || c == '\''
  }

  /** Every character is replaced by its entity; no markup character survives. */
  function Escape(s: string): (r: string)
    ensures forall i :: 0 <= i < |r| ==> !Markup(r[i])
    ensures |r| >= |s|
  {
    if s == [] then []
    else
      var head := EscapeChar(s[0]);
      var rest := Escape(s[1..]);
      assert forall i :: 0 <= i < |head| ==> !Markup(head[i]);
      head + rest
  }

  /** The decoding `html.unescape` applies to the five entities `html.escape` writes. */
  function Unescape(s: string): string
    decreases |s|
  {
    if s == [] then []
    else if s[0] != '&' then [s[0]] + Unescape(s[1..])
    else if StartsWith(s, "&amp;") then "&" + Unescape(s[5..])
    else if StartsWith(s, "&lt;") then "<" + Unescape(s[4..])
    else if StartsWith(s, "&gt;") then ">" + Unescape(s[4..])
    else if StartsWith(s, "&quot;") then "\"" + Unescape(s[6..])
    else if StartsWith(s, "&#x27;") then "'" + Unescape(s[6..])
    else [s[0]] + Unescape(s[1..])
  }

  /** Escaping loses nothing: unescaping gives the original text back. */
  lemma {:induction false} EscapeRoundTrip(s: string)
    ensures Unescape(Escape(s)) == s
  {
    if s != [] {
      EscapeRoundTrip(s[1..]);
      UnescapeStep(s[0], Escape(s[1..]));
      assert s == [s[0]] + s[1..];
    }
  }

  lemma UnescapeStep(c: char, t: string)
    ensures Unescape(EscapeChar(c) + t) == [c] + Unescape(t)
  {
    if c == '&' {
      UnescapeAmp(t);
    } else if c == '<' {
      UnescapeLt(t);
    } else if c == '>' {
      UnescapeGt(t);
    } else if c == '"' {
      UnescapeQuot(t);
    } else if c == '\'' {
      UnescapeApos(t);
    } else {
      UnescapeOther(c, t);
    }
  }

  lemma UnescapeAmp(t: string)
    ensures Unescape("&amp;" + t) == "&" + Unescape(t)
  {
    var s := "&amp;" + t;
    assert s[..5] == "&amp;" && s[5..] == t;
  }

  lemma UnescapeLt(t: string)
    ensures Unescape("&lt;" + t) == "<" + Unescape(t)
  {
    var s := "&lt;" + t;
    assert s[1] == 'l';
    assert !StartsWith(s, "&amp;");
    assert s[..4] == "&lt;" && s[4..] == t;
  }

  lemma UnescapeGt(t: string)
    ensures Unescape("&gt;" + t) == ">" + Unescape(t)
  {
    var s := "&gt;" + t;
    assert s[1] == 'g';
    assert !StartsWith(s, "&amp;") && !StartsWith(s, "&lt;");
    assert s[..4] == "&gt;" && s[4..] == t;
  }

  lemma UnescapeQuot(t: string)
    ensures Unescape("&quot;" + t) == "\"" + Unescape(t)
  {
    var s := "&quot;" + t;
    assert s[1] == 'q';
    assert !StartsWith(s, "&amp;") && !StartsWith(s, "&lt;") && !StartsWith(s, "&gt;");
    assert s[..6] == "&quot;" && s[6..] == t;
  }

  lemma UnescapeApos(t: string)
    ensures Unescape("&#x27;" + t) == "'" + Unescape(t)
  {
    var s := "&#x27;" + t;
    assert s[1] == '#';
    assert !StartsWith(s, "&amp;") && !StartsWith(s, "&lt;") && !StartsWith(s, "&gt;");
    assert !StartsWith(s, "&quot;");
    assert s[..6] == "&#x27;" && s[6..] == t;
  }

  lemma UnescapeOther(c: char, t: string)
    requires c != '&'
    ensures Unescape([c] + t) == [c] + Unescape(t)
  {
    var s := [c] + t;
    assert s[0] == c && s[1..] == t;
  }

  /** Text without markup and '&' is left as it is. */
  lemma {:induction false} EscapePlain(s: string)
    requires forall i :: 0 <= i < |s| ==> !Markup(s[i]) && s[i] != '&'
    ensures Escape(s) == s
  {
    if s != [] {
      EscapePlain(s[1..]);
      assert s == [s[0]] + s[1..];
    }
  }

  // ---------------------------------------------------------------------------------------------
  // short_profile_card

  /** The labelled lines of the card, in their fixed order. */
  datatype Field = NameField | AgeField | CountryField | CityField | TimezoneField | LanguagesField

  /** A card line: the username line, a labelled field, the note header, or one note line.
      The label texts and emoji are not modelled; values are the escaped text shown. */
  datatype CardLine =
    | UserLine(handle: Option<string>)
    | FieldLine(field: Field, value: string)
    | NoteHeader
    | NoteText(text: string)

  function FieldRank(f: Field): nat {
    match f
    case NameField => 1
    case AgeField => 2
    case CountryField => 3
    case CityField => 4
    case TimezoneField => 5
    case LanguagesField => 6
  }

  function Rank(l: CardLine): nat {
    match l
    case UserLine(_) => 0
    case FieldLine(f, _) => FieldRank(f)
    case NoteHeader => 7
    case NoteText(_) => 8
  }

  const Fields: seq<Field> := [NameField, AgeField, CountryField, CityField, TimezoneField, LanguagesField]

  /** The escaped value shown for a field, if the card shows that field. */
  function Shown(c: Content, f: Field): Option<string> {
    match f
    case NameField => if Truthy(c.name) then Some(Escape(c.name.value)) else None
    case AgeField => if c.age.Some? then Some(Escape(IntToString(c.age.value))) else None
    case CountryField => if Truthy(c.country) then Some(Escape(c.country.value)) else None
    case CityField => if Truthy(c.city) then Some(Escape(c.city.value)) else None
    case TimezoneField => if Truthy(c.timezone) then Some(Escape(c.timezone.value)) else None
    case LanguagesField => if Truthy(c.languages) then Some(Escape(c.languages.value)) else None
  }

  /** The lines of the fields of `fs` that the card shows, in the order of `fs`. */
  function FieldLines(c: Content, fs: seq<Field>): (r: seq<CardLine>)
    ensures forall l :: l in r ==> l.FieldLine? && l.field in fs && Shown(c, l.field) == Some(l.value)
    ensures forall f :: f in fs && Shown(c, f).Some? ==> FieldLine(f, Shown(c, f).value) in r
  {
    if fs == [] then []
    else
      var rest := FieldLines(c, fs[1..]);
      match Shown(c, fs[0])
      case None => rest
      case Some(v) => [FieldLine(fs[0], v)] + rest
  }

  predicate RanksIncrease(fs: seq<Field>) {
    forall i, j :: 0 <= i < j < |fs| ==> FieldRank(fs[i]) < FieldRank(fs[j])
  }

  predicate LinesIncrease(r: seq<CardLine>) {
    forall i, j :: 0 <= i < j < |r| ==> Rank(r[i]) < Rank(r[j])
  }

  /** Fields listed in increasing rank give lines in increasing rank. */
  lemma {:induction false} FieldLinesOrder(c: Content, fs: seq<Field>)
    requires RanksIncrease(fs)
    ensures LinesIncrease(FieldLines(c, fs))
  {
    if fs != [] {
      var rest := FieldLines(c, fs[1..]);
      RanksAfterHead(fs);
      FieldLinesOrder(c, fs[1..]);
      if Shown(c, fs[0]).Some? {
        var h := FieldLine(fs[0], Shown(c, fs[0]).value);
        assert forall l :: l in rest ==> Rank(h) < Rank(l);
        ConsIncrease(h, rest);
      }
    }
  }

  lemma ConsIncrease(h: CardLine, rest: seq<CardLine>)
    requires LinesIncrease(rest)
    requires forall l :: l in rest ==> Rank(h) < Rank(l)
    ensures LinesIncrease([h] + rest)
  {
    var r := [h] + rest;
    forall i, j | 0 <= i < j < |r| ensures Rank(r[i]) < Rank(r[j]) {
      assert r[j] == rest[j - 1] && rest[j - 1] in rest;
      if i > 0 {
        assert r[i] == rest[i - 1];
      }
    }
  }

  lemma RanksAfterHead(fs: seq<Field>)
    requires fs != [] && RanksIncrease(fs)
    ensures RanksIncrease(fs[1..])
    ensures forall f :: f in fs[1..] ==> FieldRank(fs[0]) < FieldRank(f)
  {
    forall f | f in fs[1..]
      ensures FieldRank(fs[0]) < FieldRank(f)
    {
      var k :| 0 <= k < |fs[1..]| && fs[1..][k] == f;
      assert f == fs[k + 1];
    }
    forall i, j | 0 <= i < j < |fs[1..]|
      ensures FieldRank(fs[1..][i]) < FieldRank(fs[1..][j])
    {
      assert fs[1..][i] == fs[i + 1] && fs[1..][j] == fs[j + 1];
    }
  }

  /** The note block: a header and one line per '\n' piece of the escaped, stripped note. */
  function NoteBlock(note: Option<string>): (r: seq<CardLine>)
    ensures forall l :: l in r ==> l.NoteHeader? || l.NoteText?
  {
    if Truthy(note) then NoteSection(Strip(Escape(note.value))) else []
  }

  function NoteSection(n: string): (r: seq<CardLine>)
    ensures n == "" ==> r == []
    ensures n != "" ==>
      |r| == 1 + |Split(n, '\n')| && r[0] == NoteHeader &&
      forall m :: 0 <= m < |Split(n, '\n')| ==> r[1 + m] == NoteText(Split(n, '\n')[m])
    ensures forall l :: l in r ==> l.NoteHeader? || l.NoteText?
  {
    if n == "" then [] else [NoteHeader] + NoteTexts(Split(n, '\n'))
  }

  function NoteTexts(ps: seq<string>): (r: seq<CardLine>)
    ensures |r| == |ps| && forall i :: 0 <= i < |ps| ==> r[i] == NoteText(ps[i])
    ensures forall l :: l in r ==> l.NoteText?
  {
    if ps == [] then [] else [NoteText(ps[0])] + NoteTexts(ps[1..])
  }

  function Handle(username: Option<string>): CardLine {
    UserLine(if Truthy(username) then Some(Escape(username.value)) else None)
  }

  /** `short_profile_card`, as its sequence of lines. */
  function Card(username: Option<string>, c: Content): (r: seq<CardLine>)
    ensures r != [] && r[0] == UserLine(if Truthy(username) then Some(Escape(username.value)) else None)
  {
    [Handle(username)] + FieldLines(c, Fields) + NoteBlock(c.note)
  }

  /** Every field has its place in the card layout. */
  lemma FieldListed(f: Field)
    ensures f in Fields
  {
    match f
    case NameField => assert Fields[0] == f;
    case AgeField => assert Fields[1] == f;
    case CountryField => assert Fields[2] == f;
    case CityField => assert Fields[3] == f;
    case TimezoneField => assert Fields[4] == f;
    case LanguagesField => assert Fields[5] == f;
  }

  /** A line for field `f` is in the card exactly when `Shown` gives its value. */
  lemma CardShows(username: Option<string>, c: Content, f: Field, v: string)
    ensures FieldLine(f, v) in Card(username, c) <==> Shown(c, f) == Some(v)
  {
    var fl := FieldLines(c, Fields);
    var nb := NoteBlock(c.note);
    assert Card(username, c) == [Handle(username)] + fl + nb;
    assert FieldLine(f, v) !in nb && FieldLine(f, v) != Handle(username);
    FieldListed(f);
    if Shown(c, f) == Some(v) {
      assert FieldLine(f, v) in fl;
    }
  }

  /** A field line is shown iff that field is truthy (the age: present), and it shows the
      escaped value. */
  lemma CardFields(username: Option<string>, c: Content, v: string)
    ensures FieldLine(NameField, v) in Card(username, c) <==> Truthy(c.name) && v == Escape(c.name.value)
    ensures FieldLine(AgeField, v) in Card(username, c) <==>
      c.age.Some? && v == Escape(IntToString(c.age.value))
    ensures FieldLine(CountryField, v) in Card(username, c) <==>
      Truthy(c.country) && v == Escape(c.country.value)
    ensures FieldLine(CityField, v) in Card(username, c) <==> Truthy(c.city) && v == Escape(c.city.value)
    ensures FieldLine(TimezoneField, v) in Card(username, c) <==>
      Truthy(c.timezone) && v == Escape(c.timezone.value)
    ensures FieldLine(LanguagesField, v) in Card(username, c) <==>
      Truthy(c.languages) && v == Escape(c.languages.value)
  {
    CardShows(username, c, NameField, v);
    CardShows(username, c, AgeField, v);
    CardShows(username, c, CountryField, v);
    CardShows(username, c, CityField, v);
    CardShows(username, c, TimezoneField, v);
    CardShows(username, c, LanguagesField, v);
  }

  /** Lines are in layout order; only note lines may share a rank. */
  predicate InOrder(r: seq<CardLine>) {
    forall i, j :: 0 <= i < j < |r| ==> Rank(r[i]) < Rank(r[j]) || (r[i].NoteText? && r[j].NoteText?)
  }

  lemma InOrderAppend(a: seq<CardLine>, b: seq<CardLine>)
    requires InOrder(a) && InOrder(b)
    requires forall x, y :: x in a && y in b ==> Rank(x) < Rank(y)
    ensures InOrder(a + b)
  {
    var r := a + b;
    forall i, j | 0 <= i < j < |r|
      ensures Rank(r[i]) < Rank(r[j]) || (r[i].NoteText? && r[j].NoteText?)
    {
      if j < |a| {
        assert r[i] == a[i] && r[j] == a[j];
      } else if i >= |a| {
        assert r[i] == b[i - |a|] && r[j] == b[j - |a|];
      } else {
        assert r[i] == a[i] && r[j] == b[j - |a|];
        assert a[i] in a && b[j - |a|] in b;
      }
    }
  }

  /** The lines come in the fixed order user, name, age, country, city, timezone, languages,
      note header, note lines. */
  lemma CardOrder(username: Option<string>, c: Content)
    ensures InOrder(Card(username, c))
  {
    var fl := FieldLines(c, Fields);
    var nb := NoteBlock(c.note);
    assert Card(username, c) == [Handle(username)] + fl + nb;
    FieldsInOrder(c);
    NoteBlockOrder(c.note);
    InOrderAppend([Handle(username)], fl);
    assert forall x :: x in [Handle(username)] + fl ==> Rank(x) <= 6;
    InOrderAppend([Handle(username)] + fl, nb);
  }

  lemma FieldsInOrder(c: Content)
    ensures InOrder(FieldLines(c, Fields))
    ensures forall l :: l in FieldLines(c, Fields) ==> 1 <= Rank(l) <= 6
  {
    FieldsRanked();
    FieldLinesOrder(c, Fields);
    LinesIncreaseInOrder(FieldLines(c, Fields));
  }

  lemma FieldsRanked()
    ensures RanksIncrease(Fields)
  {
  }

  lemma LinesIncreaseInOrder(r: seq<CardLine>)
    requires LinesIncrease(r)
    ensures InOrder(r)
  {
  }

  lemma NoteBlockOrder(note: Option<string>)
    ensures InOrder(NoteBlock(note))
    ensures forall l :: l in NoteBlock(note) ==> Rank(l) >= 7
  {
    var r := NoteBlock(note);
    if r != [] {
      NoteSectionShape(Strip(Escape(note.value)));
    }
  }

  /** A note section is its header followed by text lines only. */
  lemma NoteSectionShape(n: string)
    ensures var r := NoteSection(n); r != [] ==> r[0] == NoteHeader && InOrder(r)
  {
    var r := NoteSection(n);
    if n != "" {
      var texts := NoteTexts(Split(n, '\n'));
      assert r == [NoteHeader] + texts;
      forall i, j | 0 <= i < j < |r|
        ensures Rank(r[i]) < Rank(r[j]) || (r[i].NoteText? && r[j].NoteText?)
      {
        assert r[j] == texts[j - 1];
        if i > 0 {
          assert r[i] == texts[i - 1];
        }
      }
    }
  }

  /** The card ends with the note section of the escaped, stripped note: a header and its
      '\n' pieces, or nothing when the note strips to nothing. */
  lemma CardNote(username: Option<string>, c: Content)
    ensures var n := if Truthy(c.note) then Strip(Escape(c.note.value)) else "";
      var r := Card(username, c);
      var k := 1 + |FieldLines(c, Fields)|;
      k <= |r| && r[k..] == NoteSection(n) && (NoteHeader in r <==> n != "")
  {
    var head := [Handle(username)] + FieldLines(c, Fields);
    var nb := NoteBlock(c.note);
    assert Card(username, c) == head + nb;
    AppendTail(head, nb);
    assert NoteHeader !in head;
    NoteHeaderShown(c.note);
  }

  lemma AppendTail(a: seq<CardLine>, b: seq<CardLine>)
    ensures |a| <= |a + b| && (a + b)[|a|..] == b
  {
  }

  /** The note block has its header exactly when the note strips to something. */
  lemma NoteHeaderShown(note: Option<string>)
    ensures NoteHeader in NoteBlock(note) <==> Truthy(note) && Strip(Escape(note.value)) != ""
  {
    if Truthy(note) && Strip(Escape(note.value)) != "" {
      assert NoteBlock(note)[0] == NoteHeader;
    }
  }

  /** Joining the note lines with '\n' gives back the escaped, stripped note. */
  lemma NoteLinesJoin(n: string)
    ensures Join(Split(n, '\n'), "\n") == n
  {
    JoinSplit(n, '\n');
  }
}

=== FILE: validators.dfy ===
/** Validation and sanitising of user input: profile text, usernames, ages, the
    whitespace and URL clean-up of free text, and the caps/special-character spam ratio. */
module Validators {
  import opened Wrappers
  import opened Chars
  import opened Config

  /** `(True, None)` or `(False, message)`; the message is kept as an error kind. */
  datatype Verdict<+E> = Valid | Invalid(reason: E)

  // ---------------------------------------------------------------------------
  // Profile text
  // ---------------------------------------------------------------------------

  datatype TextError = EmptyText | TooShort | TooLong | ForbiddenContent

  /** The forbidden patterns; each is a plain substring (`18\+` matches "18+"). */
  const ForbiddenPatterns: seq<string> :=
    ["spam", "phishing", "scam", "bot", "hack", "xxx", "porn", "18+", "nudes"]

  /** Scans the patterns in order, searching each in `t`. */
  function AnyForbidden(t: string, pats: seq<string>): (b: bool)
    ensures b <==> exists k, i :: 0 <= k < |pats| && OccursAt(t, pats[k], i)
  {
    if pats == [] then false
    else if Contains(t, pats[0]) then true
    else
      var rest := AnyForbidden(t, pats[1..]);
      assert forall k, i :: 0 < k < |pats| && OccursAt(t, pats[k], i) ==> OccursAt(t, pats[1..][k - 1], i);
      assert forall k, i :: 0 <= k < |pats[1..]| && OccursAt(t, pats[1..][k], i) ==> OccursAt(t, pats[k + 1], i);
      rest
  }

  /** Some forbidden pattern occurs somewhere in `t`. */
  ghost predicate HasForbidden(t: string) {
    exists k, i :: 0 <= k < |ForbiddenPatterns| && OccursAt(t, ForbiddenPatterns[k], i)
  }

  /** `validate_profile_text`: empty, then the stripped length bounds, then the lower-cased
      text against the forbidden patterns. */
  function ValidateProfileText(text: string): (v: Verdict<TextError>)
    ensures v == Invalid(EmptyText) <==> text == ""
    ensures v == Invalid(TooShort) <==> text != "" && |Strip(text)| < MinProfileLength
    ensures v == Invalid(TooLong) <==> text != "" && |Strip(text)| > MaxProfileLength
    ensures v == Invalid(ForbiddenContent) <==>
      text != "" && MinProfileLength <= |Strip(text)| <= MaxProfileLength && HasForbidden(Lower(Strip(text)))
    ensures v == Valid <==>
      text != "" && MinProfileLength <= |Strip(text)| <= MaxProfileLength && !HasForbidden(Lower(Strip(text)))
  {
    if text == "" then Invalid(EmptyText)
    else
      var t := Strip(text);
      if |t| < MinProfileLength then Invalid(TooShort)
      else if |t| > MaxProfileLength then Invalid(TooLong)
      else if AnyForbidden(Lower(t), ForbiddenPatterns) then Invalid(ForbiddenContent)
      else Valid
  }

  /** Whitespace-only text is empty after stripping and so too short, not empty. */
  lemma BlankTextTooShort(text: string)
    requires text != "" && forall i :: 0 <= i < |text| ==> IsSpace(text[i])
    ensures ValidateProfileText(text) == Invalid(TooShort)
  {
    var a, b := StripSpan(text);
    if a < b {
      assert false;
    }
  }

  /** Surrounding whitespace never changes the verdict on non-empty text. */
  lemma ValidateProfileTextStrip(text: string)
    requires Strip(text) != ""
    ensures ValidateProfileText(Strip(text)) == ValidateProfileText(text)
  {
    StripIdempotent(text);
  }

  /** A text holding a forbidden word, in any letter case, is refused once long enough. */
  lemma ForbiddenWordRefused(a: string, b: string)
    requires var t := a + "SPAM" + b; Trimmed(t) && MinProfileLength <= |t| <= MaxProfileLength
    ensures ValidateProfileText(a + "SPAM" + b) == Invalid(ForbiddenContent)
  {
    LowerSpam(a, b);
    var t := a + "SPAM" + b;
    StripIdentity(t);
    SpamForbidden(t, |a|);
  }

  lemma SpamForbidden(t: string, n: nat)
    requires OccursAt(Lower(t), "spam", n)
    ensures HasForbidden(Lower(t))
  {
    assert ForbiddenPatterns[0] == "spam";
  }

  lemma LowerSpam(a: string, b: string)
    ensures OccursAt(Lower(a + "SPAM" + b), "spam", |a|)
  {
    var t := a + "SPAM" + b;
    var l := Lower(t);
    var n := |a|;
    assert t[n] == 'S' && t[n + 1] == 'P' && t[n + 2] == 'A' && t[n + 3] == 'M';
    assert l[n] == 's' && l[n + 1] == 'p' && l[n + 2] == 'a' && l[n + 3] == 'm';
    assert l[n..n + 4] == "spam";
  }

  lemma ShortTextRefused()
    ensures ValidateProfileText("short") == Invalid(TooShort)
  {
    StripIdentity("short");
  }

  // ---------------------------------------------------------------------------
  // Sanitising free text
  // ---------------------------------------------------------------------------

  /** No whitespace at either end. */
  predicate Trimmed(s: string) {
    s == [] || (!IsSpace(s[0]) && !IsSpace(s[|s| - 1]))
  }

  /** Every whitespace character is a plain space and no two of them are adjacent. */
  predicate Canonical(s: string) {
    (forall i :: 0 <= i < |s| && IsSpace(s[i]) ==> s[i] == ' ')
    && (forall i :: 0 <= i < |s| - 1 ==> !(IsSpace(s[i]) && IsSpace(s[i + 1])))
  }

  /** The characters of `s` that are not whitespace, in order. */
  function Words(s: string): (r: string)
    ensures forall i :: 0 <= i < |r| ==> !IsSpace(r[i])
  {
    if s == [] then [] else if IsSpace(s[0]) then Words(s[1..]) else [s[0]] + Words(s[1..])
  }

  /** `re.sub(r'\s+', ' ', s)`: every maximal whitespace run becomes one space. */
  function Collapse(s: string): (r: string)
    ensures Canonical(r)
    ensures r == [] <==> s == []
    ensures s != [] ==> (IsSpace(r[0]) <==> IsSpace(s[0]))
    decreases |s|
  {
    if s == [] then []
    else if IsSpace(s[0]) then [' '] + Collapse(LStrip(s[1..]))
    else [s[0]] + Collapse(s[1..])
  }

  /** The last character of the collapsed text is whitespace exactly when the input's is. */
  lemma {:induction false} CollapseLast(s: string)
    ensures s != [] ==> var r := Collapse(s); (IsSpace(r[|r| - 1]) <==> IsSpace(s[|s| - 1]))
    decreases |s|
  {
    if s == [] {
    } else if IsSpace(s[0]) {
      var r := Collapse(s);
      var t := LStrip(s[1..]);
      assert r == [' '] + Collapse(t);
      if t != [] {
        CollapseLast(t);
        assert s[|s| - 1] == t[|t| - 1];
      } else if |s| > 1 {
        assert IsSpace(s[1..][|s| - 2]);
      }
    } else {
      var r := Collapse(s);
      var t := s[1..];
      assert r == [s[0]] + Collapse(t);
      if t != [] {
        CollapseLast(t);
        assert s[|s| - 1] == t[|t| - 1];
      }
    }
  }

  lemma {:induction false} WordsLStrip(s: string)
    ensures Words(LStrip(s)) == Words(s)
  {
    if |s| > 0 && IsSpace(s[0]) {
      WordsLStrip(s[1..]);
    }
  }

  /** Collapsing whitespace keeps every other character, in order. */
  lemma {:induction false} CollapseKeepsWords(s: string)
    ensures Words(Collapse(s)) == Words(s)
    decreases |s|
  {
    if s != [] {
      if IsSpace(s[0]) {
        var t := LStrip(s[1..]);
        CollapseKeepsWords(t);
        WordsLStrip(s[1..]);
        assert Collapse(s) == [' '] + Collapse(t);
      } else {
        CollapseKeepsWords(s[1..]);
        assert Collapse(s) == [s[0]] + Collapse(s[1..]);
      }
    }
  }

  /** A whitespace run between two words becomes exactly one space: collapsing a text
      splits at the run into the collapse of each side, joined by " ". */
  lemma CollapseJoin(x: string, w: string, y: string)
    requires x == [] || !IsSpace(x[|x| - 1])
    requires w != [] && forall i :: 0 <= i < |w| ==> IsSpace(w[i])
    requires y == [] || !IsSpace(y[0])
    ensures Collapse(x + w + y) == Collapse(x) + " " + Collapse(y)
  {
    CollapseAppend(x, w + y);
    CollapseRunFirst(w, y);
    JoinAssoc(x, w, y);
    JoinAssoc(Collapse(x), " ", Collapse(y));
  }

  /** Collapsing works word by word: once a text ends in a word, what follows it collapses
      on its own. */
  lemma {:induction false} CollapseAppend(x: string, b: string)
    requires x == [] || !IsSpace(x[|x| - 1])
    ensures Collapse(x + b) == Collapse(x) + Collapse(b)
    decreases |x|
  {
    if x == [] {
      assert x + b == b;
    } else if IsSpace(x[0]) {
      var t := LStrip(x[1..]);
      CollapseSpaceFirst(x, b);
      CollapseAppend(t, b);
      AppendCarry(" ", t, x, b);
    } else {
      var t := x[1..];
      CollapseWordFirst(x, b);
      CollapseAppend(t, b);
      AppendCarry([x[0]], t, x, b);
    }
  }

  lemma JoinAssoc(a: string, b: string, c: string)
    ensures a + (b + c) == a + b + c
  {
  }

  /** The split found for `t` carries over to `x`, which collapses to `h` before `t`'s collapse
      both alone and with `b` behind it. */
  lemma AppendCarry(h: string, t: string, x: string, b: string)
    requires Collapse(x) == h + Collapse(t)
    requires Collapse(x + b) == h + Collapse(t + b)
    requires Collapse(t + b) == Collapse(t) + Collapse(b)
    ensures Collapse(x + b) == Collapse(x) + Collapse(b)
  {
    JoinAssoc(h, Collapse(t), Collapse(b));
  }

  /** A text that opens with a non-space keeps that character and collapses the rest. */
  lemma CollapseWordFirst(x: string, b: string)
    requires x != [] && !IsSpace(x[0])
    ensures |x| > 1 ==> x[1..][|x| - 2] == x[|x| - 1]
    ensures Collapse(x) == [x[0]] + Collapse(x[1..])
    ensures Collapse(x + b) == [x[0]] + Collapse(x[1..] + b)
  {
    ConcatHead(x, b);
  }

  lemma CollapseRunFirst(w: string, y: string)
    requires w != [] && forall i :: 0 <= i < |w| ==> IsSpace(w[i])
    requires y == [] || !IsSpace(y[0])
    ensures Collapse(w + y) == " " + Collapse(y)
  {
    ConcatHead(w, y);
    assert forall i :: 0 <= i < |w[1..]| ==> IsSpace(w[1..][i]) by {
      forall i | 0 <= i < |w[1..]| ensures IsSpace(w[1..][i]) {
        assert w[1..][i] == w[i + 1];
      }
    }
    LStripRun(w[1..], y);
  }

  /** The head and the tail of a concatenation whose first part is not empty. */
  lemma ConcatHead(x: string, b: string)
    requires x != []
    ensures (x + b)[0] == x[0] && (x + b)[1..] == x[1..] + b
  {
  }

  /** A text that opens with whitespace and ends in a word collapses to a space and the
      collapse of its stripped rest, whatever follows it. */
  lemma CollapseSpaceFirst(x: string, b: string)
    requires x != [] && IsSpace(x[0]) && !IsSpace(x[|x| - 1])
    ensures LStrip(x[1..]) != [] && !IsSpace(LStrip(x[1..])[|LStrip(x[1..])| - 1])
    ensures |LStrip(x[1..])| < |x|
    ensures Collapse(x) == " " + Collapse(LStrip(x[1..]))
    ensures Collapse(x + b) == " " + Collapse(LStrip(x[1..]) + b)
  {
    assert |x| >= 2 && x[1..][|x| - 2] == x[|x| - 1];
    ConcatHead(x, b);
    LStripKeeps(x[1..], b);
  }

  /** Text without whitespace is left alone. */
  lemma CollapseNoSpace(s: string)
    requires forall i :: 0 <= i < |s| ==> !IsSpace(s[i])
    ensures Collapse(s) == s
  {
    CollapseCanonical(s);
  }

  /** A run of whitespace in front of a word disappears under `lstrip`. */
  lemma {:induction false} LStripRun(w: string, y: string)
    requires forall i :: 0 <= i < |w| ==> IsSpace(w[i])
    requires y == [] || !IsSpace(y[0])
    ensures LStrip(w + y) == y
  {
    if w != [] {
      assert (w + y)[1..] == w[1..] + y;
      LStripRun(w[1..], y);
    } else {
      assert w + y == y;
    }
  }

  /** `lstrip` of a text that ends in a word stops inside it, so what follows is untouched;
      the stripped text still ends in that word. */
  lemma {:induction false} LStripKeeps(a: string, b: string)
    requires a != [] && !IsSpace(a[|a| - 1])
    ensures LStrip(a + b) == LStrip(a) + b
    ensures LStrip(a) != [] && !IsSpace(LStrip(a)[|LStrip(a)| - 1])
  {
    if IsSpace(a[0]) {
      assert (a + b)[1..] == a[1..] + b;
      LStripKeeps(a[1..], b);
    }
  }

  /** A string that is already canonical is left alone. */
  lemma {:induction false} CollapseCanonical(s: string)
    requires Canonical(s)
    ensures Collapse(s) == s
    decreases |s|
  {
    if s != [] {
      var t := s[1..];
      assert Canonical(t) by {
        forall i | 0 <= i < |t| ensures IsSpace(t[i]) ==> t[i] == ' ' {
          assert t[i] == s[i + 1];
        }
        forall i | 0 <= i < |t| - 1 ensures !(IsSpace(t[i]) && IsSpace(t[i + 1])) {
          assert t[i] == s[i + 1] && t[i + 1] == s[i + 2];
        }
      }
      CollapseCanonical(t);
      if IsSpace(s[0]) {
        assert s[0] == ' ';
        assert LStrip(t) == t by {
          if t != [] {
            assert t[0] == s[1] && !IsSpace(s[1]);
          }
        }
        assert Collapse(s) == [' '] + Collapse(t);
      } else {
        assert Collapse(s) == [s[0]] + Collapse(t);
      }
      assert s == [s[0]] + t;
    }
  }

  /** What `URL_PATTERN` accepts after the scheme: '!', the range 0x24..0x5F (which holds
      the digits, capitals, "$-_@.&+", "*\(),", and the '%' of an escape) and a..z. */
  predicate IsUrlChar(c: char) {
    c == '!' || (0x24 <= c as int <= 0x5F) || ('a' <= c <= 'z')
  }

  /** Length of the longest prefix of URL characters. */
  function UrlRun(s: string): (n: nat)
    ensures n <= |s|
    ensures forall i :: 0 <= i < n ==> IsUrlChar(s[i])
    ensures n < |s| ==> !IsUrlChar(s[n])
  {
    if s != [] && IsUrlChar(s[0]) then 1 + UrlRun(s[1..]) else 0
  }

  /** Length of the URL match at the start of `s`, or 0 when none starts there:
      `https://` is tried before `http://`, and at least one URL character must follow. */
  function UrlMatchLen(s: string): (n: nat)
    ensures n <= |s|
    ensures n > 0 ==> StartsWith(s, "http")
  {
    if StartsWith(s, "https://") && |s| > 8 && IsUrlChar(s[8]) then 8 + UrlRun(s[8..])
    else if StartsWith(s, "http://") && |s| > 7 && IsUrlChar(s[7]) then 7 + UrlRun(s[7..])
    else 0
  }

  const UrlMark: string := "[ссылка]"

  /** `URL_PATTERN.sub('[ссылка]', s)`: scans left to right, replacing each match. */
  function ReplaceUrls(s: string): (r: string)
    ensures s == [] <==> r == []
    ensures s != [] && IsSpace(r[0]) ==> IsSpace(s[0])
    ensures s != [] && IsSpace(r[|r| - 1]) ==> IsSpace(s[|s| - 1])
    decreases |s|
  {
    if s == [] then []
    else
      var n := UrlMatchLen(s);
      if n > 0 then
        var rest := ReplaceUrls(s[n..]);
        assert rest != [] ==> s[|s| - 1] == s[n..][|s[n..]| - 1];
        UrlMark + rest
      else
        var rest := ReplaceUrls(s[1..]);
        assert rest != [] ==> s[|s| - 1] == s[1..][|s[1..]| - 1];
        [s[0]] + rest
  }

  /** No URL match starts anywhere in `s`. */
  predicate NoUrl(s: string) {
    forall i :: 0 <= i < |s| ==> UrlMatchLen(s[i..]) == 0
  }

  /** Replacement changes the text exactly when it holds a URL. */
  lemma {:induction false} ReplaceUrlsIdentity(s: string)
    ensures ReplaceUrls(s) == s <==> NoUrl(s)
    decreases |s|
  {
    if s != [] {
      ReplaceUrlsIdentity(s[1..]);
      NoUrlCons(s);
      if UrlMatchLen(s) > 0 {
        UrlReplacedDiffers(s);
      } else {
        UnmatchedHead(s);
      }
    }
  }

  /** A URL at the start is replaced, so the text changes: the mark opens with '[', a URL
      with 'h'. */
  lemma UrlReplacedDiffers(s: string)
    requires s != [] && UrlMatchLen(s) > 0
    ensures ReplaceUrls(s) != s
  {
    var n := UrlMatchLen(s);
    assert ReplaceUrls(s) == UrlMark + ReplaceUrls(s[n..]);
    assert UrlMark[0] == '[';
    assert s[..4] == "http" && s[0] == s[..4][0];
  }

  /** A first character that starts no URL is kept, so the text is unchanged exactly when its
      rest is. */
  lemma UnmatchedHead(s: string)
    requires s != [] && UrlMatchLen(s) == 0
    ensures ReplaceUrls(s) == s <==> ReplaceUrls(s[1..]) == s[1..]
  {
    assert ReplaceUrls(s) == [s[0]] + ReplaceUrls(s[1..]);
    assert s == [s[0]] + s[1..];
  }

  lemma NoUrlCons(s: string)
    requires s != []
    ensures NoUrl(s) <==> UrlMatchLen(s) == 0 && NoUrl(s[1..])
  {
    var t := s[1..];
    assert s[0..] == s;
    if NoUrl(s) {
      forall i | 0 <= i < |t| ensures UrlMatchLen(t[i..]) == 0 {
        assert t[i..] == s[i + 1..];
      }
    }
    if UrlMatchLen(s) == 0 && NoUrl(t) {
      forall i | 0 <= i < |s| ensures UrlMatchLen(s[i..]) == 0 {
        if i > 0 {
          assert s[i..] == t[i - 1..];
        }
      }
    }
  }

  /** A scheme followed by a maximal run of URL characters becomes one mark. */
  lemma ReplaceUrlsMatch(scheme: string, run: string, rest: string)
    requires scheme == "https://" || scheme == "http://"
    requires run != [] && forall i :: 0 <= i < |run| ==> IsUrlChar(run[i])
    requires rest == [] || !IsUrlChar(rest[0])
    ensures ReplaceUrls(scheme + run + rest) == UrlMark + ReplaceUrls(rest)
  {
    UrlMatchOf(scheme, run, rest);
    DropPrefixes(scheme, run, rest);
  }

  lemma DropPrefixes(x: string, y: string, z: string)
    ensures (x + y + z)[|x| + |y|..] == z
  {
  }

  /** The URL match of a scheme and a maximal run covers exactly the two. */
  lemma UrlMatchOf(scheme: string, run: string, rest: string)
    requires scheme == "https://" || scheme == "http://"
    requires run != [] && forall i :: 0 <= i < |run| ==> IsUrlChar(run[i])
    requires rest == [] || !IsUrlChar(rest[0])
    ensures UrlMatchLen(scheme + run + rest) == |scheme| + |run|
  {
    var s := scheme + run + rest;
    var m := |scheme|;
    assert s[m..] == run + rest;
    UrlRunPrefix(run, rest);
    assert s[..m] == scheme;
    if scheme == "http://" {
      assert !StartsWith(s, "https://") by {
        assert s[4] == ':';
      }
    }
  }

  lemma {:induction false} UrlRunPrefix(run: string, rest: string)
    requires forall i :: 0 <= i < |run| ==> IsUrlChar(run[i])
    requires rest == [] || !IsUrlChar(rest[0])
    ensures UrlRun(run + rest) == |run|
  {
    if run != [] {
      assert (run + rest)[1..] == run[1..] + rest;
      UrlRunPrefix(run[1..], rest);
    } else {
      assert run + rest == rest;
    }
  }

  /** A prefix in which no "http" can begin is copied unchanged. */
  lemma {:induction false} ReplaceUrlsPrefix(p: string, s: string)
    requires NoSchemeIn(p)
    ensures ReplaceUrls(p + s) == p + ReplaceUrls(s)
    decreases |p|
  {
    if p == [] {
      assert p + s == s;
    } else {
      NoSchemeInTail(p);
      ReplaceUrlsPrefix(p[1..], s);
      ReplaceUrlsStep(p, s);
    }
  }

  /** `p` has no 'p', and every 'h' in it has three more characters of `p` after it,
      so no "http" can start inside `p`, whatever follows it. */
  predicate NoSchemeIn(p: string) {
    'p' !in p && forall i :: 0 <= i < |p| && p[i] == 'h' ==> i + 3 < |p|
  }

  lemma NoSchemeInTail(p: string)
    requires p != [] && NoSchemeIn(p)
    ensures NoSchemeIn(p[1..])
  {
    assert forall i :: 0 <= i < |p[1..]| ==> p[1..][i] == p[i + 1];
  }

  lemma ReplaceUrlsStep(p: string, s: string)
    requires p != [] && NoSchemeIn(p)
    requires ReplaceUrls(p[1..] + s) == p[1..] + ReplaceUrls(s)
    ensures ReplaceUrls(p + s) == p + ReplaceUrls(s)
  {
    NoSchemeHere(p, s);
    TailOfAppend(p, s);
    ReplaceUrlsCopy(p + s, p[1..] + s, p[0]);
    ConsTail(p, ReplaceUrls(s));
  }

  /** Where no URL starts, the first character is copied. */
  lemma ReplaceUrlsCopy(w: string, x: string, a: char)
    requires w != [] && UrlMatchLen(w) == 0
    requires w[0] == a && w[1..] == x
    ensures ReplaceUrls(w) == [a] + ReplaceUrls(x)
  {
  }

  lemma TailOfAppend(p: string, s: string)
    requires p != []
    ensures (p + s)[0] == p[0] && (p + s)[1..] == p[1..] + s
  {
  }

  lemma ConsTail(p: string, r: string)
    requires p != []
    ensures [p[0]] + (p[1..] + r) == p + r
  {
    assert p == [p[0]] + p[1..];
  }

  lemma NoSchemeHere(p: string, s: string)
    requires p != [] && 'p' !in p
    requires p[0] == 'h' ==> 3 < |p|
    ensures UrlMatchLen(p + s) == 0
  {
    var w := p + s;
    if p[0] == 'h' {
      assert w[3] == p[3] && p[3] in p;
    } else {
      assert w[0] == p[0];
    }
    assert !StartsWith(w, "http");
  }

  /** `sanitize_text`: strip, optionally replace URLs, then collapse whitespace runs. */
  function SanitizeText(text: string, removeUrls: bool): (r: string)
    ensures text == "" ==> r == ""
    ensures Trimmed(r) && Canonical(r)
  {
    if text == "" then ""
    else
      var t := Strip(text);
      var u := if removeUrls then ReplaceUrls(t) else t;
      ReplaceUrlsTrimmed(t);
      CollapseTrimmed(u);
      Collapse(u)
  }

  /** Between two words, `sanitize_text` turns any whitespace run into exactly one space and
      leaves each side as it would leave it alone. */
  lemma SanitizeJoin(x: string, w: string, y: string)
    requires x != [] && Trimmed(x) && y != [] && Trimmed(y)
    requires w != [] && forall i :: 0 <= i < |w| ==> IsSpace(w[i])
    ensures SanitizeText(x + w + y, false) == SanitizeText(x, false) + " " + SanitizeText(y, false)
  {
    var s := x + w + y;
    assert s[0] == x[0] && s[|s| - 1] == y[|y| - 1];
    StripIdentity(s);
    StripIdentity(x);
    StripIdentity(y);
    CollapseJoin(x, w, y);
  }

  /** Text without whitespace passes through `sanitize_text` unchanged when URLs are kept. */
  lemma SanitizeNoSpace(s: string)
    requires forall i :: 0 <= i < |s| ==> !IsSpace(s[i])
    ensures SanitizeText(s, false) == s
  {
    if s != [] {
      StripIdentity(s);
      CollapseNoSpace(s);
    }
  }

  lemma ReplaceUrlsTrimmed(t: string)
    requires Trimmed(t)
    ensures Trimmed(ReplaceUrls(t))
  {
  }

  lemma CollapseTrimmed(u: string)
    requires Trimmed(u)
    ensures Trimmed(Collapse(u))
  {
    CollapseLast(u);
  }

  /** Without URL removal, only whitespace changes. */
  lemma SanitizeKeepsWords(text: string)
    ensures Words(SanitizeText(text, false)) == Words(text)
  {
    if text != "" {
      CollapseKeepsWords(Strip(text));
      var a, b := StripSpan(text);
      WordsInfix(text, a, b);
    }
  }

  /** Dropping whitespace-only ends does not change the words. */
  lemma WordsInfix(s: string, a: nat, b: nat)
    requires a <= b <= |s|
    requires forall i :: 0 <= i < a ==> IsSpace(s[i])
    requires forall i :: b <= i < |s| ==> IsSpace(s[i])
    ensures Words(s[a..b]) == Words(s)
  {
    var x, m, y := s[..a], s[a..b], s[b..];
    ThreeSlices(s, a, b);
    forall i | 0 <= i < |x| ensures IsSpace(x[i]) {
      assert x[i] == s[i];
    }
    forall i | 0 <= i < |y| ensures IsSpace(y[i]) {
      assert y[i] == s[b + i];
    }
    WordsAround(x, m, y);
  }

  lemma ThreeSlices(s: string, a: nat, b: nat)
    requires a <= b <= |s|
    ensures s == s[..a] + s[a..b] + s[b..]
  {
  }

  /** Whitespace-only pieces on both sides add no words. */
  lemma WordsAround(x: string, m: string, y: string)
    requires forall i :: 0 <= i < |x| ==> IsSpace(x[i])
    requires forall i :: 0 <= i < |y| ==> IsSpace(y[i])
    ensures Words(x + m + y) == Words(m)
  {
    WordsAppend(x + m, y);
    WordsAppend(x, m);
    WordsBlank(x);
    WordsBlank(y);
  }

  lemma {:induction false} WordsAppend(x: string, y: string)
    ensures Words(x + y) == Words(x) + Words(y)
  {
    if x == [] {
      assert x + y == y;
    } else {
      assert (x + y)[1..] == x[1..] + y;
      WordsAppend(x[1..], y);
    }
  }

  lemma {:induction false} WordsBlank(x: string)
    requires forall i :: 0 <= i < |x| ==> IsSpace(x[i])
    ensures Words(x) == []
  {
    if x != [] {
      WordsBlank(x[1..]);
    }
  }

  /** Sanitising without URL removal is idempotent. */
  lemma SanitizeIdempotent(text: string)
    ensures SanitizeText(SanitizeText(text, false), false) == SanitizeText(text, false)
  {
    var r := SanitizeText(text, false);
    if r != "" {
      StripIdentity(r);
      CollapseCanonical(r);
    }
  }

  /** Text without any URL sanitises the same with or without URL removal. */
  lemma SanitizeNoUrl(text: string)
    requires NoUrl(Strip(text))
    ensures SanitizeText(text, true) == SanitizeText(text, false)
  {
    ReplaceUrlsIdentity(Strip(text));
  }

  /** A text ending in a URL, with no scheme before it, sanitises to the text with the
      URL replaced by the mark. */
  lemma SanitizeTrailingLink(p: string, run: string)
    requires NoSchemeIn(p) && Canonical(p) && (p == [] || !IsSpace(p[0]))
    requires run != [] && forall i :: 0 <= i < |run| ==> IsUrlChar(run[i])
    ensures SanitizeText(p + "https://" + run, true) == p + UrlMark
  {
    var text := p + "https://" + run;
    assert Strip(text) == text by {
      assert text[|text| - 1] == run[|run| - 1];
      assert p == [] ==> text[0] == 'h';
      assert p != [] ==> text[0] == p[0];
      StripIdentity(text);
    }
    LinkReplace(p, run);
    assert Collapse(p + UrlMark) == p + UrlMark by {
      MarkCanonical();
      CanonicalAppend(p, UrlMark);
      CollapseCanonical(p + UrlMark);
    }
  }

  lemma MarkCanonical()
    ensures Canonical(UrlMark) && forall i :: 0 <= i < |UrlMark| ==> !IsSpace(UrlMark[i])
  {
    forall i | 0 <= i < |UrlMark| ensures !IsSpace(UrlMark[i]) {
      assert UrlMark[i] == '[' || UrlMark[i] == ']' || 0x430 <= UrlMark[i] as int <= 0x44F;
    }
  }

  lemma CanonicalAppend(x: string, y: string)
    requires Canonical(x) && Canonical(y) && (y == [] || !IsSpace(y[0]))
    ensures Canonical(x + y)
  {
    var z := x + y;
    forall i | 0 <= i < |z| - 1 ensures !(IsSpace(z[i]) && IsSpace(z[i + 1])) {
      if i + 1 < |x| {
        assert z[i] == x[i] && z[i + 1] == x[i + 1];
      } else if i + 1 == |x| {
        assert z[i + 1] == y[0];
      } else {
        assert z[i] == y[i - |x|] && z[i + 1] == y[i + 1 - |x|];
      }
    }
  }

  /** The sample link text loses its URL to the mark. */
  lemma SanitizeLinkSample()
    ensures SanitizeText("Check this link: " + "https://" + "evil.com/malware", true)
      == "Check this link: " + UrlMark
  {
    var p := "Check this link: ";
    LinkSamplePrefix(p);
    LinkSampleRun("evil.com/malware");
    SanitizeTrailingLink(p, "evil.com/malware");
  }

  lemma LinkSamplePrefix(p: string)
    requires p == "Check this link: "
    ensures NoSchemeIn(p) && Canonical(p) && !IsSpace(p[0])
  {
    forall i | 0 <= i < |p| ensures p[i] != 'p' && (p[i] == 'h' ==> i + 3 < |p|) {
    }
    forall i | 0 <= i < |p| ensures IsSpace(p[i]) ==> p[i] == ' ' {
      assert p[i] == ' ' || p[i] == ':' || 'A' <= p[i] <= 'z';
    }
    forall i | 0 <= i < |p| - 1 ensures !(IsSpace(p[i]) && IsSpace(p[i + 1])) {
      assert p[i] != ' ' || p[i + 1] != ' ';
      assert p[i] == ' ' || p[i] == ':' || 'A' <= p[i] <= 'z';
      assert p[i + 1] == ' ' || p[i + 1] == ':' || 'A' <= p[i + 1] <= 'z';
    }
  }

  lemma LinkSampleRun(run: string)
    requires run == "evil.com/malware"
    ensures run != [] && forall i :: 0 <= i < |run| ==> IsUrlChar(run[i])
  {
    forall i | 0 <= i < |run| ensures IsUrlChar(run[i]) {
      assert run[i] == '.' || run[i] == '/' || 'a' <= run[i] <= 'z';
    }
  }

  /** A URL at the end of a text with no scheme before it becomes the mark. */
  lemma LinkReplace(p: string, run: string)
    requires NoSchemeIn(p)
    requires run != [] && forall i :: 0 <= i < |run| ==> IsUrlChar(run[i])
    ensures ReplaceUrls(p + "https://" + run) == p + UrlMark
  {
    UrlAlone(run);
    ReplaceUrlsPrefix(p, "https://" + run);
    AppendAssoc(p, "https://", run);
  }

  lemma UrlAlone(run: string)
    requires run != [] && forall i :: 0 <= i < |run| ==> IsUrlChar(run[i])
    ensures ReplaceUrls("https://" + run) == UrlMark
  {
    ReplaceUrlsMatch("https://", run, "");
    AppendEmpty("https://" + run);
    AppendEmpty(UrlMark);
  }

  lemma AppendEmpty(x: string)
    ensures x + "" == x
  {
  }

  lemma AppendAssoc(x: string, y: string, z: string)
    ensures x + y + z == x + (y + z)
  {
  }

  // ---------------------------------------------------------------------------
  // Usernames
  // ---------------------------------------------------------------------------

  datatype UsernameError = EmptyUsername | BadLength | BadCharacters

  /** `[a-zA-Z0-9_]`. */
  predicate IsUsernameChar(c: char) {
    ('a' <= c <= 'z') || ('A' <= c <= 'Z') || IsAsciiDigit(c) || c == '_'
  }

  predicate AllUsernameChars(s: string) {
    forall i :: 0 <= i < |s| ==> IsUsernameChar(s[i])
  }

  /** `s.lstrip('@')`: every leading '@' removed. */
  function DropAts(s: string): (r: string)
    ensures r == [] || r[0] != '@'
    ensures |r| <= |s| && r == s[|s| - |r|..]
    ensures forall i :: 0 <= i < |s| - |r| ==> s[i] == '@'
  {
    if s != [] && s[0] == '@' then DropAts(s[1..]) else s
  }

  /** `re.match(r'^[a-zA-Z0-9_]+$', t)`: Python's `$` also matches just before a final
      newline, so one trailing '\n' after the run is accepted. */
  predicate DollarMatch(t: string) {
    (t != [] && AllUsernameChars(t))
    || (|t| >= 2 && t[|t| - 1] == '\n' && AllUsernameChars(t[..|t| - 1]))
  }

  /** `validate_username` exactly as written. */
  function ValidateUsernameAsWritten(username: string): (v: Verdict<UsernameError>)
    ensures v == Invalid(EmptyUsername) <==> username == ""
    ensures v == Valid <==>
      username != "" && 5 <= |DropAts(username)| <= 32 && DollarMatch(DropAts(username))
    ensures v == Invalid(BadLength) <==> username != "" && !(5 <= |DropAts(username)| <= 32)
    ensures v == Invalid(BadCharacters) <==>
      username != "" && 5 <= |DropAts(username)| <= 32 && !DollarMatch(DropAts(username))
  {
    if username == "" then Invalid(EmptyUsername)
    else
      var t := DropAts(username);
      if |t| < 5 || |t| > 32 then Invalid(BadLength)
      else if !DollarMatch(t) then Invalid(BadCharacters)
      else Valid
  }

  /** `validate_username` with the character rule anchored at the true end of the string,
      as the rule "5-32 characters, alphanumeric and underscore" intends. */
  function ValidateUsername(username: string): (v: Verdict<UsernameError>)
    ensures v == Invalid(EmptyUsername) <==> username == ""
  {
    if username == "" then Invalid(EmptyUsername)
    else
      var t := DropAts(username);
      if |t| < 5 || |t| > 32 then Invalid(BadLength)
      else if !AllUsernameChars(t) then Invalid(BadCharacters)
      else Valid
  }

  /** A username is accepted exactly when it is some '@'s followed by 5 to 32 characters,
      each a letter, digit or underscore. */
  lemma ValidateUsernameChar(username: string)
    ensures ValidateUsername(username) == Valid <==>
      exists k :: 0 <= k <= |username| && (forall i :: 0 <= i < k ==> username[i] == '@')
        && 5 <= |username| - k <= 32 && AllUsernameChars(username[k..])
  {
    var t := DropAts(username);
    var m := |username| - |t|;
    if ValidateUsername(username) == Valid {
      assert username[m..] == t;
    }
    if exists k :: 0 <= k <= |username| && (forall i :: 0 <= i < k ==> username[i] == '@')
        && 5 <= |username| - k <= 32 && AllUsernameChars(username[k..]) {
      var k :| 0 <= k <= |username| && (forall i :: 0 <= i < k ==> username[i] == '@')
        && 5 <= |username| - k <= 32 && AllUsernameChars(username[k..]);
      assert username[k] != '@' by {
        assert username[k..][0] == username[k];
      }
      assert k >= m;
      assert username[m] == t[0];
      assert k == m;
      assert username[m..] == t;
    }
  }

  /** Extra leading '@'s never change the verdict on a non-empty username. */
  lemma ValidateUsernameAt(username: string)
    requires username != ""
    ensures ValidateUsername("@" + username) == ValidateUsername(username)
  {
    assert ("@" + username)[1..] == username;
  }

  /** Whatever the corrected rule accepts, the code as written accepts too. */
  lemma ValidateUsernameAsWrittenWeaker(username: string)
    requires ValidateUsername(username) == Valid
    ensures ValidateUsernameAsWritten(username) == Valid
  {
  }

  /** The code as written accepts a valid-looking name followed by a newline, even one whose
      real characters are below the minimum length; the corrected rule refuses it. */
  lemma TrailingNewline(name: string)
    requires 4 <= |name| <= 31 && name[0] != '@' && AllUsernameChars(name)
    ensures ValidateUsernameAsWritten(name + "\n") == Valid
    ensures ValidateUsername(name + "\n") == Invalid(BadCharacters)
  {
    var u := name + "\n";
    assert u[0] == name[0];
    assert DropAts(u) == u;
    assert u[..|u| - 1] == name;
    assert !IsUsernameChar(u[|u| - 1]);
  }

  /** "abcd\n" passes the code as written, though its four real characters are below the
      minimum; the corrected rule refuses it. */
  lemma ValidateUsernameNewline()
    ensures ValidateUsernameAsWritten("abcd\n") == Valid
    ensures ValidateUsername("abcd\n") == Invalid(BadCharacters)
  {
    var name := "abcd";
    forall i | 0 <= i < |name| ensures IsUsernameChar(name[i]) {
    }
    TrailingNewline(name);
    assert name + "\n" == "abcd\n";
  }

  lemma UsernameSamples()
    ensures ValidateUsername("testuser123") == Valid
    ensures ValidateUsername("abc") == Invalid(BadLength)
  {
    var u := "testuser123";
    assert DropAts(u) == u;
    forall i | 0 <= i < |u| ensures IsUsernameChar(u[i]) {
    }
    assert DropAts("abc") == "abc";
  }

  // ---------------------------------------------------------------------------
  // Ages
  // ---------------------------------------------------------------------------

  /** The argument of `validate_age`: an integer, a string, or a value that `<` cannot compare
      with an integer, such as `None`, for which `TypeError` is caught. A float would be
      compared directly (15.5 is valid); no caller passes one, so floats are not modelled. */
  datatype AgeInput = AgeNumber(n: int) | AgeText(s: string) | AgeOther

  datatype AgeError = NotANumber | TooYoung | TooOld

  /** The integer `validate_age` compares, or `None` where `int()` raises. */
  function AgeValue(a: AgeInput): (r: Option<int>)
    ensures a.AgeNumber? ==> r == Some(a.n)
    ensures a.AgeOther? ==> r == None
  {
    match a
    case AgeNumber(n) => Some(n)
    case AgeText(s) => ParseInt(Strip(s))
    case AgeOther => None
  }

  /** `validate_age`. */
  function ValidateAge(a: AgeInput): (v: Verdict<AgeError>)
    ensures v == Valid <==> AgeValue(a).Some? && 10 <= AgeValue(a).value <= 120
    ensures v == Invalid(NotANumber) <==> AgeValue(a).None?
  {
    match AgeValue(a)
    case None => Invalid(NotANumber)
    case Some(n) => if n < 10 then Invalid(TooYoung) else if n > 120 then Invalid(TooOld) else Valid
  }

  /** An age given as its decimal text, with any surrounding whitespace, is judged like
      the number itself. */
  lemma ValidateAgeText(n: int, pad: string)
    requires StrFits(n)
    requires forall i :: 0 <= i < |pad| ==> IsSpace(pad[i])
    ensures ValidateAge(AgeText(pad + IntToString(n) + pad)) == ValidateAge(AgeNumber(n))
  {
    var d := IntToString(n);
    assert !IsSpace(d[0]) && !IsSpace(d[|d| - 1]);
    PaddedAgeValue(pad, d);
    ParseIntToString(n);
  }

  /** `int()` refuses more than 4300 digits, so such an age is not a number, not too old. */
  lemma AgeTooManyDigits(pad: string, b: string)
    requires forall i :: 0 <= i < |pad| ==> IsSpace(pad[i])
    requires |b| > IntMaxStrDigits && forall i :: 0 <= i < |b| ==> IsDigit(b[i])
    ensures ValidateAge(AgeText(pad + b + pad)) == Invalid(NotANumber)
  {
    ParseIntTooLong(pad, "", b);
    Unsigned(pad, b);
  }

  lemma AgeSamples()
    ensures ValidateAge(AgeNumber(16)) == Valid
    ensures ValidateAge(AgeNumber(5)) == Invalid(TooYoung)
    ensures ValidateAge(AgeNumber(121)) == Invalid(TooOld)
    ensures ValidateAge(AgeText("abc")) == Invalid(NotANumber)
  {
    StripIdentity("abc");
  }

  /** `int()` reads digits of any script, so an age typed in Arabic-Indic digits is judged
      like the number. */
  lemma AgeOtherScripts()
    ensures ValidateAge(AgeText(" \U{0661}\U{0666} ")) == Valid
  {
    ArabicAgeValue(" \U{0661}\U{0666} ", "\U{0661}\U{0666}");
  }

  lemma ArabicAgeValue(s: string, d: string)
    requires d == "\U{0661}\U{0666}" && s == " " + d + " "
    ensures AgeValue(AgeText(s)) == Some(16)
  {
    ArabicSixteen(d);
    OneSpace(" ");
    PaddedAgeValue(" ", d);
  }

  lemma ArabicSixteen(d: string)
    requires d == "\U{0661}\U{0666}"
    ensures ParseInt(d) == Some(16) && d != [] && !IsSpace(d[0]) && !IsSpace(d[|d| - 1])
  {
    ParseIntOtherScripts();
  }

  lemma OneSpace(pad: string)
    requires pad == " "
    ensures forall i :: 0 <= i < |pad| ==> IsSpace(pad[i])
  {
  }

  /** Whitespace around the text of an age is ignored. */
  lemma PaddedAgeValue(pad: string, d: string)
    requires forall i :: 0 <= i < |pad| ==> IsSpace(pad[i])
    requires d != [] && !IsSpace(d[0]) && !IsSpace(d[|d| - 1])
    ensures AgeValue(AgeText(pad + d + pad)) == ParseInt(d)
  {
    StripPadded(pad, d);
  }

  // ---------------------------------------------------------------------------
  // Profile dictionaries
  // ---------------------------------------------------------------------------

  /** One entry of `sanitize_profile_data`: strings are cleaned, `note` only stripped. */
  function SanitizeValue(key: string, v: Value): (r: Value)
    ensures !v.Text? ==> r == v
    ensures v.Text? ==> r.Text? && Trimmed(r.s)
    ensures v.Text? && key == "note" ==> r == Text(Strip(v.s))
    ensures v.Text? && key != "note" ==> r == Text(SanitizeText(v.s, false))
  {
    match v
    case Text(s) => if key == "note" then Text(Strip(s)) else Text(SanitizeText(s, false))
    case _ => v
  }

  /** `sanitize_profile_data`: the same keys; `None` and non-string values unchanged. */
  function SanitizeProfileData(data: map<string, Value>): (r: map<string, Value>)
    ensures r.Keys == data.Keys
    ensures forall k :: k in data && !data[k].Text? ==> r[k] == data[k]
    ensures forall k :: k in data && data[k].Text? ==> r[k].Text? && Trimmed(r[k].s)
    ensures "note" in data && data["note"].Text? ==> r["note"] == Text(Strip(data["note"].s))
    ensures forall k :: k in data && data[k].Text? && k != "note" ==>
      r[k] == Text(SanitizeText(data[k].s, false))
  {
    map k | k in data :: SanitizeValue(k, data[k])
  }

  /** The note keeps its inner line breaks and all its words, losing only the surrounding
      whitespace; every other string ends up on one line. */
  lemma SanitizeNoteLines(data: map<string, Value>, k: string)
    requires k in data && data[k].Text?
    ensures k == "note" ==> SanitizeProfileData(data)[k].s == Strip(data[k].s)
    ensures k == "note" ==> Words(SanitizeProfileData(data)[k].s) == Words(data[k].s)
    ensures k != "note" ==> '\n' !in SanitizeProfileData(data)[k].s
  {
    var s := data[k].s;
    assert SanitizeProfileData(data)[k] == SanitizeValue(k, data[k]);
    if k == "note" {
      StripKeepsWords(s);
    } else {
      SanitizeOneLine(s);
    }
  }

  lemma StripKeepsWords(s: string)
    ensures Words(Strip(s)) == Words(s)
  {
    var a, b := StripSpan(s);
    WordsInfix(s, a, b);
  }

  /** Sanitised text holds no line break: every whitespace character left is a space. */
  lemma SanitizeOneLine(s: string)
    ensures '\n' !in SanitizeText(s, false)
  {
    var r := SanitizeText(s, false);
    assert IsSpace('\n');
    assert forall i :: 0 <= i < |r| ==> r[i] != '\n';
  }

  /** Sanitising a profile dictionary twice is the same as once. */
  lemma SanitizeProfileDataIdempotent(data: map<string, Value>)
    ensures SanitizeProfileData(SanitizeProfileData(data)) == SanitizeProfileData(data)
  {
    var once := SanitizeProfileData(data);
    forall k | k in once
      ensures SanitizeValue(k, once[k]) == once[k]
    {
      if data[k].Text? {
        if k == "note" {
          StripIdempotent(data[k].s);
        } else {
          SanitizeIdempotent(data[k].s);
        }
      }
    }
  }

  // ---------------------------------------------------------------------------
  // Spam ratio
  // ---------------------------------------------------------------------------

  /** Counted as a capital by `is_spam`: `c.isupper()`. */
  predicate IsCap(c: char) {
    IsUpper(c)
  }

  /** Counted as special by `is_spam`: neither alphanumeric nor the space ' ' (other
      whitespace counts). */
  predicate IsSpecial(c: char) {
    !IsAlnum(c) && c != ' '
  }

  /** Counted at least once by `is_spam`. */
  predicate Flagged(c: char) {
    IsCap(c) || IsSpecial(c)
  }

  /** `caps_count`. */
  function CountCaps(s: string): (n: nat)
    ensures n <= |s|
  {
    if s == [] then 0 else (if IsCap(s[0]) then 1 else 0) + CountCaps(s[1..])
  }

  /** `special_count`. */
  function CountSpecial(s: string): (n: nat)
    ensures n <= |s|
  {
    if s == [] then 0 else (if IsSpecial(s[0]) then 1 else 0) + CountSpecial(s[1..])
  }

  /** `is_spam`: false below five characters, otherwise the ratio of the two counts added
      together against the threshold (the float threshold is a real). */
  function IsSpam(text: string, threshold: real): (b: bool)
    ensures |text| < 5 ==> !b
    ensures |text| >= 5 ==>
      (b <==> (CountCaps(text) + CountSpecial(text)) as real > threshold * |text| as real)
  {
    if text == "" || |text| < 5 then false
    else ((CountCaps(text) + CountSpecial(text)) as real) / (|text| as real) > threshold
  }

  /** A higher threshold flags less. */
  lemma IsSpamMonotone(text: string, lo: real, hi: real)
    requires lo <= hi && IsSpam(text, hi)
    ensures IsSpam(text, lo)
  {
  }

  /** Every capital of this model (Latin and basic Cyrillic) is alphanumeric, so no character
      is both a capital and special. */
  lemma CapNotSpecial(c: char)
    ensures !(IsCap(c) && IsSpecial(c))
  {
  }

  /** When no character is both a capital and special, the two counts together are at most
      the length. */
  lemma {:induction false} CountedOnce(s: string)
    requires forall i :: 0 <= i < |s| ==> !(IsCap(s[i]) && IsSpecial(s[i]))
    ensures CountCaps(s) + CountSpecial(s) <= |s|
  {
    if s != [] {
      CountedOnce(s[1..]);
    }
  }

  /** With a threshold of 1 or more nothing is spam, given that no character is counted
      twice (true of the capitals this model knows, see CapNotSpecial). */
  lemma IsSpamNever(text: string, threshold: real)
    requires threshold >= 1.0
    ensures !IsSpam(text, threshold)
  {
    forall i | 0 <= i < |text|
      ensures !(IsCap(text[i]) && IsSpecial(text[i]))
    {
      CapNotSpecial(text[i]);
    }
    CountedOnce(text);
  }

  /** Counting over two pieces adds up. */
  lemma {:induction false} CountsAppend(x: string, y: string)
    ensures CountCaps(x + y) == CountCaps(x) + CountCaps(y)
    ensures CountSpecial(x + y) == CountSpecial(x) + CountSpecial(y)
  {
    if x == [] {
      assert x + y == y;
    } else {
      assert (x + y)[1..] == x[1..] + y;
      CountsAppend(x[1..], y);
    }
  }

  /** A text of flagged characters has at least one count per character. */
  lemma {:induction false} AllFlagged(s: string)
    requires forall i :: 0 <= i < |s| ==> Flagged(s[i])
    ensures CountCaps(s) + CountSpecial(s) >= |s|
  {
    if s != [] {
      AllFlagged(s[1..]);
    }
  }

  /** A text opening with enough flagged characters is spam, whatever follows. */
  lemma SpamByPrefix(a: string, b: string, threshold: real)
    requires forall i :: 0 <= i < |a| ==> Flagged(a[i])
    requires |a + b| >= 5 && |a| as real > threshold * |a + b| as real
    ensures IsSpam(a + b, threshold)
  {
    AllFlagged(a);
    CountsAppend(a, b);
  }

  lemma SpamSample()
    ensures IsSpam("XXXXXX!!!!!!@@@@@" + "  SPAM SPAM SPAM", 0.5)
  {
    var a := "XXXXXX!!!!!!@@@@@";
    forall i | 0 <= i < |a| ensures Flagged(a[i]) {
    }
    SpamByPrefix(a, "  SPAM SPAM SPAM", 0.5);
  }
}

=== FILE: wrappers.dfy ===
/** Small value wrappers shared by every module of the model. */
module Wrappers {

  /** Python's `None` versus a present value. */
  datatype Option<+T> = None | Some(value: T)

  /** A dictionary key that may be missing, or present and holding `None` or a value.
      Only needed where the source distinguishes `d.get(k, default)` from `d.get(k)`. */
  datatype Entry<+T> = Missing | Given(held: Option<T>)

  /** A value held in a profile dictionary: `None`, an integer, a string or a boolean. */
  datatype Value = Null | Int(i: int) | Text(s: string) | Flag(b: bool)

  /** Python truthiness of an optional string: `None` and `""` are both false. */
  predicate Truthy(o: Option<string>) {
    o.Some? && o.value != ""
  }

  /** Python truthiness of an optional integer: `None` and `0` are both false. */
  predicate TruthyInt(o: Option<int>) {
    o.Some? && o.value != 0
  }
}
